=== FILE: README.md ===
# MapMLServer tile grid, in Dafny

A model of the tile-reference engine of MapMLServer. The server answers a
map request (a bounding box, a zoom level, an offset `start`) with a MapML
document. The document lists, one page at a time, the map tiles that cover the
box, nearest the box's centre first, with one `<tile>` element per tile and
URL template, and it links to the next page.

The model covers the following:

- `Numerics`: Java's truncating `/` and `%` and the `(long)` cast.
- `Text`: `String.split(",")`, which drops trailing empty fields; `trim`;
  `replaceFirst`; the `&` to `&amp;` escape; and decimal integer reading and
  printing.
- `Geometry`: `Point` (divide, floor, ceil, round, distance) and `Bounds`
  (built from two corners or from a string, extend, centre, intersects).
- `Registry`: the three tiled coordinate reference systems (OSMTILE, CBMTILE,
  APSTILE): their codes, extents, tile origins and per-zoom resolutions.
- `TileGrid`: the row-major offset walk over a rectangle of tiles. The walk is
  cut to one page of tiles that exist at the zoom level and sorted by distance
  from a centre. The module holds both the walk as the source writes it and
  the corrected walk (see Findings).
- `TiledCrs`: `TiledCRS`. This covers construction by name, the per-zoom
  tile envelopes, pixel bounds, tile width and count, and `getTilesForExtent`.
- `Bboxes`, `ServiceBounds`, `QueryParams`: `Bbox` (parse, validity,
  `toString`), `MapMLServiceBounds.intersects`, and the request parameters
  with their defaults, ranges and error message.
- `Printer`: the `MapMLPrinter` operations:
  - tile coordinates, tile count and width, and the page of tiles;
  - the `next` offset and link;
  - the rotation of tile servers;
  - filling the `{s}`, `{z}`, `{y}`, `{x}` placeholders in the URL templates;
  - the order of the printed tile elements.

Java `double` is modelled as `real`, and Java `int` and `long` as unbounded
`int`. Parameters stand in for the parts the model does not compute:

- the Web Mercator formulas of `getTileCoordinates`, given as a `Projector`;
- `Double.parseDouble` and `Double.toString`, given as `valueOf` and `show`;
- the page size;
- the iteration order of the tile-server `HashSet`, given as a sequence.

## Model

| member | source | states |
|---|---|---|
| Numerics.JavaDiv | src/main/java/org/mapml/MapMLPrinter.java:353 | Java's `start/width` truncates: the quotient's magnitude is the quotient of the magnitudes, and it is positive exactly when the operands have the same sign |
| Numerics.JavaRem | src/main/java/org/mapml/MapMLPrinter.java:354 | Java's `start % width` is what the truncating quotient leaves: `a == (a/b)*b + a%b`, smaller than the divisor in magnitude, with the sign of the dividend |
| Numerics.JavaDivRemNonNegative | src/main/java/org/mapml/projections/TiledCRS.java:205-206 | for a non-negative offset and a positive width, Java's quotient and remainder are the Euclidean ones |
| Numerics.Trunc | src/main/java/org/mapml/projections/TiledCRS.java:180 | the `(long)` cast of a double rounds toward zero |
| Text.SplitAll | src/main/java/org/mapml/util/Bbox.java:165 | cutting at every separator gives at least one piece, and no piece contains the separator |
| Text.JoinSplitAll | src/main/java/org/mapml/util/Bbox.java:165 | joining the pieces of a cut with the separator gives the string back |
| Text.SplitAllJoin | src/main/java/org/mapml/util/Bbox.java:165 | cutting a join of separator-free pieces gives the pieces back |
| Text.DropTrailingEmpty | src/main/java/org/mapml/util/Bbox.java:165 | the kept pieces are a prefix of the pieces; they do not end with an empty piece, and only empty pieces are dropped |
| Text.JavaSplit | src/main/java/org/mapml/util/Bbox.java:165 | `split(",")` is the whole string when there is no comma; otherwise it is the cut with trailing empty fields dropped |
| Text.JavaSplitJoin | src/main/java/org/mapml/util/Bbox.java:165 | splitting comma-joined fields whose last field is non-empty gives the fields back |
| Text.TrailingSeparator | src/main/java/org/mapml/util/Bbox.java:165-168 | a trailing comma is dropped, so `w,s,e,n,` still has four fields |
| Text.TrailingSeparatorDropped | src/main/java/org/mapml/projections/Bounds.java:100-102 | `"1,2,3,4,"` splits into four fields |
| Text.FourFields | src/main/java/org/mapml/util/Bbox.java:162-171 | a missing or empty string is refused; otherwise the fields are accepted exactly when `split` gives four of them, and they are those four |
| Text.FourNumbers | src/main/java/org/mapml/util/Bbox.java:118-122 | the four fields are accepted exactly when each reads as a double, and the results are those doubles in order |
| Text.Trim | src/main/java/org/mapml/uri/QueryParam.java:122 | the trimmed text is empty exactly when the text is blank (every character at most U+0020); otherwise it starts and ends with a visible character |
| Text.TrimStart | src/main/java/org/mapml/uri/QueryParam.java:122 | removes exactly the leading characters at or below U+0020 |
| Text.TrimEnd | src/main/java/org/mapml/uri/QueryParam.java:122 | removes exactly the trailing characters at or below U+0020 |
| Text.IndexFrom | src/main/java/org/mapml/MapMLPrinter.java:250-252 | returns the first position at or after `from` where the pattern occurs, or nothing when it occurs nowhere there |
| Text.ReplaceFirst | src/main/java/org/mapml/MapMLPrinter.java:250-252 | with no occurrence the text is unchanged; otherwise the first occurrence, and only that one, is replaced |
| Text.EscapeAmp | src/main/java/org/mapml/MapMLPrinter.java:253 | escaping never shortens the text |
| Text.UnescapeEscapeAmp | src/main/java/org/mapml/MapMLPrinter.java:253 | escaping loses nothing: undoing it gives the `src` back |
| Text.EscapedAmpersandsAreEntities | src/main/java/org/mapml/MapMLPrinter.java:253 | every `&` of the escaped text starts an `&amp;` entity |
| Text.ParseInteger | src/main/java/org/mapml/uri/QueryParam.java:81-95 | accepted exactly when the text is one or more ASCII digits, or a `+` or `-` followed by one or more digits; digits read as their decimal value, `+` keeps it and `-` negates it |
| Text.ShowNat | src/main/java/org/mapml/MapMLPrinter.java:251-252 | a natural prints as a non-empty run of digits |
| Text.DigitsValueShowNat | src/main/java/org/mapml/MapMLPrinter.java:251-252 | reading a printed natural back gives the number |
| Text.ParseShowInt | src/main/java/org/mapml/uri/QueryParam.java:79-95 | every integer printed in decimal reads back as itself, negatives included |
| Text.ParseNegated | src/main/java/org/mapml/uri/QueryParam.java:81 | a minus sign before digits reads as the negated value |
| Text.ParseIntegerExamples | src/main/java/org/mapml/uri/QueryParam.java:81 | `+15` reads as 15; `15a`, `1.5`, a lone `+` and a lone `-` are refused |
| Geometry.DivideBy | src/main/java/org/mapml/projections/Point.java:53-60 | both ordinates are divided: multiplying the result by the divisor gives the point back |
| Geometry.FloorOf | src/main/java/org/mapml/projections/Point.java:70-73 | `Math.floor` is the integral value at or below the argument and less than one below it |
| Geometry.CeilOf | src/main/java/org/mapml/projections/Point.java:79-82 | `Math.ceil` is the integral value at or above the argument and less than one above it |
| Geometry.RoundOf | src/main/java/org/mapml/projections/Point.java:88-91 | `Math.round` is the integral value within one half, with halves rounded up |
| Geometry.FloorUnique | src/main/java/org/mapml/projections/Point.java:70-73 | the floor is the only integer with that property |
| Geometry.FloorMonotone | src/main/java/org/mapml/projections/Point.java:66-74 | flooring keeps order |
| Geometry.RoundUnique | src/main/java/org/mapml/projections/Point.java:84-92 | any integer within one half (halves up) of a value is its rounding |
| Geometry.RoundMonotone | src/main/java/org/mapml/projections/Point.java:84-92 | rounding keeps order |
| Geometry.Floor | src/main/java/org/mapml/projections/Point.java:66-74 | `floor()` floors both ordinates of a copy |
| Geometry.Ceil | src/main/java/org/mapml/projections/Point.java:75-83 | `ceil()` raises both ordinates of a copy to integers |
| Geometry.Round | src/main/java/org/mapml/projections/Point.java:84-92 | `round()` rounds both ordinates of a copy, halves up |
| Geometry.DistanceSq | src/main/java/org/mapml/projections/Point.java:94-98 | the squared distance is never negative |
| Geometry.DistanceMetric | src/main/java/org/mapml/projections/Point.java:94-98 | distance is symmetric, and a point is at distance zero from itself |
| Geometry.Extend | src/main/java/org/mapml/projections/Bounds.java:108-119 | the extended bounds contain the point and everything the old bounds contained; a point already inside leaves them unchanged |
| Geometry.FromCorners | src/main/java/org/mapml/projections/Bounds.java:55-58 | bounds made from two corners are valid, with the smaller ordinates as minimum and the larger as maximum |
| Geometry.FromCornersIsSmallest | src/main/java/org/mapml/projections/Bounds.java:55-58 | they contain both corners, and any bounds containing both corners contain them |
| Geometry.FromCornersSymmetric | src/main/java/org/mapml/projections/Bounds.java:55-58 | the order of the corners does not matter |
| Geometry.Centre | src/main/java/org/mapml/projections/Bounds.java:121-123 | the centre is equally far from both edges on each axis, and it lies inside valid bounds |
| Geometry.IntersectsIffCommonPoint | src/main/java/org/mapml/projections/Bounds.java:132-142 | two valid bounds intersect exactly when some point lies in both, edges included |
| Geometry.IntersectsSymmetricAndClosed | src/main/java/org/mapml/projections/Bounds.java:132-142 | intersection is symmetric, and bounds that only touch at a corner intersect |
| Geometry.Intersects | src/main/java/org/mapml/projections/Bounds.java:132-142 | the boxes overlap on both axes, edges included (characterised by `Geometry.IntersectsIffCommonPoint`) |
| Geometry.BoundsFromString | src/main/java/org/mapml/projections/Bounds.java:60-106 | the text is accepted exactly when it holds four numbers; the bounds are then valid, contain both corner points, and take their edges from those numbers |
| Registry.Scale | src/main/java/org/mapml/projections/TiledCRSConstants.java:55-57 | a zoom level's scale is the reciprocal of its resolution |
| Registry.Lookup | src/main/java/org/mapml/projections/TiledCRSConstants.java:46-138 | a name has a definition exactly when it is one of the three registered names; the definition carries that name and is well formed |
| Registry.OsmtileWellFormed | src/main/java/org/mapml/projections/TiledCRSConstants.java:49-78 | the OSMTILE extent is valid, its tile size is 256, and its resolutions are positive and strictly decreasing |
| Registry.CbmtileWellFormed | src/main/java/org/mapml/projections/TiledCRSConstants.java:80-107 | the same for CBMTILE |
| Registry.ApstileWellFormed | src/main/java/org/mapml/projections/TiledCRSConstants.java:110-138 | the same for APSTILE |
| Registry.RegistryContents | src/main/java/org/mapml/projections/TiledCRSConstants.java:49-138 | OSMTILE is EPSG:3857 with 19 zoom levels, CBMTILE is EPSG:3978 with 18, APSTILE is EPSG:5936 with 20; codes and lower-case names are not registered names |
| TileGrid.Row | src/main/java/org/mapml/projections/TiledCRS.java:206 | one row of the walk is its columns from left to right |
| TileGrid.RowStart | src/main/java/org/mapml/projections/TiledCRS.java:205 | the walk starts in the row that holds the `start`-th tile in row-major order: `(row - minY) * width <= start < (row - minY + 1) * width` for a positive offset and width; the top row otherwise |
| TileGrid.ColStart | src/main/java/org/mapml/projections/TiledCRS.java:206 | the walk starts in the column of the `start`-th tile: inside the rectangle, at what is left of `start` after the whole rows above; the left edge otherwise |
| TileGrid.Candidates | src/main/java/org/mapml/projections/TiledCRS.java:205-206 | the tiles the nested loops visit as written: the rows from `RowStart` down, each from column `ColStart` right (its membership is stated by `TileGrid.CandidatesMembership`) |
| TileGrid.CandidatesMembership | src/main/java/org/mapml/projections/TiledCRS.java:205-206 | a tile is visited by the walk as written exactly when it lies at or below the first row and at or right of the offset's column, so columns left of that column are skipped in every row |
| TileGrid.CorrectedCandidates | src/main/java/org/mapml/projections/TiledCRS.java:205-206 | the walk the offset evidently intends: the first row from the offset's column, every later row from the left edge (its meaning is stated by `TileGrid.CorrectedWalkIsSuffix`) |
| TileGrid.WalkEmpty | src/main/java/org/mapml/projections/TiledCRS.java:205-206 | the walk as written visits tiles exactly when the offset is below the number of tiles |
| TileGrid.RowsMembership | src/main/java/org/mapml/projections/TiledCRS.java:205-206 | the full walk visits exactly the tiles of the rectangle at the zoom level |
| TileGrid.RowsLength | src/main/java/org/mapml/projections/TiledCRS.java:205-206 | the full walk has height times width tiles |
| TileGrid.RowsSplit | src/main/java/org/mapml/projections/TiledCRS.java:205-206 | the walk over rows is the walk over the upper rows followed by the walk over the lower rows |
| TileGrid.RowsIncreasing | src/main/java/org/mapml/projections/TiledCRS.java:205-206 | the walk is in row-major order |
| TileGrid.CorrectedWalkIsSuffix | src/main/java/org/mapml/projections/TiledCRS.java:205-206 | the corrected walk from offset `start` is the full walk without its first `start` tiles |
| TileGrid.CorrectedWalkEmpty | src/main/java/org/mapml/projections/TiledCRS.java:205-206 | the corrected walk visits tiles exactly when the offset is below the number of tiles |
| TileGrid.AlignedOffsetUnaffected | src/main/java/org/mapml/projections/TiledCRS.java:205-206 | when the offset falls at the start of a row, the walk as written and the corrected walk agree |
| TileGrid.Filter | src/main/java/org/mapml/projections/TiledCRS.java:208 | keeps exactly the tiles that exist at the zoom level, in order |
| TileGrid.FilterAppend | src/main/java/org/mapml/projections/TiledCRS.java:208 | filtering distributes over concatenation |
| TileGrid.FilterAllLive | src/main/java/org/mapml/projections/TiledCRS.java:208 | when every tile exists, the filter keeps them all |
| TileGrid.Take | src/main/java/org/mapml/projections/TiledCRS.java:207 | the page is the first `pageSize` tiles kept, or all of them if fewer |
| TileGrid.PageStep | src/main/java/org/mapml/projections/TiledCRS.java:207-210 | while the page has room, a visited tile that exists is appended and any other tile changes nothing |
| TileGrid.PageFull | src/main/java/org/mapml/projections/TiledCRS.java:211-213 | once the page is full, the rest of the walk does not change it |
| TileGrid.CollectPage | src/main/java/org/mapml/projections/TiledCRS.java:205-215 | the double loop as written computes the page of its own walk |
| TileGrid.CollectCorrectedPage | src/main/java/org/mapml/projections/TiledCRS.java:205-215 | the double loop, with the inner start column applied to the first row only, computes the page of the corrected walk |
| TileGrid.CorrectedPageIsSlice | src/main/java/org/mapml/projections/TiledCRS.java:205-215 | when every tile of the rectangle exists, the page of the corrected walk at offset `start` is tiles `start` to `start + pageSize` of the full walk |
| TileGrid.CorrectedPagesJoin | src/main/java/org/mapml/projections/TiledCRS.java:205-215 | a page of the corrected walk followed by its page at the next offset is the matching two-page slice of the full walk |
| TileGrid.PageHasNoDuplicates | src/main/java/org/mapml/projections/TiledCRS.java:205-215 | a page of the walk as written lists no tile twice |
| TileGrid.PageBounds | src/main/java/org/mapml/projections/TiledCRS.java:205-215 | a page of the walk as written holds at most `pageSize` tiles, each existing, in the rectangle and at the zoom level |
| TileGrid.CorrectedWalkShape | src/main/java/org/mapml/projections/TiledCRS.java:205-206 | the corrected walk is in row-major order and stays in the rectangle at the zoom level |
| TileGrid.CorrectedPageBounds | src/main/java/org/mapml/projections/TiledCRS.java:205-215 | the same bounds hold for a page of the corrected walk |
| TileGrid.CorrectedPageHasNoDuplicates | src/main/java/org/mapml/projections/TiledCRS.java:205-215 | a page of the corrected walk lists no tile twice |
| TileGrid.FirstPageComplete | src/main/java/org/mapml/projections/TiledCRS.java:205-215 | when all tiles exist and fit on a page, the first page is the whole rectangle |
| TileGrid.AsWrittenPagingSkipsAndRepeats | src/main/java/org/mapml/projections/TiledCRS.java:205-206 | paging a 3-by-3 rectangle by 4 with the walk as written never serves tile (0,2) and serves tile (2,2) twice |
| TileGrid.CorrectedPagingCoversOnce | src/main/java/org/mapml/projections/TiledCRS.java:205-206 | with the corrected walk, the three pages of that rectangle are exactly its nine tiles in order |
| TileGrid.Insert | src/main/java/org/mapml/projections/TiledCRS.java:218 | inserting into a list sorted by distance keeps it sorted and adds just that tile |
| TileGrid.SortBy | src/main/java/org/mapml/projections/TiledCRS.java:218 | the sort is ordered by distance and is a permutation of its input |
| TileGrid.SortKeepsTiles | src/main/java/org/mapml/projections/TiledCRS.java:218 | sorting keeps the length and the set of tiles, and a list without duplicates stays without |
| TileGrid.LastRowDecides | src/main/java/org/mapml/projections/TiledCRS.java:208 | along a row-major walk, some tile reaches the envelope test exactly when the last tile's row is not negative |
| TileGrid.SortedPageWalk | src/main/java/org/mapml/projections/TiledCRS.java:203-219 | the operation as written fails exactly on a positive offset with zero width, or on a missing envelope once a tile of a non-negative row is examined; otherwise gives at most `pageSize` distinct existing tiles, sorted by distance, that are a permutation of the page of the walk as written |
| TileGrid.SortedCorrectedPageWalk | src/main/java/org/mapml/projections/TiledCRS.java:203-219 | the same failures and bounds for the corrected walk; the tiles are a permutation of the page of the corrected walk |
| TiledCrs.TransformRoundTrip | src/main/java/org/mapml/projections/TiledCRS.java:134-142 | the transformation to pixels and its inverse undo each other at every positive scale |
| TiledCrs.Transform | src/main/java/org/mapml/projections/TiledCRS.java:77 | x kept and y flipped about the tile origin, then scaled (its inverse is stated by `TiledCrs.TransformRoundTrip`) |
| TiledCrs.Untransform | src/main/java/org/mapml/projections/TiledCRS.java:140 | the inverse mapping back to projected units (stated by `TiledCrs.TransformRoundTrip`) |
| TiledCrs.TransformOrientation | src/main/java/org/mapml/projections/TiledCRS.java:77 | the tile origin maps to (0,0), x keeps its direction, and y is flipped to grow downwards |
| TiledCrs.TileIndexBounds | src/main/java/org/mapml/projections/TiledCRS.java:200-202 | each corner is the integral tile that holds the corresponding pixel corner |
| TiledCrs.ZoomEnvelope | src/main/java/org/mapml/projections/TiledCRS.java:94-110 | a zoom level's envelope holds the tile of the far pixel corner of the grid's extent |
| TiledCrs.Init | src/main/java/org/mapml/projections/TiledCRS.java:90-112 | there is one envelope per zoom level, the one `ZoomEnvelope` gives |
| TiledCrs.New | src/main/java/org/mapml/projections/TiledCRS.java:68-89 | construction succeeds exactly for a registered name, with one envelope per resolution; otherwise it fails with "Definition for Tiled CRS not found: " and the name |
| TiledCrs.NewIsBuilt | src/main/java/org/mapml/projections/TiledCRS.java:68-89 | a constructed grid holds the registered definition and its envelopes |
| TiledCrs.GetPixelBounds | src/main/java/org/mapml/projections/TiledCRS.java:160-164 | the pixel bounds are valid and integral, and contain both rounded transformed corners |
| TiledCrs.PixelBoundsCorners | src/main/java/org/mapml/projections/TiledCRS.java:160-164 | for valid bounds, because y flips, the west and north edges give the left column and top row, and the east and south edges the right column and bottom row |
| TiledCrs.RectOf | src/main/java/org/mapml/projections/TiledCRS.java:200-202 | the walk's rectangle has the tile index bounds as its edges, and is never empty |
| TiledCrs.TileWidth | src/main/java/org/mapml/projections/TiledCRS.java:178-181 | zero for zoom -1 or no bounds; otherwise the number of tile columns, both edges included |
| TiledCrs.TileWidthIsRowLength | src/main/java/org/mapml/projections/TiledCRS.java:178-181 | the width is the positive row length of the walk's rectangle |
| TiledCrs.TileCountIsWalkLength | src/main/java/org/mapml/projections/TiledCRS.java:183-193 | the count is height times width of the tile rectangle, which is the length of the full walk |
| TiledCrs.TileCount | src/main/java/org/mapml/projections/TiledCRS.java:183-193 | zero for zoom -1 or no bounds (the count in general is stated by `TiledCrs.TileCountIsWalkLength`) |
| TiledCrs.TileCentre | src/main/java/org/mapml/projections/TiledCRS.java:216-217 | the sort's reference point, the extent's centre in tile units, not truncated (used by `TiledCrs.GetTilesForExtent`) |
| TiledCrs.EnvelopeAt | src/main/java/org/mapml/projections/TiledCRS.java:208 | `tileBounds.get(zoom)` finds an envelope exactly for the zoom levels of the grid |
| TiledCrs.GetTilesForExtent | src/main/java/org/mapml/projections/TiledCRS.java:195-220 | fails on a positive offset at zoom -1, and on a zoom level the grid lacks once a tile of a non-negative row is examined; otherwise it gives at most `pageSize` distinct existing tiles of the extent's rectangle, sorted nearest the extent's centre, that are a permutation of the page of the walk as written |
| TiledCrs.GetTilesForExtentCorrected | src/main/java/org/mapml/projections/TiledCRS.java:195-220 | the same failures and bounds with the corrected walk; the tiles are a permutation of the corrected page |
| TiledCrs.OsmtileEnvelopes | src/main/java/org/mapml/projections/TiledCRS.java:90-112 | the OSMTILE envelope has column bound 1 and row bound 1 at zoom 0, and 32768 and 32768 at zoom 15. The walk's column test excludes the bound and its row test includes it, so rows 0 and 1 pass at zoom 0 |
| TiledCrs.ZoomEnvelopeFromSpan | src/main/java/org/mapml/projections/TiledCRS.java:94-110 | for a grid whose origin is a corner of its square extent, the envelope is fixed by how many tiles the span holds |
| TiledCrs.OttawaPaging | src/test/java/org/mapml/projections/TiledCRSTest.java:125-135 | the eight tiles of a two-row rectangle at zoom 15 come as pages of 5 and 3, and the second page is the same for both walks |
| Bboxes.EnvelopeOf | src/main/java/org/mapml/util/Bbox.java:71 | the envelope is valid, holds the south-west and north-east corners, and takes its edges from the box |
| Bboxes.IsValid | src/main/java/org/mapml/util/Bbox.java:74-86 | a box is valid exactly when west < east and south < north |
| Bboxes.ValidBoxHasArea | src/main/java/org/mapml/util/Bbox.java:75 | a valid box has positive width, height and area, so the area test adds nothing |
| Bboxes.Parse | src/main/java/org/mapml/util/Bbox.java:109-140 | accepts exactly four numbers with west < east and south < north, in order; the error says which check failed |
| Bboxes.FromString | src/main/java/org/mapml/util/Bbox.java:57-72 | the box is built exactly when the text parses, from its four numbers in order, and is then valid |
| Bboxes.FromList | src/main/java/org/mapml/util/Bbox.java:88-98 | the box is built exactly from a list of at least four values with west < east and south < north |
| Bboxes.ToStringRoundTrip | src/main/java/org/mapml/util/Bbox.java:158-160 | printing a valid box and parsing the text gives the box back, whenever numbers print faithfully |
| Bboxes.ToString | src/main/java/org/mapml/util/Bbox.java:158-160 | west, south, east, north joined by commas (its inverse is stated by `Bboxes.ToStringRoundTrip`) |
| Bboxes.FromListThenString | src/main/java/org/mapml/util/Bbox.java:88-98 | a box built from a list prints to text that parses back to the same box |
| ServiceBounds.Intersects | src/main/java/org/mapml/MapMLServiceBounds.java:83-88 | false for zoom -1 or no box; otherwise true exactly when the zoom is in the service's range and the two boxes share a point |
| ServiceBounds.IntersectsOwnBoxAndSymmetric | src/main/java/org/mapml/MapMLServiceBounds.java:83-88 | the service's own box intersects at every zoom of its range, and swapping the two boxes does not change the answer |
| QueryParams.NamesDistinct | src/main/java/org/mapml/uri/QueryParam.java:55-95 | no two parameters share a name |
| QueryParams.ParseBounded | src/main/java/org/mapml/uri/QueryParam.java:81 | `parseInt`/`parseLong` accept exactly the decimal integers within the type's range |
| QueryParams.ParseValue | src/main/java/org/mapml/uri/QueryParam.java:55-95 | zoom accepts integers -1 to 18; start accepts 0 to 2^36; alt and projection take the text as is; coordinates take the double reading |
| QueryParams.Parse | src/main/java/org/mapml/uri/QueryParam.java:117-136 | an absent or blank value gives the default; otherwise the reader's value, or the error "Invalid value <text> for parameter <name>" |
| QueryParams.ZoomRoundTrip | src/main/java/org/mapml/uri/QueryParam.java:79-84 | every zoom in range, printed, is read back as itself, and every other integer is refused |
| QueryParams.StartRoundTrip | src/main/java/org/mapml/uri/QueryParam.java:89-95 | every offset in range, printed, is read back as itself, and every other integer is refused |
| QueryParams.ZoomNumbers | src/test/java/org/mapml/uri/QueryParamTest.java:77-80 | "15" and "-1" are read; "26" and "-4" are refused |
| QueryParams.ZoomText | src/main/java/org/mapml/uri/QueryParam.java:122-130 | "foo" and " 15" are refused; a blank or absent value gives the default -1 |
| QueryParams.NotANumber | src/main/java/org/mapml/uri/QueryParam.java:122-130 | a visible value that starts with neither a digit nor a sign is refused with the error |
| QueryParams.StartLimit | src/main/java/org/mapml/uri/QueryParam.java:92-93 | 2^36 is accepted; 2^36 + 1 and -1 are refused |
| Printer.TileCoordinates | src/main/java/org/mapml/MapMLPrinter.java:270-282 | a position's tile is the integral tile holding the projected position |
| Printer.Maxima | src/main/java/org/mapml/MapMLPrinter.java:86-92 | zoom levels 0 to 20 have an envelope, the tile of latitude -85.0511 and longitude 180: its column and row are the whole parts of that corner's tile position; other levels have none |
| Printer.TileRectOf | src/main/java/org/mapml/MapMLPrinter.java:348-349 | the tile rectangle runs from the tile of the north-west corner to the tile of the south-east corner |
| Printer.RectOfValidBbox | src/main/java/org/mapml/MapMLPrinter.java:320-324 | under a projection that keeps order, a valid box has a non-empty tile rectangle |
| Printer.TileWidth | src/main/java/org/mapml/MapMLPrinter.java:333-338 | zero for zoom -1 or no box; otherwise the rectangle's width |
| Printer.TileCountIsWalkLength | src/main/java/org/mapml/MapMLPrinter.java:317-326 | the count is the length of the full walk over the rectangle |
| Printer.TileCount | src/main/java/org/mapml/MapMLPrinter.java:317-326 | zero for zoom -1 or no box; otherwise the rectangle's height times the width the walk divides by |
| Printer.Centre | src/main/java/org/mapml/MapMLPrinter.java:350 | the sort's reference point, the decimal tile position of the centre of the bbox's envelope (used by `Printer.TilesInBbox`) |
| Printer.TilesInBbox | src/main/java/org/mapml/MapMLPrinter.java:347-373 | fails exactly on a positive offset with zero width, or, at a zoom without maxima, once a tile of a non-negative row is examined; otherwise gives at most `pageSize` distinct existing tiles sorted by distance from the centre, a permutation of the page of the walk as written |
| Printer.TilesInBboxCorrected | src/main/java/org/mapml/MapMLPrinter.java:347-373 | the same failures and bounds with the corrected walk; the tiles are a permutation of the corrected page |
| Printer.NextOffset | src/main/java/org/mapml/MapMLPrinter.java:165-170 | the offset is 0 unless the count exceeds the page size; it is then the offset after this page, and 0 when that passes the count |
| Printer.NextLinkIffTilesRemain | src/main/java/org/mapml/MapMLPrinter.java:165-185 | for a non-negative offset and a positive page size, a `next` link is printed exactly when tiles remain after this page, and it points just past the page |
| Printer.HasNextLink | src/main/java/org/mapml/MapMLPrinter.java:183 | the link is printed when the next offset is positive and differs from the count (characterised by `Printer.NextLinkIffTilesRemain`) |
| Printer.FollowLinksCoversRest | src/main/java/org/mapml/MapMLPrinter.java:183-186 | when each page is the slice of the full walk at its offset, following `next` links from any offset serves the rest of the tiles, each once and in order. The corrected walk meets that condition; the walk as written does not (see Findings) |
| Printer.FollowLinksCoversAll | src/main/java/org/mapml/MapMLPrinter.java:160-187 | following the links from offset 0 over the corrected walk serves every tile of the rectangle once, in row-major order |
| Printer.ServerFor | src/main/java/org/mapml/MapMLPrinter.java:243-248 | each tile takes a server of the list, or "" when there is none |
| Printer.SrcFillsPlaceholders | src/main/java/org/mapml/MapMLPrinter.java:250-253 | a template with `{s}`, `{z}`, `{x}`, `{y}` in that order and no other braces gets the server, zoom, column and row in their places, and then `&` is escaped |
| Printer.Src | src/main/java/org/mapml/MapMLPrinter.java:250-253 | the first `{s}`, `{z}`, `{y}`, `{x}` replaced in that order, then every `&` escaped (stated by `Printer.SrcFillsPlaceholders`) |
| Printer.FirstPlaceholder | src/main/java/org/mapml/MapMLPrinter.java:250-252 | a placeholder after brace-free text is the one replaced |
| Printer.PlaceholderAfterOther | src/main/java/org/mapml/MapMLPrinter.java:252 | `{y}` is found after an `{x}` still in the text |
| Printer.Block | src/main/java/org/mapml/MapMLPrinter.java:249-258 | a tile has one element per template, in template order, each with the tile's column and row |
| Printer.ElementsLength | src/main/java/org/mapml/MapMLPrinter.java:243-259 | there is one element per pair of tile and template |
| Printer.ElementAt | src/main/java/org/mapml/MapMLPrinter.java:243-259 | the element for tile k and template m sits at k times the number of templates plus m, and uses the k-th server of the rotation |
| Printer.TileElements | src/main/java/org/mapml/MapMLPrinter.java:237-261 | the loop over tiles, with the server iterator restarted after its last server, gives the reference elements |
| Printer.TemplateElements | src/main/java/org/mapml/MapMLPrinter.java:249-258 | the inner loop over templates gives one tile's block |
| Printer.SetTileServers | src/main/java/org/mapml/MapMLPrinter.java:118-122 | no list changes nothing; otherwise the servers become the old ones together with the comma-separated names |
| Printer.SetTileServersFromNames | src/main/java/org/mapml/MapMLPrinter.java:118-122 | one or more comma-free names joined with commas, the last one non-empty, are added exactly, and configuring the same list twice is the same as once |
| Printer.PrintDocument | src/main/java/org/mapml/MapMLPrinter.java:160-189 | a printed document carries the tile count. A request that does not intersect the service gets an extent with zoom -1 and no tiles; only an intersecting request can fail, and then with one of the walk's two errors. Otherwise the page is a permutation of the page of the walk as written, sorted and without duplicates, the elements are those of the page, and, for a non-negative offset and a positive page size, the `next` link appears exactly when tiles remain |
| Printer.SixteenElements | src/test/java/org/mapml/MapMLPrinterTest.java:103 | eight tiles and two templates give sixteen tile elements |
| Printer.ServersRotate | src/test/java/org/mapml/MapMLPrinterTest.java:75 | the servers "a,b,c" are read as three, and tiles 0, 3 and 4 take a, a and b |
| Printer.EightTilesInPagesOfFour | src/main/java/org/mapml/MapMLPrinter.java:165-185 | eight tiles in pages of four: a link from page one, none from page two, and the two pages of the walk as written together hold all the tiles. In an eight-tile rectangle offset 4 starts a row or lies in the only row, so the walk as written and the corrected walk agree there |
| Printer.EightTilesWalksAgree | src/main/java/org/mapml/projections/TiledCRS.java:205-206 | in a rectangle of eight tiles the walk as written and the corrected walk are the same at offsets 0 and 4 |
| Printer.NineTilesLinkChain | src/main/java/org/mapml/MapMLPrinter.java:165-185 | nine tiles in pages of four link from offset 0 to 4 and from 4 to 8, and not beyond |

## Left out

- The projection library (proj4j) and `Transformation.java` are not part of this model. The transformation is taken to be the affine map `TiledCRS` constructs: x kept, y flipped, shifted to the tile origin and scaled.
- The `LatLng` overloads of `getPixelBounds` and `getTilesForExtent` need that projection, so they are left out.
- The Web Mercator formulas of `getTileCoordinates` and `getTileDecimalCoordinates` are given as the `Projector` parameter. The model states what the printer does with their results.
- The OSMTILE extent is computed in the source by projecting ±85.0511287798 degrees. The model writes down the projected value, ±20037508.342789244.
- `double` arithmetic is modelled over the reals. Rounding, infinities and NaN are not modelled, and neither is overflow of `long` products in the tile counts.
- Distances are compared as squared distances, because `Math.sqrt` keeps order.
- `Double.parseDouble` and `Double.toString` are parameters. The bbox round trip is stated for any pair that reads back what it prints.
- `Integer.parseInt` and `Long.parseLong` are modelled for ASCII digits only; other Unicode decimal digits are not.
- `replaceFirst` and `replaceAll` are modelled for literal patterns. The source's regular expressions are escaped literals.
- Server names, zoom and tile numbers are inserted into templates literally. Java's `replaceFirst` would treat `$` and `\` in a server name as a group reference or an escape.
- `Printer.SrcFillsPlaceholders` covers templates with all four placeholders and no other braces. The element layout lemmas take the filler as a parameter (`Fill`), so they hold for any template.
- The page size is a parameter. The source's static field and `setPageSize` are not modelled.
- The order in which the `HashSet` of tile servers iterates is taken as a sequence.
- The XML markup of the document is not modelled: the head, the license link, the `<extent>` element and its `<input>` children, and the text of the `next` URL. `PrintDocument` returns the values that are printed.
- The servlet, logging and the getters are left out, and so is `Point.clone`. The model's values are immutable, so a copy is the value itself.
- `Collections.sort` is stable, but the model's sort is only stated to be a permutation ordered by distance. The order of tiles at equal distance is not fixed.
- Geometry.DistanceMetric: does not state that distance zero implies equal points, only symmetry and zero distance to itself.
- Text.EscapeAmp: its own contract only bounds the length; what the escape does is stated by UnescapeEscapeAmp and EscapedAmpersandsAreEntities.
- TiledCrs.TileCount: its own contract covers only zoom -1 and no bounds; the count in general is stated by TiledCrs.TileCountIsWalkLength.
- `MapMLServiceBoundsTest`, `ProjectionTest` and `BboxTest` are not restated lemma by lemma. The properties they check are stated generally above.

## Findings

| source | as written | input that shows it | evidently intended | confidence | as-written member | corrected member |
|---|---|---|---|---|---|---|
| src/main/java/org/mapml/projections/TiledCRS.java:205-206 (the same loops at src/main/java/org/mapml/MapMLPrinter.java:353-354) | the offset's column `start % width` is the starting column of every row, not just the first one | a 3-by-3 rectangle at a zoom level whose grid holds it (for example OSMTILE zoom 2, which has 4-by-4 tiles), every tile existing, with page size 4. Offsets 0, 4 and 8 give pages that never include tile (0,2) and include tile (2,2) twice | the walk from offset `start` is the full row-major walk without its first `start` tiles, so that following `next` links serves every tile once | not executed | TileGrid.AsWrittenPagingSkipsAndRepeats | TileGrid.CorrectedPagingCoversOnce |

`TileGrid.SortedPageWalk`, `TiledCrs.GetTilesForExtent`, `Printer.TilesInBbox`
and `Printer.PrintDocument` follow the source as written: their pages come from
`TileGrid.Candidates` through `TileGrid.CollectPage`. The corrected walk is
`TileGrid.CorrectedCandidates` and `TileGrid.CollectCorrectedPage`, used by
`TileGrid.SortedCorrectedPageWalk`, `TiledCrs.GetTilesForExtentCorrected`,
`Printer.TilesInBboxCorrected` and the paging lemmas
(`TileGrid.CorrectedPageIsSlice`, `Printer.FollowLinksCoversAll`).
`TileGrid.AlignedOffsetUnaffected` shows the two walks agree whenever the
offset falls at the start of a row, so only offsets that fall mid-row are
affected. The zoom level the lemmas give the nine tiles is only a label: the
walk does not depend on it.

=== FILE: bboxes.dfy ===
/** The `bbox` request parameter (util/Bbox.java): four ordinates in
    west,south,east,north order, read from a comma-separated string or taken
    from a list, and the box they span. */
module Bboxes {
  import opened Outcomes
  import opened Geometry
  import Text

  datatype Bbox = Bbox(west: real, south: real, east: real, north: real)

  /** The JTS envelope of the ordinates: each axis range ordered low to
      high, whatever order the ordinates came in. */
  function EnvelopeOf(b: Bbox): (e: Bounds)
    ensures Valid(e)
    ensures Contains(e, Point(b.west, b.south)) && Contains(e, Point(b.east, b.north))
    ensures e.min.x in {b.west, b.east} && e.max.x in {b.west, b.east}
    ensures e.min.y in {b.south, b.north} && e.max.y in {b.south, b.north}
  {
    FromCorners(Point(b.west, b.south), Point(b.east, b.north))
  }

  /** `isValid`: a zero area, height or width fails, and so does a west edge
      not strictly west of the east edge or a south edge not strictly south
      of the north edge. */
  function IsValid(b: Bbox): (ok: bool)
    ensures ok <==> b.west < b.east && b.south < b.north
  {
    var e := EnvelopeOf(b);
    var width, height := e.max.x - e.min.x, e.max.y - e.min.y;
    ProductOfPositives(width, height);
    if width * height == 0.0 || height == 0.0 || width == 0.0 then false
    else if b.west >= b.east || b.south >= b.north then false
    else true
  }

  lemma ProductOfPositives(a: real, b: real)
    ensures a > 0.0 && b > 0.0 ==> a * b > 0.0
  {
  }

  /** The area check is subsumed by the edge check: a box whose edges are in
      order has a positive area. */
  lemma ValidBoxHasArea(b: Bbox)
    requires IsValid(b)
    ensures var e := EnvelopeOf(b);
            e.min == Point(b.west, b.south) && e.max == Point(b.east, b.north) &&
            (e.max.x - e.min.x) * (e.max.y - e.min.y) > 0.0
  {
    ProductOfPositives(b.east - b.west, b.north - b.south);
  }

  /** Why a `Bbox` cannot be built. */
  datatype BboxError =
    | Unparsable(cause: Text.FieldError)          // null, wrong count or not a number
    | WestNotBeforeEast(west: real, east: real)   // "minLong must be greater than maxLong"
    | SouthNotBeforeNorth(south: real, north: real)
    | TooFewOrdinates(count: nat)                 // a list shorter than four
    | Invalid(box: Bbox)                          // `isValid` failed

  /** `parse(String)`: the four numbers, with the west edge checked before
      the south edge. */
  function Parse(s: Option<string>, valueOf: string -> Option<real>): (r: Result<seq<real>, BboxError>)
    ensures r.Ok? <==> Text.FourNumbers(s, valueOf).Ok? &&
                       var v := Text.FourNumbers(s, valueOf).value; v[0] < v[2] && v[1] < v[3]
    ensures r.Ok? ==> r.value == Text.FourNumbers(s, valueOf).value
    ensures Text.FourNumbers(s, valueOf).Err? ==> r == Err(Unparsable(Text.FourNumbers(s, valueOf).error))
    ensures r.Err? && r.error.SouthNotBeforeNorth? ==> Text.FourNumbers(s, valueOf).value[0] < Text.FourNumbers(s, valueOf).value[2]
  {
    match Text.FourNumbers(s, valueOf)
    case Err(e) => Err(Unparsable(e))
    case Ok(v) =>
      if v[0] >= v[2] then Err(WestNotBeforeEast(v[0], v[2]))
      else if v[1] >= v[3] then Err(SouthNotBeforeNorth(v[1], v[3]))
      else Ok(v)
  }

  /** `new Bbox(String)`: the parsed ordinates, always a valid box. */
  function FromString(s: Option<string>, valueOf: string -> Option<real>): (r: Result<Bbox, BboxError>)
    ensures r.Ok? <==> Parse(s, valueOf).Ok?
    ensures r.Ok? ==> IsValid(r.value)
    ensures r.Ok? ==> var v := Parse(s, valueOf).value;
                      r.value == Bbox(v[0], v[1], v[2], v[3])
    ensures r.Err? ==> r.error == Parse(s, valueOf).error
  {
    match Parse(s, valueOf)
    case Err(e) => Err(e)
    case Ok(v) => Ok(Bbox(v[0], v[1], v[2], v[3]))
  }

  /** `new Bbox(List<Double>)`: the first four entries, rejected unless they
      make a valid box. */
  function FromList(ords: seq<real>): (r: Result<Bbox, BboxError>)
    ensures r.Ok? <==> |ords| >= 4 && ords[0] < ords[2] && ords[1] < ords[3]
    ensures r.Ok? ==> r.value == Bbox(ords[0], ords[1], ords[2], ords[3])
    ensures |ords| < 4 ==> r == Err(TooFewOrdinates(|ords|))
  {
    if |ords| < 4 then Err(TooFewOrdinates(|ords|))
    else
      var b := Bbox(ords[0], ords[1], ords[2], ords[3]);
      if !IsValid(b) then Err(Invalid(b)) else Ok(b)
  }

  /** `toString`: the four ordinates, comma-separated, each printed by
      `show` (Java's `Double.toString`). */
  function ToString(b: Bbox, show: real -> string): string {
    Text.Join([show(b.west), show(b.south), show(b.east), show(b.north)], ',')
  }

  /** What a number printer must do for printing to be undone by reading:
      non-empty, comma-free output that reads back as the same number. */
  predicate Faithful(show: real -> string, valueOf: string -> Option<real>, v: real) {
    show(v) != [] && ',' !in show(v) && valueOf(show(v)) == Some(v)
  }

  /** Printing a valid box and parsing the text gives the box back. */
  lemma ToStringRoundTrip(b: Bbox, show: real -> string, valueOf: string -> Option<real>)
    requires IsValid(b)
    requires Faithful(show, valueOf, b.west) && Faithful(show, valueOf, b.south)
    requires Faithful(show, valueOf, b.east) && Faithful(show, valueOf, b.north)
    ensures FromString(Some(ToString(b, show)), valueOf) == Ok(b)
  {
    var pieces := [show(b.west), show(b.south), show(b.east), show(b.north)];
    Text.JavaSplitJoin(pieces, ',');
    var text := ToString(b, show);
    assert text != [] by {
      assert text == pieces[0] + [','] + Text.Join(pieces[1..], ',');
    }
    assert Text.FourFields(Some(text)) == Ok(pieces);
  }

  /** A box printed by `toString` after the list constructor accepted it can
      be read back by the string constructor. */
  lemma FromListThenString(ords: seq<real>, show: real -> string, valueOf: string -> Option<real>)
    requires FromList(ords).Ok?
    requires forall i :: 0 <= i < 4 ==> Faithful(show, valueOf, ords[i])
    ensures FromString(Some(ToString(FromList(ords).value, show)), valueOf) == FromList(ords)
  {
    var b := FromList(ords).value;
    assert Faithful(show, valueOf, ords[0]) && Faithful(show, valueOf, ords[1]);
    assert Faithful(show, valueOf, ords[2]) && Faithful(show, valueOf, ords[3]);
    ToStringRoundTrip(b, show, valueOf);
  }
}

=== FILE: geometry.dfy ===
/** Points and axis-aligned boxes over real coordinates (Point.java and
    Bounds.java). Every Java operation that clones and then mutates the clone
    is a pure function here, so the receiver is unchanged by construction. */
module Geometry {
  import opened Outcomes
  import Text

  datatype Point = Point(x: real, y: real)

  predicate IsIntegral(v: real) {
    v == v.Floor as real
  }

  /** `Point.divideBy`: both coordinates divided by `n`. */
  function DivideBy(p: Point, n: real): (r: Point)
    requires n != 0.0
    ensures r.x * n == p.x && r.y * n == p.y
  {
    Point(p.x / n, p.y / n)
  }

  /** `Math.floor`: the greatest integer at or below `v`. */
  function FloorOf(v: real): (r: real)
    ensures IsIntegral(r) && r <= v < r + 1.0
  {
    v.Floor as real
  }

  /** `Math.ceil`: the least integer at or above `v`. */
  function CeilOf(v: real): (r: real)
    ensures IsIntegral(r) && r - 1.0 < v <= r
  {
    var f := (-v).Floor;
    FloorOfInteger(-f);
    (-f) as real
  }

  /** An integer is its own floor. */
  lemma FloorOfInteger(k: int)
    ensures (k as real).Floor == k
  {
  }

  /** The floor is the only integer within [x - 1, x]. */
  lemma FloorUnique(x: real, k: int)
    requires k as real <= x < k as real + 1.0
    ensures x.Floor == k
  {
    var f := x.Floor;
    assert f as real <= x < f as real + 1.0;
    assert (f - k) as real < 1.0 && (k - f) as real < 1.0;
  }

  /** `Math.round`: the integer nearest `v`, halves rounded up (floor of v + 1/2). */
  function RoundOf(v: real): (r: real)
    ensures IsIntegral(r) && r - 0.5 <= v < r + 0.5
  {
    (v + 0.5).Floor as real
  }

  /** Flooring never reverses the order of two values. */
  lemma FloorMonotone(u: real, v: real)
    ensures u <= v ==> FloorOf(u) <= FloorOf(v)
  {
    if u <= v {
      var fu, fv := u.Floor, v.Floor;
      assert (fu - fv) as real < 1.0;
    }
  }

  /** `Point.floor`. */
  function Floor(p: Point): (r: Point)
    ensures IsIntegral(r.x) && r.x <= p.x < r.x + 1.0
    ensures IsIntegral(r.y) && r.y <= p.y < r.y + 1.0
  {
    Point(FloorOf(p.x), FloorOf(p.y))
  }

  /** `Point.ceil`. */
  function Ceil(p: Point): (r: Point)
    ensures IsIntegral(r.x) && r.x - 1.0 < p.x <= r.x
    ensures IsIntegral(r.y) && r.y - 1.0 < p.y <= r.y
  {
    Point(CeilOf(p.x), CeilOf(p.y))
  }

  /** `Point.round`. */
  function Round(p: Point): (r: Point)
    ensures IsIntegral(r.x) && r.x - 0.5 <= p.x < r.x + 0.5
    ensures IsIntegral(r.y) && r.y - 0.5 <= p.y < r.y + 0.5
  {
    Point(RoundOf(p.x), RoundOf(p.y))
  }

  /** An integral value within [v - 1/2, v + 1/2) is the rounding of v: the
      contract of `RoundOf` pins its result down. */
  lemma RoundUnique(v: real, k: int)
    requires k as real - 0.5 <= v < k as real + 0.5
    ensures RoundOf(v) == k as real
  {
    FloorUnique(v + 0.5, k);
  }

  /** Rounding never reverses the order of two values. */
  lemma RoundMonotone(u: real, v: real)
    requires u <= v
    ensures RoundOf(u) <= RoundOf(v)
  {
    var fu, fv := (u + 0.5).Floor, (v + 0.5).Floor;
    assert fu as real <= u + 0.5 <= v + 0.5 < fv as real + 1.0;
    assert (fu - fv) as real < 1.0;
  }

  /** The square of `distanceTo`; the square root is monotone on the
      non-negative reals, so comparing squares orders points the same way. */
  function DistanceSq(p: Point, q: Point): (d: real)
    ensures d >= 0.0
  {
    Square(q.x - p.x) + Square(q.y - p.y)
  }

  /** `v * v`, never negative. */
  function Square(v: real): (r: real)
    ensures r >= 0.0
  {
    SquareSign(v);
    v * v
  }

  lemma SquareSign(v: real)
    ensures v * v >= 0.0
    ensures v != 0.0 ==> v * v > 0.0
  {
    if v < 0.0 {
      var w := -v;
      assert v * v == w * w;
    }
  }

  lemma SquareOfNegation(v: real)
    ensures Square(-v) == Square(v)
  {
    assert (-v) * (-v) == v * v;
  }

  /** Distance is symmetric, and a point is at distance zero from itself. */
  lemma DistanceMetric(p: Point, q: Point)
    ensures DistanceSq(p, q) == DistanceSq(q, p)
    ensures DistanceSq(p, p) == 0.0
  {
    assert p.x - q.x == -(q.x - p.x) && p.y - q.y == -(q.y - p.y);
    SquareOfNegation(q.x - p.x);
    SquareOfNegation(q.y - p.y);
  }

  // ---------------------------------------------------------------------
  // Bounds
  // ---------------------------------------------------------------------

  datatype Bounds = Bounds(min: Point, max: Point)

  /** The invariant every constructed `Bounds` keeps. */
  predicate Valid(b: Bounds) {
    b.min.x <= b.max.x && b.min.y <= b.max.y
  }

  /** The closed box contains the point. */
  predicate Contains(b: Bounds, p: Point) {
    b.min.x <= p.x <= b.max.x && b.min.y <= p.y <= b.max.y
  }

  /** `extend` on a box that already has corners. (On the first call of a
      constructor `min` and `max` are null and both become the point.) */
  function Extend(b: Bounds, p: Point): (r: Bounds)
    ensures Contains(r, p)
    ensures Valid(b) ==> Valid(r) && forall q :: Contains(b, q) ==> Contains(r, q)
    ensures Contains(b, p) ==> r == b
  {
    Bounds(Point(Min(p.x, b.min.x), Min(p.y, b.min.y)),
           Point(Max(p.x, b.max.x), Max(p.y, b.max.y)))
  }

  function Min(a: real, b: real): real {
    if a <= b then a else b
  }

  function Max(a: real, b: real): real {
    if a >= b then a else b
  }

  /** `new Bounds(a, b)`: extend an empty box by `a`, then by `b`. */
  function FromCorners(a: Point, b: Point): (r: Bounds)
    ensures Valid(r)
    ensures r.min == Point(Min(a.x, b.x), Min(a.y, b.y))
    ensures r.max == Point(Max(a.x, b.x), Max(a.y, b.y))
  {
    Extend(Bounds(a, a), b)
  }

  /** The smallest box holding both points, whatever their order. */
  lemma FromCornersIsSmallest(a: Point, b: Point, c: Bounds)
    requires Contains(c, a) && Contains(c, b)
    ensures Contains(FromCorners(a, b), a) && Contains(FromCorners(a, b), b)
    ensures forall q :: Contains(FromCorners(a, b), q) ==> Contains(c, q)
  {
  }

  /** The corners may be given in either order. */
  lemma FromCornersSymmetric(a: Point, b: Point)
    ensures FromCorners(a, b) == FromCorners(b, a)
  {
  }

  /** `getCentre`: the midpoint of the corners. */
  function Centre(b: Bounds): (r: Point)
    ensures r.x - b.min.x == b.max.x - r.x
    ensures r.y - b.min.y == b.max.y - r.y
    ensures Valid(b) ==> Contains(b, r)
  {
    Point((b.min.x + b.max.x) / 2.0, (b.min.y + b.max.y) / 2.0)
  }

  /** `intersects`: both axis ranges overlap, end points included. */
  function Intersects(a: Bounds, b: Bounds): bool {
    b.max.x >= a.min.x && b.min.x <= a.max.x && b.max.y >= a.min.y && b.min.y <= a.max.y
  }

  /** Two valid boxes intersect exactly when some point lies in both. */
  lemma IntersectsIffCommonPoint(a: Bounds, b: Bounds)
    requires Valid(a) && Valid(b)
    ensures Intersects(a, b) <==> exists p :: Contains(a, p) && Contains(b, p)
  {
    if Intersects(a, b) {
      var w := Point(Max(a.min.x, b.min.x), Max(a.min.y, b.min.y));
      assert Contains(a, w) && Contains(b, w);
    }
  }

  /** Intersection does not depend on the order of the boxes, and a shared
      edge or corner is enough. */
  lemma IntersectsSymmetricAndClosed(a: Bounds, b: Bounds)
    ensures Intersects(a, b) == Intersects(b, a)
    ensures Valid(a) && Valid(b) && a.max == b.min ==> Intersects(a, b)
  {
  }

  // ---------------------------------------------------------------------
  // new Bounds(String)
  // ---------------------------------------------------------------------

  /** `new Bounds(String)`: four comma-separated numbers read as two corners
      (west,south and east,north). Reversed corners are normalised by
      `extend`, not rejected. */
  function BoundsFromString(s: Option<string>, valueOf: string -> Option<real>): (r: Result<Bounds, Text.FieldError>)
    ensures r.Ok? <==> Text.FourNumbers(s, valueOf).Ok?
    ensures r.Ok? ==> Valid(r.value)
    ensures r.Ok? ==> var v := Text.FourNumbers(s, valueOf).value;
                      Contains(r.value, Point(v[0], v[1])) && Contains(r.value, Point(v[2], v[3]))
    ensures r.Ok? ==> var v := Text.FourNumbers(s, valueOf).value;
                      r.value.min.x in {v[0], v[2]} && r.value.max.x in {v[0], v[2]} &&
                      r.value.min.y in {v[1], v[3]} && r.value.max.y in {v[1], v[3]}
  {
    match Text.FourNumbers(s, valueOf)
    case Err(e) => Err(e)
    case Ok(v) => Ok(FromCorners(Point(v[0], v[1]), Point(v[2], v[3])))
  }
}

=== FILE: numerics.dfy ===
/** Java's integer arithmetic where it differs from Dafny's: `/` and `%`
    truncate toward zero, and a `(long)` cast of a double truncates too. */
module Numerics {

  /** Java `a / b` on integers: the quotient rounded toward zero. */
  function JavaDiv(a: int, b: int): (q: int)
    requires b != 0
    ensures Abs(q) == Abs(a) / Abs(b)
    ensures q == 0 || (q > 0 <==> (a > 0) == (b > 0))
  {
    var q := Abs(a) / Abs(b);
    DivBounds(Abs(a), Abs(b));
    if (a >= 0) == (b > 0) then q else -q
  }

  /** Java `a % b` on integers: the remainder carries the sign of `a`, and
      quotient and remainder recompose the numerator. */
  function JavaRem(a: int, b: int): (r: int)
    requires b != 0
    ensures a == JavaDiv(a, b) * b + r
    ensures Abs(r) < Abs(b)
    ensures r == 0 || (r > 0 <==> a > 0)
  {
    QuotientTimesDivisor(a, b);
    EuclideanSplit(Abs(a), Abs(b));
    if a >= 0 then Abs(a) % Abs(b) else -(Abs(a) % Abs(b))
  }

  /** Java's quotient times the divisor is the Euclidean multiple of `|b|`
      below `|a|`, with the sign of `a`. */
  lemma QuotientTimesDivisor(a: int, b: int)
    requires b != 0
    ensures var m := (Abs(a) / Abs(b)) * Abs(b);
            (a >= 0 ==> JavaDiv(a, b) * b == m) && (a < 0 ==> JavaDiv(a, b) * b == -m)
  {
    var q := Abs(a) / Abs(b);
    if b > 0 {
      PositiveDivisor(q, b);
    } else {
      NegativeDivisor(q, b);
    }
  }

  lemma EuclideanSplit(x: int, y: int)
    requires y > 0
    ensures x == (x / y) * y + x % y && 0 <= x % y < y
  {
  }

  lemma PositiveDivisor(q: int, b: int)
    requires b > 0
    ensures q * b == q * Abs(b) && (-q) * b == -(q * Abs(b))
  {
  }

  lemma NegativeDivisor(q: int, b: int)
    requires b < 0
    ensures (-q) * b == q * Abs(b) && q * b == -(q * Abs(b))
  {
    assert Abs(b) == -b;
  }

  lemma DivBounds(x: nat, y: nat)
    requires y > 0
    ensures x / y >= 0
    ensures x / y > 0 ==> x > 0
  {
  }

  function Abs(a: int): nat {
    if a < 0 then -a else a
  }

  /** Java `(long) v` for a double `v` in range: drops the fractional part. */
  function Trunc(v: real): (n: int)
    ensures 0.0 <= v ==> n as real <= v < n as real + 1.0
    ensures v < 0.0 ==> n as real - 1.0 < v <= n as real
  {
    if v >= 0.0 then v.Floor else -((-v).Floor)
  }

  /** On a non-negative numerator and a positive divisor Java's operators
      agree with Dafny's Euclidean ones. */
  lemma JavaDivRemNonNegative(a: int, b: int)
    requires a >= 0 && b > 0
    ensures JavaDiv(a, b) == a / b && JavaRem(a, b) == a % b
  {
  }
}

=== FILE: outcomes.dfy ===
/** Optional values and results with an error payload. They stand in for
    Java's `null` and for the exceptions the modelled code throws. */
module Outcomes {

  datatype Option<+T> = None | Some(value: T)

  datatype Result<+T, +E> = Ok(value: T) | Err(error: E)
}

=== FILE: printer.dfy ===
/** The older, Web-Mercator-only copy of the tile engine and the document it
    prints (MapMLPrinter.java): the tile count, the `next` offset and whether
    a `next` link is printed, the page of tiles in a bbox, and one `<tile>`
    element per tile and URL template, with servers used in rotation. The
    Web Mercator arithmetic of `getTileDecimalCoordinates` is a parameter. */
module Printer {
  import opened Outcomes
  import opened Geometry
  import opened TileGrid
  import Bboxes
  import ServiceBounds
  import Text

  /** `getTileDecimalCoordinates(zoom, latitude, longitude)`: a position in
      tile units, x to the right and y downwards. */
  type Projector = (int, real, real) -> Point

  /** `getTileCoordinates`: the tile holding a position (`Math.round` of
      `Math.floor` is the floor). */
  function TileCoordinates(project: Projector, zoom: int, lat: real, lon: real): (t: Tile)
    ensures t.z == zoom
    ensures t.x as real <= project(zoom, lat, lon).x < t.x as real + 1.0
    ensures t.y as real <= project(zoom, lat, lon).y < t.y as real + 1.0
  {
    var p := project(zoom, lat, lon);
    Tile(p.x.Floor, p.y.Floor, zoom)
  }

  /** `init` records maxima for zoom levels 0 to 20 only. */
  const MaximaZooms: int := 21
  /** The corner `init` converts: the south-east corner of the world. */
  const MaximaLatitude: real := -85.0511
  const MaximaLongitude: real := 180.0

  /** `maxima.get(zoom)`: the tiles a zoom level has, or nothing (Java's
      null) outside 0 to 20. */
  function Maxima(project: Projector, zoom: int): (env: Option<Envelope>)
    ensures env.Some? <==> 0 <= zoom < MaximaZooms
    ensures env.Some? ==> Tile(env.value.maxX, env.value.maxY, zoom) ==
                            TileCoordinates(project, zoom, MaximaLatitude, MaximaLongitude)
    ensures env.Some? ==> env.value.maxX as real <= project(zoom, MaximaLatitude, MaximaLongitude).x
                                                 < env.value.maxX as real + 1.0
    ensures env.Some? ==> env.value.maxY as real <= project(zoom, MaximaLatitude, MaximaLongitude).y
                                                 < env.value.maxY as real + 1.0
  {
    if 0 <= zoom < MaximaZooms then
      var t := TileCoordinates(project, zoom, MaximaLatitude, MaximaLongitude);
      Some(Envelope(t.x, t.y))
    else None
  }

  /** The tile rectangle of a bbox: from the tile of its north-west corner to
      the tile of its south-east corner (y grows southwards). */
  function TileRectOf(project: Projector, zoom: int, b: Bboxes.Bbox): (r: TileRect)
    ensures Tile(r.minX, r.minY, zoom) == TileCoordinates(project, zoom, b.north, b.west)
    ensures Tile(r.maxX, r.maxY, zoom) == TileCoordinates(project, zoom, b.south, b.east)
  {
    var lo := TileCoordinates(project, zoom, b.north, b.west);
    var hi := TileCoordinates(project, zoom, b.south, b.east);
    TileRect(lo.x, lo.y, hi.x, hi.y)
  }

  /** What the Web Mercator formulas satisfy: x grows eastwards whatever the
      latitude, and y grows southwards whatever the longitude. */
  ghost predicate OrderPreserving(project: Projector, zoom: int) {
    && (forall lat1, lon1, lat2, lon2 :: lon1 <= lon2 ==> project(zoom, lat1, lon1).x <= project(zoom, lat2, lon2).x)
    && (forall lat1, lon1, lat2, lon2 :: lat1 >= lat2 ==> project(zoom, lat1, lon1).y <= project(zoom, lat2, lon2).y)
  }

  /** A valid bbox has at least one tile under an order-preserving
      projection. */
  lemma RectOfValidBbox(project: Projector, zoom: int, b: Bboxes.Bbox)
    requires OrderPreserving(project, zoom) && Bboxes.IsValid(b)
    ensures NonEmpty(TileRectOf(project, zoom, b))
  {
    var p, q := project(zoom, b.north, b.west), project(zoom, b.south, b.east);
    assert p.x <= q.x && p.y <= q.y;
    FloorMonotone(p.x, q.x);
    FloorMonotone(p.y, q.y);
  }

  /** `tileWidth(zoom, bbox)`: 0 for zoom -1 or no bbox, else the number of
      columns of the rectangle. */
  function TileWidth(project: Projector, zoom: int, b: Option<Bboxes.Bbox>): (w: int)
    ensures zoom == -1 || b.None? ==> w == 0
    ensures zoom != -1 && b.Some? ==> w == Width(TileRectOf(project, zoom, b.value))
  {
    if zoom == -1 || b.None? then 0
    else
      var lo := TileCoordinates(project, zoom, b.value.north, b.value.west);
      var hi := TileCoordinates(project, zoom, b.value.south, b.value.east);
      hi.x + 1 - lo.x
  }

  /** `tileCount(zoom, bbox)`: 0 for zoom -1 or no bbox, else width times
      height of the rectangle. */
  function TileCount(project: Projector, zoom: int, b: Option<Bboxes.Bbox>): (n: int)
    ensures zoom == -1 || b.None? ==> n == 0
    ensures zoom != -1 && b.Some? ==>
              n == Height(TileRectOf(project, zoom, b.value)) * TileWidth(project, zoom, b)
  {
    if zoom == -1 || b.None? then 0
    else
      var lo := TileCoordinates(project, zoom, b.value.north, b.value.west);
      var hi := TileCoordinates(project, zoom, b.value.south, b.value.east);
      (hi.x + 1 - lo.x) * (hi.y + 1 - lo.y)
  }

  /** The count is the number of tiles the walk visits over the whole
      rectangle, so it is never negative for a valid bbox. */
  lemma TileCountIsWalkLength(project: Projector, zoom: int, b: Bboxes.Bbox)
    requires zoom != -1 && OrderPreserving(project, zoom) && Bboxes.IsValid(b)
    ensures TileCount(project, zoom, Some(b)) == |AllTiles(TileRectOf(project, zoom, b), zoom)|
  {
    var r := TileRectOf(project, zoom, b);
    RectOfValidBbox(project, zoom, b);
    RowsLength(r.minY, r.maxY, r.minX, r.maxX, zoom);
    assert Width(r) * Height(r) == Height(r) * Width(r);
  }

  /** The sort reference: the decimal tile position of the centre of the
      bbox's envelope (latitude is the envelope's y, longitude its x). */
  function Centre(project: Projector, zoom: int, b: Bboxes.Bbox): Point {
    var c := Geometry.Centre(Bboxes.EnvelopeOf(b));
    project(zoom, c.y, c.x)
  }

  /** `getTilesInBbox(zoom, bbox, start)`: the page of existing tiles the
      nested loops collect from the `start`-th tile on, every row restarting
      at the offset's column, sorted by distance from the bbox's centre. It
      fails on a positive offset when the width it divides by is zero, and
      on a zoom level without maxima once a tile is examined. */
  method TilesInBbox(project: Projector, zoom: int, b: Bboxes.Bbox, start: int, pageSize: int)
    returns (r: Result<seq<Tile>, WalkError>)
    ensures r == Err(DivisionByZero) <==> start > 0 && TileWidth(project, zoom, Some(b)) == 0
    ensures r.Err? ==> r == Err(DivisionByZero) || r == Err(NoEnvelope(zoom))
    ensures r == Err(NoEnvelope(zoom)) <==>
              !(start > 0 && TileWidth(project, zoom, Some(b)) == 0) && !(0 <= zoom < MaximaZooms) && pageSize > 0 &&
              ReadsEnvelope(Candidates(TileRectOf(project, zoom, b), zoom, start))
    ensures r.Ok? ==> |r.value| <= if pageSize < 0 then 0 else pageSize
    ensures r.Ok? ==> forall t :: t in r.value ==>
              InRect(t, TileRectOf(project, zoom, b)) && t.z == zoom &&
              Maxima(project, zoom).Some? && Live(t, Maxima(project, zoom).value)
    ensures r.Ok? && !(0 <= zoom < MaximaZooms) ==> r.value == []
    ensures r.Ok? ==> NoDuplicates(r.value)
    ensures r.Ok? ==> SortedBy(r.value, t => Key(Centre(project, zoom, b), t))
    ensures r.Ok? && 0 <= zoom < MaximaZooms ==>
              multiset(r.value) == multiset(Page(Candidates(TileRectOf(project, zoom, b), zoom, start),
                                                 Maxima(project, zoom).value, pageSize))
  {
    var rect := TileRectOf(project, zoom, b);
    var width := TileWidth(project, zoom, Some(b));
    r := SortedPageWalk(rect, width, zoom, start, Maxima(project, zoom), pageSize, Centre(project, zoom, b));
    if r.Ok? && r.value != [] {
      assert r.value[0] in r.value;
    }
  }

  /** `getTilesInBbox` with the offset walk corrected: the page from the
      `start`-th tile of the bbox's rectangle on, every tile reached by
      exactly one offset. */
  method TilesInBboxCorrected(project: Projector, zoom: int, b: Bboxes.Bbox, start: int, pageSize: int)
    returns (r: Result<seq<Tile>, WalkError>)
    ensures r == Err(DivisionByZero) <==> start > 0 && TileWidth(project, zoom, Some(b)) == 0
    ensures r.Err? ==> r == Err(DivisionByZero) || r == Err(NoEnvelope(zoom))
    ensures r == Err(NoEnvelope(zoom)) <==>
              !(start > 0 && TileWidth(project, zoom, Some(b)) == 0) && !(0 <= zoom < MaximaZooms) && pageSize > 0 &&
              ReadsEnvelope(CorrectedCandidates(TileRectOf(project, zoom, b), zoom, start))
    ensures r.Ok? ==> |r.value| <= if pageSize < 0 then 0 else pageSize
    ensures r.Ok? ==> forall t :: t in r.value ==>
              InRect(t, TileRectOf(project, zoom, b)) && t.z == zoom &&
              Maxima(project, zoom).Some? && Live(t, Maxima(project, zoom).value)
    ensures r.Ok? && !(0 <= zoom < MaximaZooms) ==> r.value == []
    ensures r.Ok? ==> NoDuplicates(r.value)
    ensures r.Ok? ==> SortedBy(r.value, t => Key(Centre(project, zoom, b), t))
    ensures r.Ok? && 0 <= zoom < MaximaZooms ==>
              multiset(r.value) == multiset(Page(CorrectedCandidates(TileRectOf(project, zoom, b), zoom, start),
                                                 Maxima(project, zoom).value, pageSize))
  {
    var rect := TileRectOf(project, zoom, b);
    var width := TileWidth(project, zoom, Some(b));
    r := SortedCorrectedPageWalk(rect, width, zoom, start, Maxima(project, zoom), pageSize, Centre(project, zoom, b));
    if r.Ok? && r.value != [] {
      assert r.value[0] in r.value;
    }
  }

  // ---------------------------------------------------------------------
  // Paging links
  // ---------------------------------------------------------------------

  /** The `next` offset of `printMapMLDoc`: 0 unless the count exceeds the
      page size; then the offset after this page, or 0 past the end. */
  function NextOffset(count: int, start: int, pageSize: int): (next: int)
    ensures next == 0 || (count > pageSize && next == start + pageSize && next <= count)
    ensures count > pageSize && start + pageSize <= count ==> next == start + pageSize
  {
    if count > pageSize then
      (if start + pageSize > count then 0 else start + pageSize)
    else 0
  }

  /** Whether the `next` link is printed (for a bbox that intersects the
      service). */
  predicate HasNextLink(count: int, start: int, pageSize: int) {
    var next := NextOffset(count, start, pageSize);
    next > 0 && next != count
  }

  /** For a non-negative offset and a positive page size, a `next` link is
      printed exactly when tiles remain after this page, and it points just
      past the page. */
  lemma NextLinkIffTilesRemain(count: int, start: int, pageSize: int)
    requires start >= 0 && pageSize > 0
    ensures HasNextLink(count, start, pageSize) <==> start + pageSize < count
    ensures HasNextLink(count, start, pageSize) ==> NextOffset(count, start, pageSize) == start + pageSize
  {
  }

  /** The tiles served by following `next` links from offset `from`, where
      `pageAt(o)` is the page printed for offset `o`: this page, then the
      pages after it. */
  function FollowLinks(count: int, pageSize: int, from: int, pageAt: int -> seq<Tile>): seq<Tile>
    requires pageSize > 0 && from >= 0
    decreases count - from
  {
    if HasNextLink(count, from, pageSize) then
      pageAt(from) + FollowLinks(count, pageSize, from + pageSize, pageAt)
    else pageAt(from)
  }

  /** When the page at every offset is the next `pageSize` tiles of a
      sequence, following the links from `from` serves the rest of the
      sequence exactly once, in order. */
  lemma {:induction false} FollowLinksCoversRest(all: seq<Tile>, pageSize: int, from: int, pageAt: int -> seq<Tile>)
    requires pageSize > 0 && 0 <= from < |all|
    requires forall o :: 0 <= o < |all| ==> pageAt(o) == all[o..TileGrid.Min(o + pageSize, |all|)]
    ensures FollowLinks(|all|, pageSize, from, pageAt) == all[from..]
    decreases |all| - from
  {
    NextLinkIffTilesRemain(|all|, from, pageSize);
    if from + pageSize < |all| {
      FollowLinksCoversRest(all, pageSize, from + pageSize, pageAt);
      SliceSplit(all, from, from + pageSize);
    }
  }

  lemma SliceSplit(s: seq<Tile>, i: int, j: int)
    requires 0 <= i <= j <= |s|
    ensures s[i..j] + s[j..] == s[i..]
  {
  }

  /** The page the corrected walk gives for each offset, in walk order. */
  function CorrectedWalkPages(r: TileRect, z: int, env: Envelope, pageSize: int): int -> seq<Tile>
    requires NonEmpty(r)
  {
    o => if o >= 0 then Page(CorrectedCandidates(r, z, o), env, pageSize) else []
  }

  /** When every tile of the rectangle exists, following the links from the
      first page serves every tile of the rectangle exactly once: the pages
      partition the rectangle. */
  lemma FollowLinksCoversAll(r: TileRect, z: int, env: Envelope, pageSize: int)
    requires NonEmpty(r) && pageSize > 0
    requires forall t :: InRect(t, r) ==> Live(t, env)
    ensures FollowLinks(|AllTiles(r, z)|, pageSize, 0, CorrectedWalkPages(r, z, env, pageSize)) == AllTiles(r, z)
  {
    var all := AllTiles(r, z);
    var pageAt := CorrectedWalkPages(r, z, env, pageSize);
    forall o | 0 <= o < |all|
      ensures pageAt(o) == all[o..TileGrid.Min(o + pageSize, |all|)]
    {
      CorrectedPageIsSlice(r, z, o, env, pageSize);
    }
    RowsLength(r.minY, r.maxY, r.minX, r.maxX, z);
    PositiveProduct(Height(r), Width(r));
    FollowLinksCoversRest(all, pageSize, 0, pageAt);
  }

  // ---------------------------------------------------------------------
  // Tile elements
  // ---------------------------------------------------------------------

  /** A `<tile>` element: its column, its row and its `src`. */
  datatype TileElement = TileElement(x: int, y: int, src: string)

  /** The server the k-th tile is given: servers in rotation, or the empty
      string when there are none. */
  function ServerFor(servers: seq<string>, k: nat): (s: string)
    ensures |servers| > 0 ==> s in servers
    ensures |servers| == 0 ==> s == ""
  {
    if |servers| == 0 then "" else servers[k % |servers|]
  }

  /** The `src` of a tile for a template: the first `{s}`, `{z}`, `{y}` and
      `{x}` replaced in that order, then every `&` escaped. */
  function Src(template: string, server: string, t: Tile): string {
    var withServer := Text.ReplaceFirst(template, "{s}", server);
    var withZoom := Text.ReplaceFirst(withServer, "{z}", Text.ShowInt(t.z));
    var withRow := Text.ReplaceFirst(withZoom, "{y}", Text.ShowInt(t.y));
    var withColumn := Text.ReplaceFirst(withRow, "{x}", Text.ShowInt(t.x));
    Text.EscapeAmp(withColumn)
  }

  /** A template laid out as the services write them, with the server,
      zoom, column and row placeholders once each and no other brace, is
      filled in place: each placeholder gives way to its value and every
      ampersand of the outcome is escaped. */
  lemma SrcFillsPlaceholders(a: string, b: string, c: string, d: string, e: string, server: string, t: Tile)
    requires '{' !in a && '{' !in b && '{' !in c && '{' !in d && '{' !in e && '{' !in server
    ensures Src(a + "{s}" + b + "{z}" + c + "{x}" + d + "{y}" + e, server, t)
         == Text.EscapeAmp(a + server + b + Text.ShowInt(t.z) + c + Text.ShowInt(t.x) + d + Text.ShowInt(t.y) + e)
  {
    var zs, xs, ys := Text.ShowInt(t.z), Text.ShowInt(t.x), Text.ShowInt(t.y);
    ShownHasNoBrace(t.z);
    SubstituteServer(a, b, c, d, e, server);
    SubstituteZoom(a + server + b, c, d, e, zs);
    SubstituteRow(a + server + b + zs + c, d, e, ys);
    SubstituteColumn(a + server + b + zs + c, d, e, xs, ys);
  }

  lemma SubstituteServer(a: string, b: string, c: string, d: string, e: string, server: string)
    requires '{' !in a
    ensures Text.ReplaceFirst(a + "{s}" + b + "{z}" + c + "{x}" + d + "{y}" + e, "{s}", server)
         == a + server + b + "{z}" + c + "{x}" + d + "{y}" + e
  {
    var rest := b + "{z}" + c + "{x}" + d + "{y}" + e;
    Regroup(a + "{s}", b, "{z}", c, "{x}", d, "{y}", e);
    FirstPlaceholder(a, "{s}", rest, server);
    Regroup(a + server, b, "{z}", c, "{x}", d, "{y}", e);
  }

  lemma SubstituteZoom(pre: string, c: string, d: string, e: string, zs: string)
    requires '{' !in pre
    ensures Text.ReplaceFirst(pre + "{z}" + c + "{x}" + d + "{y}" + e, "{z}", zs)
         == pre + zs + c + "{x}" + d + "{y}" + e
  {
    var rest := c + "{x}" + d + "{y}" + e;
    RegroupFive(pre + "{z}", c, "{x}", d, "{y}", e);
    FirstPlaceholder(pre, "{z}", rest, zs);
    RegroupFive(pre + zs, c, "{x}", d, "{y}", e);
  }

  lemma SubstituteRow(pre: string, d: string, e: string, ys: string)
    requires '{' !in pre && '{' !in d
    ensures Text.ReplaceFirst(pre + "{x}" + d + "{y}" + e, "{y}", ys) == pre + "{x}" + d + ys + e
  {
    PlaceholderAfterOther(pre, "{x}", d, "{y}", e, ys);
  }

  lemma SubstituteColumn(pre: string, d: string, e: string, xs: string, ys: string)
    requires '{' !in pre
    ensures Text.ReplaceFirst(pre + "{x}" + d + ys + e, "{x}", xs) == pre + xs + d + ys + e
  {
    var rest := d + ys + e;
    AppendAssoc(pre + "{x}", d, ys);
    AppendAssoc(pre + "{x}", d + ys, e);
    FirstPlaceholder(pre, "{x}", rest, xs);
    AppendAssoc(pre + xs, d, ys);
    AppendAssoc(pre + xs, d + ys, e);
  }

  lemma AppendAssoc(x: string, y: string, z: string)
    ensures x + (y + z) == x + y + z
  {
  }

  /** A head followed by seven pieces, grouped to the right or to the left. */
  lemma Regroup(h: string, p1: string, p2: string, p3: string, p4: string, p5: string, p6: string, p7: string)
    ensures h + (p1 + p2 + p3 + p4 + p5 + p6 + p7) == h + p1 + p2 + p3 + p4 + p5 + p6 + p7
  {
    AppendAssoc(h, p1 + p2 + p3 + p4 + p5 + p6, p7);
    AppendAssoc(h, p1 + p2 + p3 + p4 + p5, p6);
    RegroupFive(h, p1, p2, p3, p4, p5);
  }

  /** The same for five pieces. */
  lemma RegroupFive(h: string, p1: string, p2: string, p3: string, p4: string, p5: string)
    ensures h + (p1 + p2 + p3 + p4 + p5) == h + p1 + p2 + p3 + p4 + p5
  {
    AppendAssoc(h, p1 + p2 + p3 + p4, p5);
    AppendAssoc(h, p1 + p2 + p3, p4);
    AppendAssoc(h, p1 + p2, p3);
    AppendAssoc(h, p1, p2);
  }

  /** A printed integer is digits, perhaps after a minus sign: no brace. */
  lemma ShownHasNoBrace(n: int)
    ensures '{' !in Text.ShowInt(n)
  {
    var digits := Text.ShowNat(if n < 0 then -n else n);
    assert forall i :: 0 <= i < |digits| ==> digits[i] != '{';
  }

  /** The first occurrence of a placeholder that follows brace-free text is
      the one replaced. */
  lemma FirstPlaceholder(pre: string, pat: string, post: string, repl: string)
    requires |pat| == 3 && pat[0] == '{' && '{' !in pre
    ensures Text.ReplaceFirst(pre + pat + post, pat, repl) == pre + repl + post
  {
    var s := pre + pat + post;
    forall k | 0 <= k < |pre|
      ensures !Text.OccursAt(s, pat, k)
    {
      assert s[k] == pre[k];
      assert k + 3 <= |s| ==> s[k..k + 3][0] == s[k];
    }
    ReplacedAt(pre, pat, post, repl);
  }

  /** A placeholder preceded by brace-free text and one other placeholder
      is still the first occurrence of itself. */
  lemma PlaceholderAfterOther(pre: string, other: string, mid: string, pat: string, post: string, repl: string)
    requires |pat| == 3 && pat[0] == '{' && |other| == 3 && other[0] == '{' && other[1] != pat[1]
    requires '{' !in pre && '{' !in other[1..] && '{' !in mid
    ensures Text.ReplaceFirst((pre + other + mid) + pat + post, pat, repl) == (pre + other + mid) + repl + post
  {
    var before := pre + other + mid;
    var s := before + pat + post;
    forall k | 0 <= k < |before|
      ensures !Text.OccursAt(s, pat, k)
    {
      assert k + 3 <= |s| ==> s[k..k + 3][0] == s[k] && s[k..k + 3][1] == s[k + 1];
      if k < |pre| {
        assert s[k] == pre[k];
      } else if k == |pre| {
        assert s[k + 1] == other[1];
      } else if k < |pre| + 3 {
        assert s[k] == other[1..][k - |pre| - 1];
      } else {
        assert s[k] == mid[k - |pre| - 3];
      }
    }
    ReplacedAt(before, pat, post, repl);
  }

  /** Replacing the first occurrence when no occurrence precedes the one at
      the end of `pre`. */
  lemma ReplacedAt(pre: string, pat: string, post: string, repl: string)
    requires forall k :: 0 <= k < |pre| ==> !Text.OccursAt(pre + pat + post, pat, k)
    ensures Text.ReplaceFirst(pre + pat + post, pat, repl) == pre + repl + post
  {
    var s := pre + pat + post;
    assert s[|pre|..|pre| + |pat|] == pat;
    assert Text.OccursAt(s, pat, |pre|);
    assert s[..|pre|] == pre && s[|pre| + |pat|..] == post;
  }

  /** How a `src` is made from a template, a server and a tile; the
      document uses `Src`. */
  type Fill = (string, string, Tile) -> string

  /** The elements of one tile, one per template, in template order. */
  function Block(t: Tile, server: string, templates: seq<string>, fill: Fill): (b: seq<TileElement>)
    ensures |b| == |templates|
    ensures forall m :: 0 <= m < |b| ==> b[m] == TileElement(t.x, t.y, fill(templates[m], server, t))
    decreases |templates|
  {
    if |templates| == 0 then []
    else
      var front := templates[..|templates| - 1];
      Block(t, server, front, fill) + [TileElement(t.x, t.y, fill(templates[|templates| - 1], server, t))]
  }

  /** The reference definition of the elements: tile k's block uses server
      k of the rotation. */
  function Elements(tiles: seq<Tile>, servers: seq<string>, templates: seq<string>, fill: Fill): seq<TileElement>
    decreases |tiles|
  {
    if |tiles| == 0 then []
    else Elements(tiles[..|tiles| - 1], servers, templates, fill) + Block(tiles[|tiles| - 1], ServerFor(servers, |tiles| - 1), templates, fill)
  }

  /** There is one element per (tile, template) pair. */
  lemma {:induction false} ElementsLength(tiles: seq<Tile>, servers: seq<string>, templates: seq<string>, fill: Fill)
    ensures |Elements(tiles, servers, templates, fill)| == |tiles| * |templates|
    decreases |tiles|
  {
    if |tiles| > 0 {
      var n, w := |tiles|, |templates|;
      ElementsLength(tiles[..n - 1], servers, templates, fill);
      MulSucc(n - 1, w);
    }
  }

  /** Tile k's elements start at k * |templates|, in template order, and
      carry the k-th server of the rotation. */
  lemma {:induction false} ElementAt(tiles: seq<Tile>, servers: seq<string>, templates: seq<string>, fill: Fill, k: int, m: int)
    requires 0 <= k < |tiles| && 0 <= m < |templates|
    ensures k * |templates| + m < |Elements(tiles, servers, templates, fill)|
    ensures Elements(tiles, servers, templates, fill)[k * |templates| + m] ==
              TileElement(tiles[k].x, tiles[k].y, fill(templates[m], ServerFor(servers, k), tiles[k]))
    decreases |tiles|
  {
    var n, w := |tiles|, |templates|;
    var front := tiles[..n - 1];
    var f := Elements(front, servers, templates, fill);
    var last := Block(tiles[n - 1], ServerFor(servers, n - 1), templates, fill);
    var i := k * w + m;
    ElementsLength(front, servers, templates, fill);
    RowMajorIndex(k, m, n, w);
    ConcatAt(f, last, i);
    if k < n - 1 {
      ElementAt(front, servers, templates, fill, k, m);
      assert front[k] == tiles[k];
    }
  }

  /** Indexing into a concatenation. */
  lemma ConcatAt<T>(a: seq<T>, b: seq<T>, i: int)
    requires 0 <= i < |a| + |b|
    ensures i < |a| ==> (a + b)[i] == a[i]
    ensures i >= |a| ==> (a + b)[i] == b[i - |a|]
  {
  }

  /** Where element (k, m) sits among the first n blocks of w elements. */
  lemma RowMajorIndex(k: int, m: int, n: int, w: int)
    requires 0 <= k < n && 0 <= m < w
    ensures 0 <= k * w + m < n * w
    ensures k < n - 1 ==> k * w + m < (n - 1) * w
    ensures k == n - 1 ==> k * w + m == (n - 1) * w + m
  {
    MulMonotone(0, k, w);
    MulMonotone(k + 1, n, w);
    MulMonotone(k + 1, n - 1, w);
    assert (k + 1) * w == k * w + w;
  }

  lemma MulSucc(a: int, w: int)
    ensures a * w + w == (a + 1) * w
  {
  }

  lemma MulMonotone(a: int, b: int, w: int)
    requires w >= 0
    ensures a <= b ==> a * w <= b * w
  {
    if a <= b {
      assert b * w - a * w == (b - a) * w;
    }
  }

  /** `getTileElements` after the tiles are known: the server iterator
      advances once per tile and restarts when it runs out; each template
      then gives one element. */
  method TileElements(tiles: seq<Tile>, servers: seq<string>, templates: seq<string>, fill: Fill) returns (elems: seq<TileElement>)
    ensures elems == Elements(tiles, servers, templates, fill)
  {
    var n := |servers|;
    var cursor := 0;   // the iterator's position
    var s := "";
    elems := [];
    var k := 0;
    while k < |tiles|
      invariant 0 <= k <= |tiles|
      invariant n > 0 ==> cursor == k % n
      invariant n == 0 ==> s == ""
      invariant elems == Elements(tiles[..k], servers, templates, fill)
    {
      if cursor < n {
        s := servers[cursor];
        cursor := cursor + 1;
        if !(cursor < n) {
          cursor := 0;
        }
        ModStep(k, n);
      }
      assert s == ServerFor(servers, k);
      var block := TemplateElements(tiles[k], s, templates, fill);
      assert tiles[..k + 1][..k] == tiles[..k];
      assert Elements(tiles[..k + 1], servers, templates, fill)
          == Elements(tiles[..k], servers, templates, fill) + Block(tiles[k], ServerFor(servers, k), templates, fill);
      elems := elems + block;
      k := k + 1;
    }
    assert tiles[..k] == tiles;
  }

  /** The inner loop of `getTileElements`: one element per template. */
  method TemplateElements(t: Tile, server: string, templates: seq<string>, fill: Fill) returns (block: seq<TileElement>)
    ensures block == Block(t, server, templates, fill)
  {
    block := [];
    var m := 0;
    while m < |templates|
      invariant 0 <= m <= |templates|
      invariant block == Block(t, server, templates[..m], fill)
    {
      assert templates[..m + 1][..m] == templates[..m];
      block := block + [TileElement(t.x, t.y, fill(templates[m], server, t))];
      m := m + 1;
    }
    assert templates[..m] == templates;
  }

  /** Advancing the rotation by one tile moves the server position by one,
      back to the first server after the last. */
  lemma ModStep(k: nat, n: nat)
    requires n > 0
    ensures k % n + 1 < n ==> (k + 1) % n == k % n + 1
    ensures k % n + 1 == n ==> (k + 1) % n == 0
  {
    var q, rem := k / n, k % n;
    assert k == q * n + rem;
    if rem + 1 < n {
      ModUnique(k + 1, n, q, rem + 1);
    } else {
      assert k + 1 == (q + 1) * n;
      ModUnique(k + 1, n, q + 1, 0);
    }
  }

  /** The remainder is the one of any quotient-remainder split. */
  lemma ModUnique(a: int, n: int, q: int, rem: int)
    requires n > 0 && a == q * n + rem && 0 <= rem < n
    ensures a % n == rem
  {
    var q0, rem0 := a / n, a % n;
    assert a == q0 * n + rem0;
    var d := q - q0;
    assert d * n == rem0 - rem by {
      assert q * n - q0 * n == (q - q0) * n;
    }
    MultipleBound(d, n);
  }

  lemma MultipleBound(d: int, n: int)
    requires n > 0
    ensures d >= 1 ==> d * n >= n
    ensures d <= -1 ==> d * n <= -n
  {
    MulMonotone(1, d, n);
    MulMonotone(d, -1, n);
  }

  /** `setTileServers`: the comma-separated names are added to the set; a
      null argument changes nothing. */
  function SetTileServers(current: set<string>, servers: Option<string>): (r: set<string>)
    ensures servers.None? ==> r == current
    ensures servers.Some? ==> forall x :: x in r <==> x in current || x in Text.JavaSplit(servers.value, ',')
  {
    match servers
    case None => current
    case Some(text) => current + set x | x in Text.JavaSplit(text, ',')
  }

  /** Names joined with commas come back as exactly those names, whatever
      was configured before, and configuring the same list again changes
      nothing. */
  lemma SetTileServersFromNames(current: set<string>, names: seq<string>)
    requires |names| >= 1
    requires forall i :: 0 <= i < |names| ==> ',' !in names[i]
    requires names[|names| - 1] != []
    ensures SetTileServers(current, Some(Text.Join(names, ','))) == current + set x | x in names
    ensures var once := SetTileServers(current, Some(Text.Join(names, ',')));
            SetTileServers(once, Some(Text.Join(names, ','))) == once
  {
    if |names| >= 2 {
      Text.JavaSplitJoin(names, ',');
    } else {
      // a single name has no comma, so `split` gives it back whole
      assert Text.Join(names, ',') == names[0];
    }
  }

  // ---------------------------------------------------------------------
  // The document
  // ---------------------------------------------------------------------

  /** What the service is configured with. `servers` is the iteration order
      of the server set; `pageSize` is the static page size. */
  datatype Config = Config(
    service: ServiceBounds.ServiceBounds,
    templates: seq<string>,
    servers: seq<string>,
    pageSize: int,
    project: Projector)

  /** The parts of a printed document: the `count` meta value, the extent's
      zoom and bbox (-1 and none when the request misses the service), the
      `next` offset when a link is printed, the page of tiles and their
      elements. */
  datatype Document = Document(
    count: int,
    extentZoom: int,
    extentBox: Option<Bboxes.Bbox>,
    next: Option<int>,
    page: seq<Tile>,
    elements: seq<TileElement>)

  /** `printMapMLDoc` without the markup. */
  method PrintDocument(cfg: Config, start: int, zoom: int, bbox: Option<Bboxes.Bbox>) returns (r: Result<Document, WalkError>)
    ensures r.Ok? ==> r.value.count == TileCount(cfg.project, zoom, bbox)
    ensures !ServiceBounds.Intersects(cfg.service, zoom, bbox) ==>
              r == Ok(Document(TileCount(cfg.project, zoom, bbox), -1, None, None, [], []))
    ensures r.Err? ==> (ServiceBounds.Intersects(cfg.service, zoom, bbox) &&
                        (r.error == DivisionByZero || r.error == NoEnvelope(zoom)))
    ensures ServiceBounds.Intersects(cfg.service, zoom, bbox) && r.Ok? ==>
              r.value.extentZoom == zoom && r.value.extentBox == bbox &&
              r.value.elements == Elements(r.value.page, cfg.servers, cfg.templates, Src) &&
              |r.value.page| <= (if cfg.pageSize < 0 then 0 else cfg.pageSize) &&
              NoDuplicates(r.value.page) &&
              SortedBy(r.value.page, t => Key(Centre(cfg.project, zoom, bbox.value), t))
    ensures ServiceBounds.Intersects(cfg.service, zoom, bbox) && r.Ok? && !(0 <= zoom < MaximaZooms) ==>
              r.value.page == []
    ensures ServiceBounds.Intersects(cfg.service, zoom, bbox) && r.Ok? ==>
              !(start > 0 && Width(TileRectOf(cfg.project, zoom, bbox.value)) == 0)
    ensures ServiceBounds.Intersects(cfg.service, zoom, bbox) && r.Ok? && 0 <= zoom < MaximaZooms ==>
              multiset(r.value.page) == multiset(Page(Candidates(TileRectOf(cfg.project, zoom, bbox.value), zoom, start),
                                                      Maxima(cfg.project, zoom).value, cfg.pageSize))
    ensures ServiceBounds.Intersects(cfg.service, zoom, bbox) && r.Ok? && start >= 0 && cfg.pageSize > 0 ==>
              (r.value.next.Some? <==> start + cfg.pageSize < r.value.count) &&
              (r.value.next.Some? ==> r.value.next.value == start + cfg.pageSize)
  {
    var count := TileCount(cfg.project, zoom, bbox);
    var next := NextOffset(count, start, cfg.pageSize);
    if !ServiceBounds.Intersects(cfg.service, zoom, bbox) {
      return Ok(Document(count, -1, None, None, [], []));
    }
    var b := bbox.value;
    var link := if next > 0 && next != count then Some(next) else None;
    var tiles := TilesInBbox(cfg.project, zoom, b, start, cfg.pageSize);
    if tiles.Err? {
      return Err(tiles.error);
    }
    var elements := TileElements(tiles.value, cfg.servers, cfg.templates, Src);
    if start >= 0 && cfg.pageSize > 0 {
      NextLinkIffTilesRemain(count, start, cfg.pageSize);
    }
    r := Ok(Document(count, zoom, bbox, link, tiles.value, elements));
  }

  // ---------------------------------------------------------------------
  // The request of the printer's tests
  // ---------------------------------------------------------------------

  /** Eight tiles of two templates give sixteen elements. */
  lemma SixteenElements(tiles: seq<Tile>, servers: seq<string>, templates: seq<string>)
    requires |tiles| == 8 && |templates| == 2
    ensures |Elements(tiles, servers, templates, Src)| == 16
  {
    ElementsLength(tiles, servers, templates, Src);
  }

  /** With servers a, b, c the tiles are given a, b, c, a, b, ... */
  lemma ServersRotate()
    ensures SetTileServers({}, Some("a,b,c")) == {"a", "b", "c"}
    ensures ServerFor(["a", "b", "c"], 0) == "a" && ServerFor(["a", "b", "c"], 3) == "a"
    ensures ServerFor(["a", "b", "c"], 4) == "b" && ServerFor([], 4) == ""
  {
    assert Text.Join(["a", "b", "c"], ',') == "a,b,c";
    Text.JavaSplitJoin(["a", "b", "c"], ',');
  }

  /** Eight tiles, pages of four: the first page links to offset 4, the
      second prints no link, and the two pages are the rectangle. */
  lemma EightTilesInPagesOfFour(r: TileRect, z: int, env: Envelope)
    requires NonEmpty(r) && |AllTiles(r, z)| == 8
    requires forall t :: InRect(t, r) ==> Live(t, env)
    ensures HasNextLink(8, 0, 4) && NextOffset(8, 0, 4) == 4
    ensures !HasNextLink(8, 4, 4)
    ensures Page(CorrectedCandidates(r, z, 0), env, 4) + Page(CorrectedCandidates(r, z, 4), env, 4) == AllTiles(r, z)
    ensures Candidates(r, z, 0) == CorrectedCandidates(r, z, 0) && Candidates(r, z, 4) == CorrectedCandidates(r, z, 4)
    ensures Page(Candidates(r, z, 0), env, 4) + Page(Candidates(r, z, 4), env, 4) == AllTiles(r, z)
  {
    EightTilesWalksAgree(r, z);
    var pageAt := CorrectedWalkPages(r, z, env, 4);
    FollowLinksCoversAll(r, z, env, 4);
    assert FollowLinks(8, 4, 4, pageAt) == pageAt(4);
    assert FollowLinks(8, 4, 0, pageAt) == pageAt(0) + FollowLinks(8, 4, 4, pageAt);
  }

  /** In a rectangle of eight tiles, offset 4 either starts a row or lies
      in the only row, so the walk as written and the corrected walk agree
      at offsets 0 and 4. */
  lemma EightTilesWalksAgree(r: TileRect, z: int)
    requires NonEmpty(r) && |AllTiles(r, z)| == 8
    ensures Candidates(r, z, 0) == CorrectedCandidates(r, z, 0)
    ensures Candidates(r, z, 4) == CorrectedCandidates(r, z, 4)
  {
    var h, w := Height(r), Width(r);
    RowsLength(r.minY, r.maxY, r.minX, r.maxX, z);
    DivisorsOfEight(h, w);
    AlignedOffsetUnaffected(r, z, 0);
    if w == 8 {
      assert h == 1;
      assert Rows(r.minY, r.maxY, r.minX + 4, r.maxX, z) == Row(r.minY, r.minX + 4, r.maxX, z);
    } else {
      AlignedOffsetUnaffected(r, z, 4);
    }
  }

  lemma DivisorsOfEight(h: int, w: int)
    requires h > 0 && w > 0 && h * w == 8
    ensures w == 1 || w == 2 || w == 4 || (w == 8 && h == 1)
  {
    MulMonotone(1, h, w);
    assert w <= 8;
  }

  /** The nine-tile square in pages of four follows links 0, 4, 8: exactly
      the three pages whose as-written walk skips and repeats a tile. */
  lemma NineTilesLinkChain()
    ensures HasNextLink(9, 0, 4) && NextOffset(9, 0, 4) == 4
    ensures HasNextLink(9, 4, 4) && NextOffset(9, 4, 4) == 8
    ensures !HasNextLink(9, 8, 4)
  {
  }
}

=== FILE: queryparams.dfy ===
/** The query parameters of a tile request (uri/QueryParam.java): each has a
    name and a default, and a value is read only when the request carries a
    non-blank one. A value the parameter's reader rejects becomes one error
    that names the parameter and the offending text. */
module QueryParams {
  import opened Outcomes
  import Text

  datatype Param = Xmin | Ymin | Xmax | Ymax | Alt | Zoom | Projection | Start

  /** What a parameter's reader yields: a double, an int or long, a string,
      or Java's null (the default of `alt`). */
  datatype Value = Number(r: real) | Integer(i: int) | Str(s: string) | Null

  function Name(p: Param): string {
    match p
    case Xmin => "xmin"
    case Ymin => "ymin"
    case Xmax => "xmax"
    case Ymax => "ymax"
    case Alt => "alt"
    case Zoom => "zoom"
    case Projection => "projection"
    case Start => "start"
  }

  function Default(p: Param): Value {
    match p
    case Xmin => Number(0.0)
    case Ymin => Number(0.0)
    case Xmax => Number(0.0)
    case Ymax => Number(0.0)
    case Alt => Null
    case Zoom => Integer(-1)
    case Projection => Str("OSMTILE")
    case Start => Integer(0)
  }

  /** No two parameters share a name. */
  lemma NamesDistinct(p: Param, q: Param)
    ensures Name(p) == Name(q) ==> p == q
  {
  }

  const MinZoom: int := -1
  const MaxZoom: int := 18
  /** The largest offset accepted, 2^36. */
  const MaxStart: int := 68719476736

  const MinInt: int := -0x8000_0000
  const MaxInt: int := 0x7FFF_FFFF
  const MinLong: int := -0x8000_0000_0000_0000
  const MaxLong: int := 0x7FFF_FFFF_FFFF_FFFF

  /** `Integer.parseInt` (lo, hi the int range) or `Long.parseLong` (the
      long range): a decimal integer that fits the type. */
  function ParseBounded(s: string, lo: int, hi: int): (r: Option<int>)
    ensures r.Some? <==> Text.ParseInteger(s).Some? && lo <= Text.ParseInteger(s).value <= hi
    ensures r.Some? ==> r.value == Text.ParseInteger(s).value
  {
    match Text.ParseInteger(s)
    case None => None
    case Some(n) => if lo <= n <= hi then Some(n) else None
  }

  /** `parseValue`: the reader of each parameter, None where it throws. The
      coordinate readers are `Double.parseDouble`, given as `valueOf`. */
  function ParseValue(p: Param, s: string, valueOf: string -> Option<real>): (r: Option<Value>)
    ensures p == Zoom ==> (r.Some? <==> Text.ParseInteger(s).Some? && MinZoom <= Text.ParseInteger(s).value <= MaxZoom)
    ensures p == Start ==> (r.Some? <==> Text.ParseInteger(s).Some? && 0 <= Text.ParseInteger(s).value <= MaxStart)
    ensures p in {Zoom, Start} && r.Some? ==> r.value == Integer(Text.ParseInteger(s).value)
    ensures p in {Alt, Projection} ==> r == Some(Str(s))
    ensures p in {Xmin, Ymin, Xmax, Ymax} ==> (r.Some? <==> valueOf(s).Some?) && (r.Some? ==> r.value == Number(valueOf(s).value))
  {
    match p
    case Xmin | Ymin | Xmax | Ymax =>
      (match valueOf(s)
       case None => None
       case Some(v) => Some(Number(v)))
    case Alt | Projection => Some(Str(s))
    case Zoom =>
      (match ParseBounded(s, MinInt, MaxInt)
       case None => None
       case Some(z) => if z < MinZoom || z > MaxZoom then None else Some(Integer(z)))
    case Start =>
      (match ParseBounded(s, MinLong, MaxLong)
       case None => None
       case Some(n) => if n < 0 || n > MaxStart then None else Some(Integer(n)))
  }

  /** The message of the error a rejected value raises. */
  function InvalidValue(p: Param, s: string): string {
    "Invalid value " + s + " for parameter " + Name(p)
  }

  /** `parse(request)`: the default when the request has no value or a blank
      one; otherwise the reader's value, or the error naming the text. */
  function Parse(p: Param, raw: Option<string>, valueOf: string -> Option<real>): (r: Result<Value, string>)
    ensures raw.None? || Text.IsBlank(raw.value) ==> r == Ok(Default(p))
    ensures raw.Some? && !Text.IsBlank(raw.value) ==>
              (r.Ok? <==> ParseValue(p, raw.value, valueOf).Some?) &&
              (r.Ok? ==> r.value == ParseValue(p, raw.value, valueOf).value) &&
              (r.Err? ==> r.error == InvalidValue(p, raw.value))
    ensures p == Zoom && r.Ok? ==> r.value.Integer? && MinZoom <= r.value.i <= MaxZoom
    ensures p == Start && r.Ok? ==> r.value.Integer? && 0 <= r.value.i <= MaxStart
  {
    if raw.None? || |Text.Trim(raw.value)| == 0 then Ok(Default(p))
    else
      match ParseValue(p, raw.value, valueOf)
      case None => Err(InvalidValue(p, raw.value))
      case Some(v) => Ok(v)
  }

  /** Every zoom in range, written out in decimal, is read back unchanged;
      every other integer is refused with the error. */
  lemma ZoomRoundTrip(z: int, valueOf: string -> Option<real>)
    ensures MinZoom <= z <= MaxZoom ==> Parse(Zoom, Some(Text.ShowInt(z)), valueOf) == Ok(Integer(z))
    ensures !(MinZoom <= z <= MaxZoom) ==>
              Parse(Zoom, Some(Text.ShowInt(z)), valueOf) == Err(InvalidValue(Zoom, Text.ShowInt(z)))
  {
    var s := Text.ShowInt(z);
    Text.ParseShowInt(z);
    ShownIsNotBlank(z);
    assert ParseValue(Zoom, s, valueOf) == if MinZoom <= z <= MaxZoom then Some(Integer(z)) else None;
  }

  /** Every offset in range round-trips, and every other integer is refused. */
  lemma StartRoundTrip(n: int, valueOf: string -> Option<real>)
    ensures 0 <= n <= MaxStart ==> Parse(Start, Some(Text.ShowInt(n)), valueOf) == Ok(Integer(n))
    ensures !(0 <= n <= MaxStart) ==>
              Parse(Start, Some(Text.ShowInt(n)), valueOf) == Err(InvalidValue(Start, Text.ShowInt(n)))
  {
    var s := Text.ShowInt(n);
    Text.ParseShowInt(n);
    ShownIsNotBlank(n);
    assert ParseValue(Start, s, valueOf) == if 0 <= n <= MaxStart then Some(Integer(n)) else None;
  }

  /** A printed integer starts with a digit or a minus sign. */
  lemma ShownIsNotBlank(n: int)
    ensures !Text.IsBlank(Text.ShowInt(n))
  {
    var s := Text.ShowInt(n);
    if n >= 0 {
      assert Text.IsDigit(s[0]);
    } else {
      assert s[0] == '-';
    }
  }

  /** Zoom levels in range are read; integers outside it are refused. */
  lemma ZoomNumbers(valueOf: string -> Option<real>)
    ensures Parse(Zoom, Some("15"), valueOf) == Ok(Integer(15))
    ensures Parse(Zoom, Some("-1"), valueOf) == Ok(Integer(-1))
    ensures Parse(Zoom, Some("26"), valueOf) == Err(InvalidValue(Zoom, "26"))
    ensures Parse(Zoom, Some("-4"), valueOf) == Err(InvalidValue(Zoom, "-4"))
  {
    ZoomFromDigits("15", 15, valueOf);
    ZoomFromDigits("26", 26, valueOf);
    ZoomFromDigits("-1", -1, valueOf);
    ZoomFromDigits("-4", -4, valueOf);
  }

  /** How a non-blank zoom value whose integer reading is known parses. */
  lemma ZoomFromDigits(s: string, n: int, valueOf: string -> Option<real>)
    requires |s| == 2 && Text.IsDigit(s[1])
    requires Text.IsDigit(s[0]) ==> n == (s[0] - '0') as int * 10 + (s[1] - '0') as int
    requires !Text.IsDigit(s[0]) ==> s[0] == '-' && n == -((s[1] - '0') as int)
    ensures Parse(Zoom, Some(s), valueOf) == if MinZoom <= n <= MaxZoom then Ok(Integer(n)) else Err(InvalidValue(Zoom, s))
  {
    if Text.IsDigit(s[0]) {
      TwoDigits(s, n);
    } else {
      NegatedDigit(s, -n);
    }
  }

  /** A two-digit literal and its value. */
  lemma TwoDigits(s: string, n: int)
    requires |s| == 2 && Text.IsDigit(s[0]) && Text.IsDigit(s[1])
    requires n == (s[0] - '0') as int * 10 + (s[1] - '0') as int
    ensures Text.ParseInteger(s) == Some(n) && !Text.IsBlank(s)
  {
    assert s[..1][..0] == [];
    assert Text.DigitsValue(s[..1]) == (s[0] - '0') as int;
  }

  /** A minus sign and one digit, and its value. */
  lemma NegatedDigit(s: string, n: int)
    requires |s| == 2 && s[0] == '-' && Text.IsDigit(s[1]) && n == (s[1] - '0') as int
    ensures Text.ParseInteger(s) == Some(-n) && !Text.IsBlank(s)
  {
    assert s[1..][..0] == [];
    assert Text.DigitsValue(s[1..]) == n;
  }

  /** Text that is not a bare integer is refused, surrounding blanks
      included; a blank or absent value falls back to the default. */
  lemma ZoomText(valueOf: string -> Option<real>)
    ensures Parse(Zoom, Some("foo"), valueOf) == Err(InvalidValue(Zoom, "foo"))
    ensures Parse(Zoom, Some(" 15"), valueOf).Err?
    ensures Parse(Zoom, Some("  "), valueOf) == Ok(Integer(-1))
    ensures Parse(Zoom, None, valueOf) == Ok(Integer(-1))
  {
    ZoomWord(valueOf);
    ZoomPadded(valueOf);
    ZoomBlank(valueOf);
  }

  lemma ZoomWord(valueOf: string -> Option<real>)
    ensures Parse(Zoom, Some("foo"), valueOf) == Err(InvalidValue(Zoom, "foo"))
  {
    NotANumber("foo", 0, valueOf);
  }

  lemma ZoomPadded(valueOf: string -> Option<real>)
    ensures Parse(Zoom, Some(" 15"), valueOf).Err?
  {
    NotANumber(" 15", 1, valueOf);
  }

  lemma ZoomBlank(valueOf: string -> Option<real>)
    ensures Parse(Zoom, Some("  "), valueOf) == Ok(Integer(-1))
  {
    assert Text.IsBlank("  ");
  }

  /** A value with a visible character at `k` that does not start with a
      sign or a digit is refused. */
  lemma NotANumber(s: string, k: nat, valueOf: string -> Option<real>)
    requires k < |s| && s[k] > ' '
    requires !Text.IsDigit(s[0]) && s[0] != '-' && s[0] != '+'
    ensures Parse(Zoom, Some(s), valueOf) == Err(InvalidValue(Zoom, s))
  {
    assert !Text.IsBlank(s);
    assert Text.ParseInteger(s).None?;
  }

  /** The offset limit is inclusive. */
  lemma StartLimit(valueOf: string -> Option<real>)
    ensures Parse(Start, Some(Text.ShowInt(MaxStart)), valueOf) == Ok(Integer(MaxStart))
    ensures Parse(Start, Some(Text.ShowInt(MaxStart + 1)), valueOf).Err?
    ensures Parse(Start, Some(Text.ShowInt(-1)), valueOf).Err?
  {
    StartRoundTrip(MaxStart, valueOf);
    StartRoundTrip(MaxStart + 1, valueOf);
    StartRoundTrip(-1, valueOf);
  }
}

=== FILE: registry.dfy ===
/** The table of tiled coordinate reference systems the service knows
    (TiledCRSConstants.java): three named grids, each with its EPSG code, its
    extent in projected units, its tile size, its tile origin and one
    resolution (projected units per pixel) per zoom level. */
module Registry {
  import opened Outcomes
  import opened Geometry

  datatype CrsDefinition = CrsDefinition(
    name: string,
    code: string,
    bounds: Bounds,
    tileSize: int,
    origin: Point,
    resolutions: seq<real>)

  /** The scale of a zoom level is the reciprocal of its resolution:
      pixels per projected unit. */
  function Scale(d: CrsDefinition, zoom: nat): (s: real)
    requires zoom < |d.resolutions| && d.resolutions[zoom] > 0.0
    ensures s > 0.0 && s * d.resolutions[zoom] == 1.0
  {
    1.0 / d.resolutions[zoom]
  }

  /** Half the circumference of the Web Mercator sphere: the projected
      ordinate of longitude 180 and of latitude 85.0511287798. */
  const WebMercatorHalfWorld: real := 20037508.342789244

  const Osmtile: CrsDefinition := CrsDefinition(
    "OSMTILE", "EPSG:3857",
    Bounds(Point(-WebMercatorHalfWorld, -WebMercatorHalfWorld), Point(WebMercatorHalfWorld, WebMercatorHalfWorld)),
    256,
    Point(-20037508.342787, 20037508.342787),
    [156543.0339, 78271.51695, 39135.758475, 19567.8792375, 9783.93961875,
     4891.969809375, 2445.9849046875, 1222.9924523438, 611.49622617188,
     305.74811308594, 152.87405654297, 76.437028271484, 38.218514135742,
     19.109257067871, 9.5546285339355, 4.7773142669678, 2.3886571334839,
     1.1943285667419, 0.59716428337097])

  const Cbmtile: CrsDefinition := CrsDefinition(
    "CBMTILE", "EPSG:3978",
    Bounds(Point(-7786476.885838887, -5153821.09213678), Point(7148753.233541353, 7928343.534071138)),
    256,
    Point(-34655800.0, 39310000.0),
    [38364.660062653464, 22489.62831258996, 13229.193125052918, 7937.5158750317505,
     4630.2175937685215, 2645.8386250105837, 1587.5031750063501, 926.0435187537042,
     529.1677250021168, 317.50063500127004, 185.20870375074085, 111.12522225044451,
     66.1459656252646, 38.36466006265346, 22.48962831258996, 13.229193125052918,
     7.9375158750317505, 4.6302175937685215])

  const Apstile: CrsDefinition := CrsDefinition(
    "APSTILE", "EPSG:5936",
    Bounds(Point(-28567784.109254867, -28567784.109254755), Point(32567784.109255023, 32567784.10925506)),
    256,
    Point(-28567784.109255, 32567784.109255),
    [238810.813354, 119405.406677, 59702.7033384999, 29851.3516692501,
     14925.675834625, 7462.83791731252, 3731.41895865639, 1865.70947932806,
     932.854739664032, 466.427369832148, 233.213684916074, 116.606842458037,
     58.3034212288862, 29.1517106145754, 14.5758553072877, 7.28792765351156,
     3.64396382688807, 1.82198191331174, 0.910990956788164, 0.45549547826179])

  const Names: set<string> := {"OSMTILE", "CBMTILE", "APSTILE"}

  /** Every zoom level is finer than the one before it. */
  predicate StrictlyDecreasing(rs: seq<real>) {
    forall i :: 0 < i < |rs| ==> rs[i] < rs[i - 1]
  }

  /** What every entry of the table satisfies. */
  predicate WellFormed(d: CrsDefinition) {
    && Valid(d.bounds)
    && d.tileSize == 256
    && |d.resolutions| > 0
    && (forall i :: 0 <= i < |d.resolutions| ==> d.resolutions[i] > 0.0)
    && StrictlyDecreasing(d.resolutions)
  }

  /** `tiledCRSDefinitions.get(name)`: the entry registered under `name`, or
      nothing (Java's null) for any other name. */
  function Lookup(name: string): (r: Option<CrsDefinition>)
    ensures r.Some? <==> name in Names
    ensures r.Some? ==> r.value.name == name && WellFormed(r.value)
  {
    OsmtileWellFormed();
    CbmtileWellFormed();
    ApstileWellFormed();
    if name == "OSMTILE" then Some(Osmtile)
    else if name == "CBMTILE" then Some(Cbmtile)
    else if name == "APSTILE" then Some(Apstile)
    else None
  }

  lemma OsmtileWellFormed()
    ensures WellFormed(Osmtile)
  {
  }

  lemma CbmtileWellFormed()
    ensures WellFormed(Cbmtile)
  {
  }

  lemma ApstileWellFormed()
    ensures WellFormed(Apstile)
  {
  }

  /** The codes and the number of zoom levels of the three grids. */
  lemma RegistryContents()
    ensures Lookup("OSMTILE").Some? && Lookup("OSMTILE").value.code == "EPSG:3857"
    ensures |Lookup("OSMTILE").value.resolutions| == 19
    ensures Lookup("CBMTILE").Some? && Lookup("CBMTILE").value.code == "EPSG:3978"
    ensures |Lookup("CBMTILE").value.resolutions| == 18
    ensures Lookup("APSTILE").Some? && Lookup("APSTILE").value.code == "EPSG:5936"
    ensures |Lookup("APSTILE").value.resolutions| == 20
    ensures Lookup("EPSG:3857").None? && Lookup("osmtile").None?
  {
  }
}

=== FILE: servicebounds.dfy ===
/** The extent and zoom range a service covers (MapMLServiceBounds.java),
    and the test a request must pass before any tile is listed. */
module ServiceBounds {
  import opened Outcomes
  import opened Geometry
  import opened Bboxes

  datatype ServiceBounds = ServiceBounds(minZoom: int, maxZoom: int, bbox: Bbox)

  /** `intersects(zoom, other)`: never for zoom -1 or no box; otherwise the
      zoom lies in the service's range and the two boxes share a point,
      edges included. */
  function Intersects(sb: ServiceBounds, zoom: int, other: Option<Bbox>): (r: bool)
    ensures r <==> zoom != -1 && other.Some? && sb.minZoom <= zoom <= sb.maxZoom &&
                   exists p :: Contains(EnvelopeOf(sb.bbox), p) && Contains(EnvelopeOf(other.value), p)
  {
    if zoom == -1 || other.None? then false
    else
      IntersectsIffCommonPoint(EnvelopeOf(sb.bbox), EnvelopeOf(other.value));
      sb.minZoom <= zoom <= sb.maxZoom && Geometry.Intersects(EnvelopeOf(sb.bbox), EnvelopeOf(other.value))
  }

  /** A request for the service's own box at any zoom of its range
      intersects, and the answer does not depend on which box is the
      service's. */
  lemma IntersectsOwnBoxAndSymmetric(sb: ServiceBounds, zoom: int, other: Bbox)
    requires zoom != -1 && sb.minZoom <= zoom <= sb.maxZoom
    ensures Intersects(sb, zoom, Some(sb.bbox))
    ensures Intersects(sb, zoom, Some(other)) == Intersects(ServiceBounds(sb.minZoom, sb.maxZoom, other), zoom, Some(sb.bbox))
  {
    var e := EnvelopeOf(sb.bbox);
    assert Contains(e, e.min);
    IntersectsSymmetricAndClosed(e, EnvelopeOf(other));
  }
}

=== FILE: text.dfy ===
/** The string operations of the Java library that the modelled code relies
    on: `String.split(",")`, `String.trim()`, `replaceFirst` with a literal
    pattern, `replaceAll("&", "&amp;")`, and decimal integer parsing and
    printing. Characters are compared by code unit; no Unicode digits. */
module Text {
  import opened Outcomes

  // ---------------------------------------------------------------------
  // Splitting on a single separator character
  // ---------------------------------------------------------------------

  /** Every piece between separators, empty ones included: a string with
      n separators has n + 1 pieces. */
  function SplitAll(s: string, sep: char): (pieces: seq<string>)
    ensures |pieces| >= 1
    ensures forall i :: 0 <= i < |pieces| ==> sep !in pieces[i]
    decreases |s|
  {
    if |s| == 0 then [[]]
    else
      var rest := SplitAll(s[1..], sep);
      if s[0] == sep then [[]] + rest
      else [[s[0]] + rest[0]] + rest[1..]
  }

  /** The pieces glued back together with the separator between them. */
  function Join(pieces: seq<string>, sep: char): string
    requires |pieces| >= 1
    decreases |pieces|
  {
    if |pieces| == 1 then pieces[0]
    else pieces[0] + [sep] + Join(pieces[1..], sep)
  }

  /** Splitting loses nothing: joining the pieces restores the string. */
  lemma {:induction false} JoinSplitAll(s: string, sep: char)
    ensures Join(SplitAll(s, sep), sep) == s
    decreases |s|
  {
    if |s| > 0 {
      var rest := SplitAll(s[1..], sep);
      JoinSplitAll(s[1..], sep);
      if s[0] == sep {
        assert SplitAll(s, sep) == [[]] + rest;
        assert ([[]] + rest)[1..] == rest;
        assert s == [] + [sep] + s[1..];
      } else if |rest| == 1 {
        assert s == [s[0]] + rest[0];
      } else {
        var pieces := SplitAll(s, sep);
        assert pieces[1..] == rest[1..];
        assert Join(rest, sep) == rest[0] + [sep] + Join(rest[1..], sep);
        assert s == [s[0]] + rest[0] + [sep] + Join(rest[1..], sep);
      }
    }
  }

  /** A string free of the separator splits into itself alone. */
  lemma {:induction false} SplitAllWithoutSeparator(s: string, sep: char)
    requires sep !in s
    ensures SplitAll(s, sep) == [s]
    decreases |s|
  {
    if |s| > 0 {
      assert sep !in s[1..];
      SplitAllWithoutSeparator(s[1..], sep);
      assert [s[0]] + s[1..] == s;
    }
  }

  /** A separator-free head is split off as the first piece. */
  lemma {:induction false} SplitAllHead(head: string, tail: string, sep: char)
    requires sep !in head
    ensures SplitAll(head + [sep] + tail, sep) == [head] + SplitAll(tail, sep)
    decreases |head|
  {
    if |head| == 0 {
      assert head + [sep] + tail == [sep] + tail;
      assert ([sep] + tail)[1..] == tail;
    } else {
      assert sep !in head[1..];
      SplitAllHead(head[1..], tail, sep);
      var s := head + [sep] + tail;
      assert s[1..] == head[1..] + [sep] + tail;
      assert [head[0]] + head[1..] == head;
    }
  }

  /** Joining separator-free pieces and splitting again gives the pieces. */
  lemma {:induction false} SplitAllJoin(pieces: seq<string>, sep: char)
    requires |pieces| >= 1
    requires forall i :: 0 <= i < |pieces| ==> sep !in pieces[i]
    ensures SplitAll(Join(pieces, sep), sep) == pieces
    decreases |pieces|
  {
    if |pieces| == 1 {
      SplitAllWithoutSeparator(pieces[0], sep);
    } else {
      SplitAllJoin(pieces[1..], sep);
      SplitAllHead(pieces[0], Join(pieces[1..], sep), sep);
      assert [pieces[0]] + pieces[1..] == pieces;
    }
  }

  /** Drops the empty pieces at the end, as `split` with limit 0 does. */
  function DropTrailingEmpty(pieces: seq<string>): (kept: seq<string>)
    ensures |kept| <= |pieces| && kept == pieces[..|kept|]
    ensures |kept| == 0 || kept[|kept| - 1] != []
    ensures forall i :: |kept| <= i < |pieces| ==> pieces[i] == []
    decreases |pieces|
  {
    if |pieces| == 0 then []
    else if pieces[|pieces| - 1] == [] then DropTrailingEmpty(pieces[..|pieces| - 1])
    else pieces
  }

  /** Java `s.split(String.valueOf(sep))` for a separator that is not a
      regular-expression metacharacter: with no separator present the whole
      string is the only piece; otherwise every piece between separators,
      leading empty ones kept and trailing empty ones removed. */
  function JavaSplit(s: string, sep: char): (pieces: seq<string>)
    ensures sep !in s ==> pieces == [s]
    ensures sep in s ==> pieces == DropTrailingEmpty(SplitAll(s, sep))
  {
    if sep !in s then [s] else DropTrailingEmpty(SplitAll(s, sep))
  }

  /** When the last piece is not empty, `split` keeps every piece. */
  lemma JavaSplitJoin(pieces: seq<string>, sep: char)
    requires |pieces| >= 2
    requires forall i :: 0 <= i < |pieces| ==> sep !in pieces[i]
    requires pieces[|pieces| - 1] != []
    ensures JavaSplit(Join(pieces, sep), sep) == pieces
  {
    SplitAllJoin(pieces, sep);
    var s := Join(pieces, sep);
    assert s == pieces[0] + [sep] + Join(pieces[1..], sep);
    assert s[|pieces[0]|] == sep;
  }

  /** A separator at the end adds only an empty piece, which `split`
      drops. */
  lemma TrailingSeparator(pieces: seq<string>, sep: char)
    requires |pieces| >= 2
    requires forall i :: 0 <= i < |pieces| ==> sep !in pieces[i]
    requires pieces[|pieces| - 1] != []
    ensures JavaSplit(Join(pieces, sep) + [sep], sep) == pieces
  {
    var longer := pieces + [[]];
    assert Join(longer, sep) == Join(pieces, sep) + [sep] by {
      JoinEmptyLast(pieces, sep);
    }
    assert SplitAll(Join(longer, sep), sep) == longer by {
      SplitAllJoin(longer, sep);
    }
    assert longer[..|longer| - 1] == pieces;
    assert sep in Join(pieces, sep) + [sep];
  }

  /** Joining with an empty last piece ends the string with a separator. */
  lemma {:induction false} JoinEmptyLast(pieces: seq<string>, sep: char)
    requires |pieces| >= 1
    ensures Join(pieces + [[]], sep) == Join(pieces, sep) + [sep]
    decreases |pieces|
  {
    var longer := pieces + [[]];
    assert longer[1..] == pieces[1..] + [[]];
    if |pieces| > 1 {
      JoinEmptyLast(pieces[1..], sep);
    }
  }

  /** `"1,2,3,4,".split(",")` has four pieces: the trailing empty one goes. */
  lemma TrailingSeparatorDropped()
    ensures |JavaSplit("1,2,3,4,", ',')| == 4
  {
    var pieces := ["1", "2", "3", "4"];
    assert Join(pieces, ',') + [','] == "1,2,3,4,";
    TrailingSeparator(pieces, ',');
  }

  // ---------------------------------------------------------------------
  // Four comma-separated fields (shared by Bounds and Bbox parsing)
  // ---------------------------------------------------------------------

  datatype FieldError =
    | Missing                        // null or "" input: a NullPointerException
    | WrongCount(count: nat)         // split did not give exactly four pieces
    | NotANumber(token: string)      // a piece the number reader rejects

  /** `commaSeparatedStringToStringArray`: a null or empty string fails, and
      so does any string that does not split into exactly four pieces. */
  function FourFields(s: Option<string>): (r: Result<seq<string>, FieldError>)
    ensures s.None? || s == Some("") ==> r == Err(Missing)
    ensures r.Ok? <==> s.Some? && s.value != "" && |JavaSplit(s.value, ',')| == 4
    ensures r.Ok? ==> r.value == JavaSplit(s.value, ',')
  {
    match s
    case None => Err(Missing)
    case Some(text) =>
      if text == "" then Err(Missing)
      else
        var pieces := JavaSplit(text, ',');
        if |pieces| != 4 then Err(WrongCount(|pieces|)) else Ok(pieces)
  }

  /** The four fields read as numbers by `valueOf`, first failure reported. */
  function FourNumbers(s: Option<string>, valueOf: string -> Option<real>): (r: Result<seq<real>, FieldError>)
    ensures r.Ok? <==> FourFields(s).Ok? && forall i :: 0 <= i < 4 ==> valueOf(FourFields(s).value[i]).Some?
    ensures r.Ok? ==> |r.value| == 4 && forall i :: 0 <= i < 4 ==> Some(r.value[i]) == valueOf(FourFields(s).value[i])
  {
    match FourFields(s)
    case Err(e) => Err(e)
    case Ok(f) =>
      if valueOf(f[0]).None? then Err(NotANumber(f[0]))
      else if valueOf(f[1]).None? then Err(NotANumber(f[1]))
      else if valueOf(f[2]).None? then Err(NotANumber(f[2]))
      else if valueOf(f[3]).None? then Err(NotANumber(f[3]))
      else Ok([valueOf(f[0]).value, valueOf(f[1]).value, valueOf(f[2]).value, valueOf(f[3]).value])
  }

  // ---------------------------------------------------------------------
  // trim
  // ---------------------------------------------------------------------

  /** `s.trim().isEmpty()`: trim strips every character at or below U+0020. */
  predicate IsBlank(s: string) {
    forall i :: 0 <= i < |s| ==> s[i] <= ' '
  }

  /** Java `String.trim()`: what is left after stripping characters at or
      below U+0020 from both ends. */
  function Trim(s: string): (t: string)
    ensures |t| == 0 <==> IsBlank(s)
    ensures |t| > 0 ==> t[0] > ' ' && t[|t| - 1] > ' '
    ensures |t| <= |s|
  {
    TrimEnd(TrimStart(s))
  }

  function TrimStart(s: string): (r: string)
    ensures |r| <= |s| && r == s[|s| - |r|..]
    ensures |r| > 0 ==> r[0] > ' '
    ensures forall i :: 0 <= i < |s| - |r| ==> s[i] <= ' '
    decreases |s|
  {
    if |s| > 0 && s[0] <= ' ' then TrimStart(s[1..]) else s
  }

  function TrimEnd(s: string): (r: string)
    ensures |r| <= |s| && r == s[..|r|]
    ensures |r| > 0 ==> r[|r| - 1] > ' '
    ensures forall i :: |r| <= i < |s| ==> s[i] <= ' '
    decreases |s|
  {
    if |s| > 0 && s[|s| - 1] <= ' ' then TrimEnd(s[..|s| - 1]) else s
  }

  // ---------------------------------------------------------------------
  // replaceFirst / replaceAll with literal patterns
  // ---------------------------------------------------------------------

  predicate OccursAt(s: string, pat: string, i: int) {
    0 <= i && i + |pat| <= |s| && s[i..i + |pat|] == pat
  }

  /** The first position at or after `from` where `pat` occurs. */
  function IndexFrom(s: string, pat: string, from: nat): (r: Option<nat>)
    requires from <= |s|
    ensures r.Some? ==> from <= r.value && OccursAt(s, pat, r.value)
    ensures r.Some? ==> forall k :: from <= k < r.value ==> !OccursAt(s, pat, k)
    ensures r.None? ==> forall k :: from <= k ==> !OccursAt(s, pat, k)
    decreases |s| - from
  {
    if OccursAt(s, pat, from) then Some(from)
    else if from == |s| then None
    else IndexFrom(s, pat, from + 1)
  }

  /** `s.replaceFirst(pat, repl)` for a pattern and replacement without
      regular-expression metacharacters: the earliest occurrence only. */
  function ReplaceFirst(s: string, pat: string, repl: string): (r: string)
    ensures (forall k :: !OccursAt(s, pat, k)) ==> r == s
    ensures forall i :: OccursAt(s, pat, i) && (forall k :: 0 <= k < i ==> !OccursAt(s, pat, k)) ==>
              r == s[..i] + repl + s[i + |pat|..]
  {
    match IndexFrom(s, pat, 0)
    case None => s
    case Some(i) => s[..i] + repl + s[i + |pat|..]
  }

  /** `s.replaceAll("&", "&amp;")`. */
  function EscapeAmp(s: string): (r: string)
    ensures |r| >= |s|
    decreases |s|
  {
    if |s| == 0 then []
    else if s[0] == '&' then "&amp;" + EscapeAmp(s[1..])
    else [s[0]] + EscapeAmp(s[1..])
  }

  /** The XML reading of `&amp;` as `&`, the inverse of the escaping. */
  function UnescapeAmp(s: string): string
    decreases |s|
  {
    if |s| == 0 then []
    else if |s| >= 5 && s[..5] == "&amp;" then "&" + UnescapeAmp(s[5..])
    else [s[0]] + UnescapeAmp(s[1..])
  }

  /** Escaping loses nothing: reading the entities back restores the text. */
  lemma {:induction false} UnescapeEscapeAmp(s: string)
    ensures UnescapeAmp(EscapeAmp(s)) == s
    decreases |s|
  {
    if |s| > 0 {
      UnescapeEscapeAmp(s[1..]);
      var e := EscapeAmp(s);
      if s[0] == '&' {
        assert e[..5] == "&amp;" && e[5..] == EscapeAmp(s[1..]);
      } else {
        assert e[0] == s[0] && e[1..] == EscapeAmp(s[1..]);
      }
      assert s == [s[0]] + s[1..];
    }
  }

  /** After escaping, every `&` starts an `&amp;` entity. */
  lemma {:induction false} EscapedAmpersandsAreEntities(s: string)
    ensures forall i :: 0 <= i < |EscapeAmp(s)| && EscapeAmp(s)[i] == '&' ==>
              i + 5 <= |EscapeAmp(s)| && EscapeAmp(s)[i..i + 5] == "&amp;"
    decreases |s|
  {
    if |s| > 0 {
      EscapedAmpersandsAreEntities(s[1..]);
      var e, rest := EscapeAmp(s), EscapeAmp(s[1..]);
      var n := if s[0] == '&' then 5 else 1;
      assert e == e[..n] + rest;
      forall i | 0 <= i < |e| && e[i] == '&'
        ensures i + 5 <= |e| && e[i..i + 5] == "&amp;"
      {
        if i >= n {
          assert e[i] == rest[i - n];
          assert e[i..i + 5] == rest[i - n..i - n + 5];
        }
      }
    }
  }

  // ---------------------------------------------------------------------
  // Decimal integers
  // ---------------------------------------------------------------------

  predicate IsDigit(c: char) {
    '0' <= c <= '9'
  }

  predicate AllDigits(s: string) {
    forall i :: 0 <= i < |s| ==> IsDigit(s[i])
  }

  /** The value of a string of decimal digits, most significant first. */
  function DigitsValue(s: string): (n: nat)
    requires AllDigits(s)
    decreases |s|
  {
    if |s| == 0 then 0
    else DigitsValue(s[..|s| - 1]) * 10 + (s[|s| - 1] - '0') as nat
  }

  /** Java `Integer.parseInt` / `Long.parseLong` without the width check:
      an optional `+` or `-` followed by one or more digits. */
  function ParseInteger(s: string): (r: Option<int>)
    ensures r.Some? <==> (|s| >= 1 && AllDigits(s)) ||
                         (|s| >= 2 && (s[0] == '+' || s[0] == '-') && AllDigits(s[1..]))
    ensures AllDigits(s) && |s| >= 1 ==> r == Some(DigitsValue(s))
    ensures |s| >= 2 && s[0] == '+' && AllDigits(s[1..]) ==> r == Some(DigitsValue(s[1..]))
    ensures |s| >= 2 && s[0] == '-' && AllDigits(s[1..]) ==> r == Some(0 - DigitsValue(s[1..]))
    ensures |s| >= 1 && !IsDigit(s[0]) && s[0] != '-' && s[0] != '+' ==> r.None?
  {
    if |s| == 0 then None
    else if s[0] == '-' || s[0] == '+' then
      var digits := s[1..];
      if |digits| == 0 || !AllDigits(digits) then None
      else if s[0] == '-' then Some(0 - DigitsValue(digits))
      else Some(DigitsValue(digits))
    else if AllDigits(s) then Some(DigitsValue(s))
    else None
  }

  /** The decimal digits of `n`, without leading zeros. */
  function ShowNat(n: nat): (s: string)
    ensures |s| >= 1 && AllDigits(s)
    decreases n
  {
    (if n < 10 then [] else ShowNat(n / 10)) + [('0' as int + n % 10) as char]
  }

  /** Java `String.valueOf(long)` (and `n + ""`). */
  function ShowInt(n: int): (s: string)
    ensures |s| >= 1
  {
    if n < 0 then "-" + ShowNat(-n) else ShowNat(n)
  }

  lemma {:induction false} DigitsValueShowNat(n: nat)
    ensures DigitsValue(ShowNat(n)) == n
    decreases n
  {
    var s := ShowNat(n);
    var head := if n < 10 then [] else ShowNat(n / 10);
    assert s[..|s| - 1] == head;
    if n >= 10 {
      DigitsValueShowNat(n / 10);
    }
  }

  /** Printing then parsing an integer gives it back. */
  lemma ParseShowInt(n: int)
    ensures ParseInteger(ShowInt(n)) == Some(n)
  {
    if n < 0 {
      ParseShowNegative(n);
    } else {
      DigitsValueShowNat(n);
    }
  }

  lemma ParseShowNegative(n: int)
    requires n < 0
    ensures ParseInteger(ShowInt(n)) == Some(n)
  {
    var digits := ShowNat(-n);
    assert ShowInt(n) == "-" + digits;
    ParseNegated(digits);
    DigitsValueShowNat(-n);
    assert ParseInteger(ShowInt(n)) == Some(0 - DigitsValue(digits));
  }

  /** A minus sign followed by digits reads as the negated digits. */
  /** A plus sign is read, and a lone sign, a decimal point or a trailing
      letter is refused. */
  lemma ParseIntegerExamples()
    ensures ParseInteger("+15") == Some(15)
    ensures ParseInteger("15a").None? && ParseInteger("1.5").None?
    ensures ParseInteger("+").None? && ParseInteger("-").None?
  {
    assert AllDigits("15") && DigitsValue("15") == 15 by {
      assert "15"[..1] == "1" && ("1")[..0] == "";
    }
    assert "+15"[1..] == "15";
    assert !IsDigit("15a"[2]) && !IsDigit("1.5"[1]);
  }

  lemma ParseNegated(digits: string)
    requires |digits| >= 1 && AllDigits(digits)
    ensures ParseInteger("-" + digits) == Some(0 - DigitsValue(digits))
  {
    assert ("-" + digits)[1..] == digits;
  }
}

=== FILE: tiledcrs.dfy ===
/** A tiled coordinate reference system (TiledCRS.java): the registry entry
    of a named grid, the per-zoom envelope of existing tiles computed when it
    is built, and the operations that turn a projected extent into pixel
    bounds, tile counts and a sorted page of tiles. */
module TiledCrs {
  import opened Outcomes
  import opened Geometry
  import opened TileGrid
  import Registry
  import Numerics

  /** `TILESIZE`: tiles are 256 pixels square. */
  const TileSize: real := 256.0

  datatype Crs = Crs(def: Registry.CrsDefinition, tileBounds: seq<Envelope>)

  // ---------------------------------------------------------------------
  // The transformation between projected units and pixels
  // ---------------------------------------------------------------------

  /** `Transformation(1, -origin.x, -1, origin.y).transform(p, scale)`:
      pixels right of and below the tile origin. */
  function Transform(origin: Point, p: Point, scale: real): Point {
    Point(scale * (p.x - origin.x), scale * (origin.y - p.y))
  }

  /** `untransform`, the inverse mapping. */
  function Untransform(origin: Point, p: Point, scale: real): Point
    requires scale != 0.0
  {
    Point(p.x / scale + origin.x, origin.y - p.y / scale)
  }

  /** Untransforming a transformed point gives it back, and the reverse. */
  lemma TransformRoundTrip(origin: Point, p: Point, scale: real)
    requires scale != 0.0
    ensures Untransform(origin, Transform(origin, p, scale), scale) == p
    ensures Transform(origin, Untransform(origin, p, scale), scale) == p
  {
    UntransformAfterTransform(origin, p, scale);
    TransformAfterUntransform(origin, p, scale);
  }

  lemma UntransformAfterTransform(origin: Point, p: Point, scale: real)
    requires scale != 0.0
    ensures Untransform(origin, Transform(origin, p, scale), scale) == p
  {
    CancelShift(scale, p.x, origin.x);
    CancelShift(scale, p.y, origin.y);
  }

  lemma TransformAfterUntransform(origin: Point, p: Point, scale: real)
    requires scale != 0.0
    ensures Transform(origin, Untransform(origin, p, scale), scale) == p
  {
    CancelShift(scale, p.x, origin.x);
    CancelShift(scale, p.y, origin.y);
  }

  /** Scaling a shifted value and undoing both, in either order. */
  lemma CancelShift(s: real, a: real, o: real)
    requires s != 0.0
    ensures (s * (a - o)) / s + o == a
    ensures o - (s * (o - a)) / s == a
    ensures s * ((a / s + o) - o) == a
    ensures s * (o - (o - a / s)) == a
  {
    Cancel(s, a - o);
    Cancel(s, o - a);
    Cancel(s, a);
    assert (a / s + o) - o == a / s;
    assert o - (o - a / s) == a / s;
  }

  lemma Cancel(s: real, a: real)
    requires s != 0.0
    ensures (s * a) / s == a && s * (a / s) == a
  {
  }

  /** The origin maps to pixel (0, 0); x keeps its direction and y flips, so
      north is up in pixel space. */
  lemma TransformOrientation(origin: Point, p: Point, q: Point, scale: real)
    requires scale > 0.0
    ensures Transform(origin, origin, scale) == Point(0.0, 0.0)
    ensures p.x <= q.x ==> Transform(origin, p, scale).x <= Transform(origin, q, scale).x
    ensures p.y <= q.y ==> Transform(origin, q, scale).y <= Transform(origin, p, scale).y
  {
    assert Transform(origin, origin, scale) == Point(0.0, 0.0);
    EastwardsKeepsOrder(origin, p, q, scale);
    NorthwardsReversesOrder(origin, p, q, scale);
  }

  lemma EastwardsKeepsOrder(origin: Point, p: Point, q: Point, scale: real)
    requires scale > 0.0
    ensures p.x <= q.x ==> Transform(origin, p, scale).x <= Transform(origin, q, scale).x
  {
    ScaleMonotone(scale, p.x - origin.x, q.x - origin.x);
  }

  lemma NorthwardsReversesOrder(origin: Point, p: Point, q: Point, scale: real)
    requires scale > 0.0
    ensures p.y <= q.y ==> Transform(origin, q, scale).y <= Transform(origin, p, scale).y
  {
    ScaleMonotone(scale, origin.y - q.y, origin.y - p.y);
  }

  lemma ScaleMonotone(s: real, a: real, b: real)
    requires s > 0.0
    ensures a <= b ==> s * a <= s * b
  {
    assert s * b - s * a == s * (b - a);
  }

  // ---------------------------------------------------------------------
  // Construction
  // ---------------------------------------------------------------------

  /** The tile-index box of a pixel box: each corner divided by the tile
      size and floored (`new Bounds(min.divideBy(TILESIZE).floor(), ...)`). */
  function TileIndexBounds(pb: Bounds): (tb: Bounds)
    ensures Valid(tb)
    ensures IsIntegral(tb.min.x) && IsIntegral(tb.min.y) && IsIntegral(tb.max.x) && IsIntegral(tb.max.y)
    ensures Valid(pb) ==> tb.min.x * TileSize <= pb.min.x < (tb.min.x + 1.0) * TileSize
    ensures Valid(pb) ==> tb.min.y * TileSize <= pb.min.y < (tb.min.y + 1.0) * TileSize
    ensures Valid(pb) ==> tb.max.x * TileSize <= pb.max.x < (tb.max.x + 1.0) * TileSize
    ensures Valid(pb) ==> tb.max.y * TileSize <= pb.max.y < (tb.max.y + 1.0) * TileSize
  {
    var lo, hi := Floor(DivideBy(pb.min, TileSize)), Floor(DivideBy(pb.max, TileSize));
    FloorMonotone(pb.min.x / TileSize, pb.max.x / TileSize);
    FloorMonotone(pb.min.y / TileSize, pb.max.y / TileSize);
    FromCorners(lo, hi)
  }

  /** The tiles a zoom level has, as `init` records them: the tile that
      holds the far corner of the grid's pixel extent. */
  function ZoomEnvelope(d: Registry.CrsDefinition, zoom: nat): (env: Envelope)
    requires Registry.WellFormed(d) && zoom < |d.resolutions|
    ensures var s := Registry.Scale(d, zoom);
            var pb := FromCorners(Transform(d.origin, d.bounds.min, s), Transform(d.origin, d.bounds.max, s));
            env.maxX as real * TileSize <= pb.max.x < (env.maxX as real + 1.0) * TileSize &&
            env.maxY as real * TileSize <= pb.max.y < (env.maxY as real + 1.0) * TileSize
  {
    var s := Registry.Scale(d, zoom);
    var pb := FromCorners(Transform(d.origin, d.bounds.min, s), Transform(d.origin, d.bounds.max, s));
    var tb := TileIndexBounds(pb);
    Envelope(tb.max.x.Floor, tb.max.y.Floor)
  }

  /** `init`: one envelope per zoom level of the grid. */
  function Init(d: Registry.CrsDefinition): (envs: seq<Envelope>)
    requires Registry.WellFormed(d)
    ensures |envs| == |d.resolutions|
    ensures forall z :: 0 <= z < |envs| ==> envs[z] == ZoomEnvelope(d, z)
  {
    seq(|d.resolutions|, z requires 0 <= z < |d.resolutions| => ZoomEnvelope(d, z))
  }

  /** `new TiledCRS(name)`: fails for a name the registry does not hold. */
  function New(name: string): (r: Result<Crs, string>)
    ensures r.Ok? <==> name in Registry.Names
    ensures r.Err? ==> r.error == "Definition for Tiled CRS not found: " + name
    ensures r.Ok? ==> r.value.def.name == name && Registry.WellFormed(r.value.def)
    ensures r.Ok? ==> |r.value.tileBounds| == |r.value.def.resolutions|
  {
    match Registry.Lookup(name)
    case None => Err("Definition for Tiled CRS not found: " + name)
    case Some(d) => Ok(Crs(d, Init(d)))
  }

  /** A grid built by `New`. */
  predicate Built(c: Crs) {
    Registry.WellFormed(c.def) && c.tileBounds == Init(c.def)
  }

  lemma NewIsBuilt(name: string)
    requires New(name).Ok?
    ensures Built(New(name).value)
  {
  }

  // ---------------------------------------------------------------------
  // Pixel bounds, widths and counts
  // ---------------------------------------------------------------------

  /** `getPixelBounds(Bounds, zoom)`: both corners transformed and rounded
      to whole pixels. */
  function GetPixelBounds(c: Crs, b: Bounds, zoom: nat): (pb: Bounds)
    requires Registry.WellFormed(c.def) && zoom < |c.def.resolutions|
    ensures Valid(pb)
    ensures IsIntegral(pb.min.x) && IsIntegral(pb.min.y) && IsIntegral(pb.max.x) && IsIntegral(pb.max.y)
    ensures var s := Registry.Scale(c.def, zoom);
            Contains(pb, Round(Transform(c.def.origin, b.min, s))) && Contains(pb, Round(Transform(c.def.origin, b.max, s)))
  {
    var s := Registry.Scale(c.def, zoom);
    FromCorners(Round(Transform(c.def.origin, b.min, s)), Round(Transform(c.def.origin, b.max, s)))
  }

  /** Because y flips, the west edge gives the left pixel column and the
      north edge gives the top pixel row of a valid extent. */
  lemma PixelBoundsCorners(c: Crs, b: Bounds, zoom: nat)
    requires Registry.WellFormed(c.def) && zoom < |c.def.resolutions| && Valid(b)
    ensures var s := Registry.Scale(c.def, zoom);
            var lo, hi := Transform(c.def.origin, b.min, s), Transform(c.def.origin, b.max, s);
            GetPixelBounds(c, b, zoom) == Bounds(Point(RoundOf(lo.x), RoundOf(hi.y)), Point(RoundOf(hi.x), RoundOf(lo.y)))
  {
    var s := Registry.Scale(c.def, zoom);
    var lo, hi := Transform(c.def.origin, b.min, s), Transform(c.def.origin, b.max, s);
    TransformOrientation(c.def.origin, b.min, b.max, s);
    RoundMonotone(lo.x, hi.x);
    RoundMonotone(hi.y, lo.y);
  }

  /** `tileWidth(zoom, bounds)`: columns spanned by a tile-index box, both
      edges cast to whole numbers. */
  function TileWidth(zoom: int, b: Option<Bounds>): (w: int)
    ensures zoom == -1 || b.None? ==> w == 0
    ensures zoom != -1 && b.Some? && IsIntegral(b.value.min.x) && IsIntegral(b.value.max.x) ==>
              w as real == b.value.max.x + 1.0 - b.value.min.x
  {
    if zoom == -1 || b.None? then 0
    else
      var tb := b.value;
      TruncIntegral(tb.max.x);
      TruncIntegral(tb.min.x);
      Numerics.Trunc(tb.max.x) + 1 - Numerics.Trunc(tb.min.x)
  }

  /** A cast of a whole number loses nothing. */
  lemma TruncIntegral(v: real)
    ensures IsIntegral(v) ==> Numerics.Trunc(v) == v.Floor
  {
    if IsIntegral(v) && v < 0.0 {
      assert (-v).Floor == -(v.Floor) by {
        FloorUnique(-v, -(v.Floor));
      }
    }
  }

  /** The span `max + 1 - min` of two whole numbers, cast to a whole number. */
  lemma IntegralSpan(lo: real, hi: real)
    requires IsIntegral(lo) && IsIntegral(hi) && lo <= hi
    ensures Numerics.Trunc(hi + 1.0 - lo) == hi.Floor + 1 - lo.Floor
  {
    var k := hi.Floor + 1 - lo.Floor;
    assert hi + 1.0 - lo == k as real;
    FloorOfInteger(k);
  }

  /** The tile-index rectangle the walk covers for a pixel extent. */
  function RectOf(pb: Bounds): (r: TileRect)
    ensures NonEmpty(r)
    ensures var tb := TileIndexBounds(pb);
            r.minX as real == tb.min.x && r.minY as real == tb.min.y &&
            r.maxX as real == tb.max.x && r.maxY as real == tb.max.y
  {
    var tb := TileIndexBounds(pb);
    TileRect(tb.min.x.Floor, tb.min.y.Floor, tb.max.x.Floor, tb.max.y.Floor)
  }

  /** The width `getTilesForExtent` divides by is the walk's row length. */
  lemma TileWidthIsRowLength(zoom: int, pb: Bounds)
    requires zoom != -1
    ensures TileWidth(zoom, Some(TileIndexBounds(pb))) == Width(RectOf(pb)) > 0
  {
    var tb := TileIndexBounds(pb);
    TruncIntegral(tb.max.x);
    TruncIntegral(tb.min.x);
  }

  /** `tileCount(zoom, bounds)`: the width times the height of the
      tile-index box of a pixel box, 0 for zoom -1 or no bounds. */
  function TileCount(zoom: int, b: Option<Bounds>): (n: int)
    ensures zoom == -1 || b.None? ==> n == 0
  {
    if zoom == -1 || b.None? then 0
    else
      var lo, hi := Floor(DivideBy(b.value.min, TileSize)), Floor(DivideBy(b.value.max, TileSize));
      var width := Numerics.Trunc(hi.x + 1.0 - lo.x);
      var height := Numerics.Trunc(hi.y + 1.0 - lo.y);
      width * height
  }

  /** The count is the number of tiles the walk visits over the whole
      rectangle of a valid extent. */
  lemma {:induction false} TileCountIsWalkLength(zoom: int, pb: Bounds, z: int)
    requires zoom != -1 && Valid(pb)
    ensures TileCount(zoom, Some(pb)) == Height(RectOf(pb)) * Width(RectOf(pb))
    ensures TileCount(zoom, Some(pb)) == |AllTiles(RectOf(pb), z)|
  {
    var r := RectOf(pb);
    var lo, hi := Floor(DivideBy(pb.min, TileSize)), Floor(DivideBy(pb.max, TileSize));
    var w, h := Numerics.Trunc(hi.x + 1.0 - lo.x), Numerics.Trunc(hi.y + 1.0 - lo.y);
    assert TileCount(zoom, Some(pb)) == w * h;
    assert w == Width(r) by {
      FloorMonotone(pb.min.x / TileSize, pb.max.x / TileSize);
      IntegralSpan(lo.x, hi.x);
    }
    assert h == Height(r) by {
      FloorMonotone(pb.min.y / TileSize, pb.max.y / TileSize);
      IntegralSpan(lo.y, hi.y);
    }
    assert w * h == h * w;
    RowsLength(r.minY, r.maxY, r.minX, r.maxX, z);
  }

  // ---------------------------------------------------------------------
  // getTilesForExtent
  // ---------------------------------------------------------------------

  /** The centre of the extent in tile units: the sort's reference point. */
  function TileCentre(extent: Bounds): Point {
    DivideBy(Centre(extent), TileSize)
  }

  /** The envelope `init` recorded for a zoom level, if the grid has it. */
  function EnvelopeAt(c: Crs, zoom: int): (env: Option<Envelope>)
    ensures env.Some? <==> 0 <= zoom < |c.tileBounds|
  {
    if 0 <= zoom < |c.tileBounds| then Some(c.tileBounds[zoom]) else None
  }

  /** `getTilesForExtent(Bounds, zoom, start)`: the page of existing tiles
      the nested loops collect from the `start`-th tile of the extent's tile
      rectangle on, every row restarting at the offset's column, sorted
      nearest the extent's centre first. It fails on a positive offset at
      zoom -1, and on a zoom level the grid lacks once a tile is examined. */
  method GetTilesForExtent(c: Crs, extent: Bounds, zoom: int, start: int, pageSize: int)
    returns (r: Result<seq<Tile>, WalkError>)
    ensures r == Err(DivisionByZero) <==> start > 0 && zoom == -1
    ensures r == Err(NoEnvelope(zoom)) <==>
              !(start > 0 && zoom == -1) && EnvelopeAt(c, zoom).None? && pageSize > 0 &&
              ReadsEnvelope(Candidates(RectOf(extent), zoom, start))
    ensures r == Err(NoEnvelope(zoom)) ==> start < Height(RectOf(extent)) * Width(RectOf(extent))
    ensures r.Err? ==> r == Err(DivisionByZero) || r == Err(NoEnvelope(zoom))
    ensures r.Ok? ==> |r.value| <= if pageSize < 0 then 0 else pageSize
    ensures r.Ok? ==> forall t :: t in r.value ==>
              InRect(t, RectOf(extent)) && t.z == zoom && 0 <= zoom < |c.tileBounds| && Live(t, c.tileBounds[zoom])
    ensures r.Ok? ==> NoDuplicates(r.value)
    ensures r.Ok? ==> SortedBy(r.value, t => Key(TileCentre(extent), t))
    ensures r.Ok? && 0 <= zoom < |c.tileBounds| ==>
              multiset(r.value) == multiset(Page(Candidates(RectOf(extent), zoom, start), c.tileBounds[zoom], pageSize))
  {
    var rect := RectOf(extent);
    var width := TileWidth(zoom, Some(TileIndexBounds(extent)));
    if zoom != -1 {
      TileWidthIsRowLength(zoom, extent);
    }
    WalkEmpty(rect, zoom, start);
    r := SortedPageWalk(rect, width, zoom, start, EnvelopeAt(c, zoom), pageSize, TileCentre(extent));
  }

  /** `getTilesForExtent` with the offset walk corrected: the page of
      existing tiles from the `start`-th tile of the extent's rectangle on,
      every tile of the rectangle reached by exactly one offset. */
  method GetTilesForExtentCorrected(c: Crs, extent: Bounds, zoom: int, start: int, pageSize: int)
    returns (r: Result<seq<Tile>, WalkError>)
    ensures r == Err(DivisionByZero) <==> start > 0 && zoom == -1
    ensures r == Err(NoEnvelope(zoom)) <==>
              !(start > 0 && zoom == -1) && EnvelopeAt(c, zoom).None? && pageSize > 0 &&
              ReadsEnvelope(CorrectedCandidates(RectOf(extent), zoom, start))
    ensures r == Err(NoEnvelope(zoom)) ==> start < Height(RectOf(extent)) * Width(RectOf(extent))
    ensures r.Err? ==> r == Err(DivisionByZero) || r == Err(NoEnvelope(zoom))
    ensures r.Ok? ==> |r.value| <= if pageSize < 0 then 0 else pageSize
    ensures r.Ok? ==> forall t :: t in r.value ==>
              InRect(t, RectOf(extent)) && t.z == zoom && 0 <= zoom < |c.tileBounds| && Live(t, c.tileBounds[zoom])
    ensures r.Ok? ==> NoDuplicates(r.value)
    ensures r.Ok? ==> SortedBy(r.value, t => Key(TileCentre(extent), t))
    ensures r.Ok? && 0 <= zoom < |c.tileBounds| ==>
              multiset(r.value) == multiset(Page(CorrectedCandidates(RectOf(extent), zoom, start), c.tileBounds[zoom], pageSize))
  {
    var rect := RectOf(extent);
    var width := TileWidth(zoom, Some(TileIndexBounds(extent)));
    if zoom != -1 {
      TileWidthIsRowLength(zoom, extent);
    }
    CorrectedWalkEmpty(rect, zoom, start);
    r := SortedCorrectedPageWalk(rect, width, zoom, start, EnvelopeAt(c, zoom), pageSize, TileCentre(extent));
  }

  // ---------------------------------------------------------------------
  // The OSMTILE grid around Ottawa at zoom 15
  // ---------------------------------------------------------------------

  /** The OSMTILE envelopes at zoom 0 and 15: column bound 1 and 2^15, which
      the walk's column test excludes, and row bound 1 and 2^15, which its
      row test includes, so rows 0 and 1 pass at zoom 0. */
  lemma OsmtileEnvelopes()
    ensures Registry.WellFormed(Registry.Osmtile)
    ensures ZoomEnvelope(Registry.Osmtile, 0) == Envelope(1, 1)
    ensures ZoomEnvelope(Registry.Osmtile, 15) == Envelope(32768, 32768)
  {
    Registry.OsmtileWellFormed();
    var d := Registry.Osmtile;
    var span := Registry.WebMercatorHalfWorld + 20037508.342787;
    assert d.bounds.max.x - d.origin.x == span && d.origin.y - d.bounds.min.y == span;
    ZoomEnvelopeFromSpan(d, 0, 1);
    ZoomEnvelopeFromSpan(d, 15, 32768);
  }

  /** The envelope of a zoom level is fixed by where the far corner of the
      grid falls in tile units. */
  lemma ZoomEnvelopeFromSpan(d: Registry.CrsDefinition, zoom: nat, k: int)
    requires Registry.WellFormed(d) && zoom < |d.resolutions|
    requires d.bounds.max.x - d.origin.x == d.origin.y - d.bounds.min.y
    requires k as real * TileSize <= (d.bounds.max.x - d.origin.x) / d.resolutions[zoom] < (k as real + 1.0) * TileSize
    ensures ZoomEnvelope(d, zoom) == Envelope(k, k)
  {
    var s := Registry.Scale(d, zoom);
    var lo, hi := Transform(d.origin, d.bounds.min, s), Transform(d.origin, d.bounds.max, s);
    TransformOrientation(d.origin, d.bounds.min, d.bounds.max, s);
    var v := (d.bounds.max.x - d.origin.x) / d.resolutions[zoom];
    assert hi.x == v && lo.y == v by {
      assert s * d.resolutions[zoom] == 1.0;
    }
    var env := ZoomEnvelope(d, zoom);
    assert (env.maxX - k) as real * TileSize < TileSize && (k - env.maxX) as real * TileSize < TileSize;
    assert (env.maxY - k) as real * TileSize < TileSize && (k - env.maxY) as real * TileSize < TileSize;
  }

  /** The eight tiles an extent over Ottawa covers at zoom 15. */
  const OttawaTiles: TileRect := TileRect(9491, 11735, 9494, 11736)
  const Zoom15: Envelope := Envelope(32768, 32768)

  /** Paging over those eight tiles: five then three with a page of five,
      all eight with a page of a hundred. The walk as written agrees on the
      second page, because offset 5 lands in the last row. */
  lemma OttawaPaging()
    ensures |AllTiles(OttawaTiles, 15)| == 8
    ensures Page(CorrectedCandidates(OttawaTiles, 15, 0), Zoom15, 5) == AllTiles(OttawaTiles, 15)[..5]
    ensures Page(CorrectedCandidates(OttawaTiles, 15, 5), Zoom15, 5) == AllTiles(OttawaTiles, 15)[5..]
    ensures Page(CorrectedCandidates(OttawaTiles, 15, 0), Zoom15, 100) == AllTiles(OttawaTiles, 15)
    ensures Candidates(OttawaTiles, 15, 5) == CorrectedCandidates(OttawaTiles, 15, 5)
  {
    var r := OttawaTiles;
    RowsLength(r.minY, r.maxY, r.minX, r.maxX, 15);
    assert forall t :: InRect(t, r) ==> Live(t, Zoom15);
    CorrectedPageIsSlice(r, 15, 0, Zoom15, 5);
    CorrectedPageIsSlice(r, 15, 5, Zoom15, 5);
    CorrectedPageIsSlice(r, 15, 0, Zoom15, 100);
  }
}

=== FILE: tilegrid.dfy ===
/** The tile walk shared by `TiledCRS.getTilesForExtent` and
    `MapMLPrinter.getTilesInBbox`: visit the tile-index rectangle of an
    extent row by row, starting at a tile offset, keep the tiles that exist at
    the zoom level until a page is full, then order the page by distance from
    the centre of the extent. */
module TileGrid {
  import opened Outcomes
  import opened Geometry
  import Numerics

  /** A tile: column `x`, row `y` (downwards), zoom level `z`. */
  datatype Tile = Tile(x: int, y: int, z: int)

  /** The inclusive rectangle of tile indexes covered by an extent. */
  datatype TileRect = TileRect(minX: int, minY: int, maxX: int, maxY: int)

  /** The tiles that exist at a zoom level, as the walk tests them: rows 0 to
      `maxY` inclusive and columns 0 to `maxX` exclusive. */
  datatype Envelope = Envelope(maxX: int, maxY: int)

  predicate Live(t: Tile, env: Envelope) {
    0 <= t.y <= env.maxY && 0 <= t.x < env.maxX
  }

  predicate InRect(t: Tile, r: TileRect) {
    r.minX <= t.x <= r.maxX && r.minY <= t.y <= r.maxY
  }

  predicate NonEmpty(r: TileRect) {
    r.minX <= r.maxX && r.minY <= r.maxY
  }

  /** `tileWidth`: columns in the rectangle. */
  function Width(r: TileRect): int {
    r.maxX + 1 - r.minX
  }

  function Height(r: TileRect): int {
    r.maxY + 1 - r.minY
  }

  // ---------------------------------------------------------------------
  // The walk
  // ---------------------------------------------------------------------

  /** Row `y` from column `c0` to column `c1`, left to right. */
  function Row(y: int, c0: int, c1: int, z: int): (s: seq<Tile>)
    ensures |s| == if c0 <= c1 then c1 - c0 + 1 else 0
    ensures forall k :: 0 <= k < |s| ==> s[k] == Tile(c0 + k, y, z)
    decreases c1 - c0
  {
    if c1 < c0 then [] else Row(y, c0, c1 - 1, z) + [Tile(c1, y, z)]
  }

  /** Rows `r0` to `r1`, top to bottom, each walked from column `c0` to `c1`. */
  function Rows(r0: int, r1: int, c0: int, c1: int, z: int): (s: seq<Tile>)
    decreases r1 - r0
  {
    if r1 < r0 then [] else Rows(r0, r1 - 1, c0, c1, z) + Row(r1, c0, c1, z)
  }

  /** Every tile of the rectangle in row-major order. */
  function AllTiles(r: TileRect, z: int): seq<Tile> {
    Rows(r.minY, r.maxY, r.minX, r.maxX, z)
  }

  /** The first row visited: `minY + start / width` for a positive offset,
      the row that holds the `start`-th tile in row-major order. */
  function RowStart(r: TileRect, start: int): (y: int)
    requires start > 0 ==> Width(r) != 0
    ensures start <= 0 ==> y == r.minY
    ensures start > 0 && Width(r) > 0 ==>
              (y - r.minY) * Width(r) <= start < (y - r.minY + 1) * Width(r)
  {
    if start > 0 then
      var w := Width(r);
      assert start == Numerics.JavaDiv(start, w) * w + Numerics.JavaRem(start, w);
      r.minY + Numerics.JavaDiv(start, w)
    else r.minY
  }

  /** The first column visited in EVERY row: `minX + start % width` for a
      positive offset, the column of the `start`-th tile in row-major
      order. */
  function ColStart(r: TileRect, start: int): (x: int)
    requires start > 0 ==> Width(r) != 0
    ensures start <= 0 ==> x == r.minX
    ensures start > 0 && Width(r) > 0 ==>
              r.minX <= x <= r.maxX && x - r.minX == start - (RowStart(r, start) - r.minY) * Width(r)
  {
    if start > 0 then r.minX + Numerics.JavaRem(start, Width(r)) else r.minX
  }

  /** The tiles the nested loops visit, in order, as the loops are written:
      each row restarts at `ColStart`, not only the first, so a row below
      the first never shows its columns left of `ColStart`. */
  function Candidates(r: TileRect, z: int, start: int): seq<Tile>
    requires start > 0 ==> Width(r) != 0
  {
    Rows(RowStart(r, start), r.maxY, ColStart(r, start), r.maxX, z)
  }

  /** The walk the offset evidently intends: the first row from `ColStart`,
      every later row from `minX`. */
  function CorrectedCandidates(r: TileRect, z: int, start: int): seq<Tile>
    requires start > 0 ==> Width(r) != 0
  {
    var r0 := RowStart(r, start);
    if r0 > r.maxY then []
    else Row(r0, ColStart(r, start), r.maxX, z) + Rows(r0 + 1, r.maxY, r.minX, r.maxX, z)
  }

  // ---------------------------------------------------------------------
  // Facts about the walk
  // ---------------------------------------------------------------------

  /** The walk visits exactly the tiles of its rows and columns. */
  lemma {:induction false} RowsMembership(r0: int, r1: int, c0: int, c1: int, z: int, t: Tile)
    ensures t in Rows(r0, r1, c0, c1, z) <==> r0 <= t.y <= r1 && c0 <= t.x <= c1 && t.z == z
    decreases r1 - r0
  {
    if r1 >= r0 {
      RowsMembership(r0, r1 - 1, c0, c1, z, t);
      var row := Row(r1, c0, c1, z);
      if t.y == r1 && c0 <= t.x <= c1 && t.z == z {
        assert row[t.x - c0] == t;
      }
    }
  }

  /** The walk as written visits exactly the tiles from its first row down
      and from the offset's column right: left of that column it visits no
      row at all. */
  lemma CandidatesMembership(r: TileRect, z: int, start: int, t: Tile)
    requires start > 0 ==> Width(r) != 0
    ensures t in Candidates(r, z, start) <==>
              RowStart(r, start) <= t.y <= r.maxY && ColStart(r, start) <= t.x <= r.maxX && t.z == z
  {
    RowsMembership(RowStart(r, start), r.maxY, ColStart(r, start), r.maxX, z, t);
  }

  /** A walk over `h` rows of `w` columns visits `h * w` tiles. */
  lemma {:induction false} RowsLength(r0: int, r1: int, c0: int, c1: int, z: int)
    requires r0 <= r1 + 1 && c0 <= c1 + 1
    ensures |Rows(r0, r1, c0, c1, z)| == (r1 + 1 - r0) * (c1 + 1 - c0)
    decreases r1 - r0
  {
    if r1 >= r0 {
      RowsLength(r0, r1 - 1, c0, c1, z);
      assert (r1 + 1 - r0) * (c1 + 1 - c0) == (r1 - r0) * (c1 + 1 - c0) + (c1 + 1 - c0);
    }
  }

  /** A walk splits at any row boundary. */
  lemma {:induction false} RowsSplit(r0: int, m: int, r1: int, c0: int, c1: int, z: int)
    requires r0 <= m <= r1 + 1
    ensures Rows(r0, r1, c0, c1, z) == Rows(r0, m - 1, c0, c1, z) + Rows(m, r1, c0, c1, z)
    decreases r1 - r0
  {
    if r1 >= m {
      var head, tail, last := Rows(r0, m - 1, c0, c1, z), Rows(m, r1 - 1, c0, c1, z), Row(r1, c0, c1, z);
      assert Rows(r0, r1 - 1, c0, c1, z) == head + tail by {
        RowsSplit(r0, m, r1 - 1, c0, c1, z);
      }
      assert Rows(m, r1, c0, c1, z) == tail + last;
      assert Rows(r0, r1, c0, c1, z) == (head + tail) + last;
      assert (head + tail) + last == head + (tail + last);
    }
  }

  /** Dropping the first `m` tiles of a row starts it `m` columns later. */
  lemma RowSuffix(y: int, c0: int, c1: int, z: int, m: int)
    requires 0 <= m <= c1 + 1 - c0
    ensures Row(y, c0, c1, z)[m..] == Row(y, c0 + m, c1, z)
  {
  }

  /** Offset `start` lies in row `start / w` of the rectangle, at column
      `start % w`. */
  lemma OffsetPosition(start: int, w: int, h: int)
    requires w > 0 && h > 0 && 0 <= start < h * w
    ensures 0 <= start / w < h && 0 <= start % w < w
    ensures start == (start / w) * w + start % w
  {
    var q := start / w;
    assert (h - q) * w == h * w - q * w;
    PositiveFactor(h - q, w);
  }

  lemma PositiveFactor(a: int, w: int)
    requires w > 0 && a * w > 0
    ensures a > 0
  {
  }

  /** The walk over whole rows, cut around row `y`. */
  lemma {:induction false} AllTilesAround(r: TileRect, z: int, y: int)
    requires NonEmpty(r) && r.minY <= y <= r.maxY
    ensures |Rows(r.minY, y - 1, r.minX, r.maxX, z)| == (y - r.minY) * Width(r)
    ensures AllTiles(r, z)
         == Rows(r.minY, y - 1, r.minX, r.maxX, z) + Row(y, r.minX, r.maxX, z) + Rows(y + 1, r.maxY, r.minX, r.maxX, z)
  {
    RowsSplit(r.minY, y, r.maxY, r.minX, r.maxX, z);
    RowsSplit(y, y + 1, r.maxY, r.minX, r.maxX, z);
    RowsLength(r.minY, y - 1, r.minX, r.maxX, z);
    assert Rows(y, y, r.minX, r.maxX, z) == Rows(y, y - 1, r.minX, r.maxX, z) + Row(y, r.minX, r.maxX, z);
  }

  /** Cutting `before + row + after` inside `row`. */
  lemma CutInside(before: seq<Tile>, row: seq<Tile>, after: seq<Tile>, m: int)
    requires 0 <= m <= |row|
    ensures (before + row + after)[|before| + m..] == row[m..] + after
  {
  }

  /** The whole-rectangle walk with the rows above `y` and the first `m`
      columns of row `y` dropped. */
  lemma AllTilesFrom(r: TileRect, z: int, y: int, m: int)
    requires NonEmpty(r) && r.minY <= y <= r.maxY && 0 <= m < Width(r)
    ensures |Rows(r.minY, y - 1, r.minX, r.maxX, z)| + m <= |AllTiles(r, z)|
    ensures AllTiles(r, z)[|Rows(r.minY, y - 1, r.minX, r.maxX, z)| + m..]
         == Row(y, r.minX + m, r.maxX, z) + Rows(y + 1, r.maxY, r.minX, r.maxX, z)
  {
    var before, row, after := Rows(r.minY, y - 1, r.minX, r.maxX, z), Row(y, r.minX, r.maxX, z),
                              Rows(y + 1, r.maxY, r.minX, r.maxX, z);
    assert AllTiles(r, z) == before + row + after by {
      AllTilesAround(r, z, y);
    }
    assert |row| == Width(r);
    assert (before + row + after)[|before| + m..] == row[m..] + after by {
      CutInside(before, row, after, m);
    }
    assert row[m..] == Row(y, r.minX + m, r.maxX, z) by {
      RowSuffix(y, r.minX, r.maxX, z, m);
    }
  }

  /** The corrected walk from offset `start` visits exactly the tiles of the
      rectangle from the `start`-th on, so consecutive offsets never skip or
      repeat a tile. */
  lemma CorrectedWalkIsSuffix(r: TileRect, z: int, start: int)
    requires NonEmpty(r) && 0 <= start < Height(r) * Width(r)
    ensures |AllTiles(r, z)| == Height(r) * Width(r)
    ensures CorrectedCandidates(r, z, start) == AllTiles(r, z)[start..]
  {
    var w, h := Width(r), Height(r);
    assert |AllTiles(r, z)| == h * w by {
      RowsLength(r.minY, r.maxY, r.minX, r.maxX, z);
    }
    var q, m := start / w, start % w;
    assert 0 <= q < h && 0 <= m < w && start == q * w + m by {
      OffsetPosition(start, w, h);
    }
    assert RowStart(r, start) == r.minY + q && ColStart(r, start) == r.minX + m by {
      Numerics.JavaDivRemNonNegative(start, w);
    }
    var y := r.minY + q;
    var tail := Row(y, r.minX + m, r.maxX, z) + Rows(y + 1, r.maxY, r.minX, r.maxX, z);
    assert CorrectedCandidates(r, z, start) == tail;
    assert AllTiles(r, z)[start..] == tail by {
      assert |Rows(r.minY, y - 1, r.minX, r.maxX, z)| == q * w by {
        AllTilesAround(r, z, y);
      }
      AllTilesFrom(r, z, y, m);
    }
  }

  // ---------------------------------------------------------------------
  // Paging
  // ---------------------------------------------------------------------

  /** The tiles of `s` that exist at the zoom level, in walk order. */
  function Filter(s: seq<Tile>, env: Envelope): (r: seq<Tile>)
    ensures |r| <= |s|
    ensures forall k :: 0 <= k < |r| ==> Live(r[k], env)
    ensures forall t {:trigger t in r} :: t in r <==> t in s && Live(t, env)
    decreases |s|
  {
    if |s| == 0 then []
    else
      var last := s[|s| - 1];
      Filter(s[..|s| - 1], env) + (if Live(last, env) then [last] else [])
  }

  /** The first `n` elements, all of them when there are fewer; none when `n`
      is not positive. */
  function Take(s: seq<Tile>, n: int): (r: seq<Tile>)
    ensures |r| == if n <= 0 then 0 else if n < |s| then n else |s|
    ensures r == s[..|r|]
  {
    if n <= 0 then [] else if n < |s| then s[..n] else s
  }

  /** What the loops collect from a walk: at most `pageSize` live tiles,
      the first ones met. */
  function Page(s: seq<Tile>, env: Envelope, pageSize: int): seq<Tile> {
    Take(Filter(s, env), pageSize)
  }

  lemma {:induction false} FilterAppend(a: seq<Tile>, b: seq<Tile>, env: Envelope)
    ensures Filter(a + b, env) == Filter(a, env) + Filter(b, env)
    decreases |b|
  {
    if |b| == 0 {
      assert a + b == a;
    } else {
      var b0 := b[..|b| - 1];
      assert (a + b)[..|a + b| - 1] == a + b0;
      FilterAppend(a, b0, env);
    }
  }

  /** When every tile of the walk exists, filtering keeps them all. */
  lemma {:induction false} FilterAllLive(s: seq<Tile>, env: Envelope)
    requires forall k :: 0 <= k < |s| ==> Live(s[k], env)
    ensures Filter(s, env) == s
    decreases |s|
  {
    if |s| > 0 {
      FilterAllLive(s[..|s| - 1], env);
    }
  }

  /** While a page has room, the next tile of the walk joins it exactly when
      it exists. */
  lemma PageStep(seen: seq<Tile>, t: Tile, env: Envelope, pageSize: int)
    requires |Page(seen, env, pageSize)| < pageSize
    ensures Page(seen + [t], env, pageSize)
         == Page(seen, env, pageSize) + (if Live(t, env) then [t] else [])
  {
    FilterAppend(seen, [t], env);
    assert Filter([t], env) == Filter([], env) + (if Live(t, env) then [t] else []);
  }

  /** Once a page is full, the rest of the row changes nothing. */
  lemma PageFull(seen: seq<Tile>, rest: seq<Tile>, env: Envelope, pageSize: int)
    requires |Page(seen, env, pageSize)| >= pageSize
    ensures Page(seen + rest, env, pageSize) == Page(seen, env, pageSize)
  {
    FilterAppend(seen, rest, env);
  }

  /** A row walked up to column `j - 1`, then the remaining columns. */
  lemma RowCut(y: int, c0: int, j: int, c1: int, z: int)
    requires c0 <= j <= c1 + 1
    ensures Row(y, c0, c1, z) == Row(y, c0, j - 1, z) + Row(y, j, c1, z)
  {
    RowSuffix(y, c0, c1, z, j - c0);
  }

  /** The nested loops of `getTilesForExtent` and `getTilesInBbox`: rows from
      `RowStart`, each row's columns from `ColStart`, a tile kept when it
      exists at the zoom level, and the inner loop left once `pageSize` tiles
      are held. The result is the page of the walk. */
  method CollectPage(r: TileRect, z: int, start: int, env: Envelope, pageSize: int) returns (tiles: seq<Tile>)
    requires start > 0 ==> Width(r) != 0
    ensures tiles == Page(Candidates(r, z, start), env, pageSize)
  {
    var r0, c0 := RowStart(r, start), ColStart(r, start);
    tiles := [];
    var i := r0;
    while i <= r.maxY
      invariant r0 <= i && (i <= r.maxY + 1 || i == r0)
      invariant tiles == Page(Rows(r0, i - 1, c0, r.maxX, z), env, pageSize)
      decreases r.maxY - i
    {
      tiles := CollectRow(tiles, Rows(r0, i - 1, c0, r.maxX, z), i, c0, r.maxX, z, env, pageSize);
      i := i + 1;
    }
  }

  /** The inner loop: row `i` from column `c0` to `c1`, adding each existing
      tile while the page has room and leaving the row once it is full. */
  method CollectRow(tiles0: seq<Tile>, ghost done: seq<Tile>, i: int, c0: int, c1: int, z: int, env: Envelope, pageSize: int)
    returns (tiles: seq<Tile>)
    requires tiles0 == Page(done, env, pageSize)
    ensures tiles == Page(done + Row(i, c0, c1, z), env, pageSize)
  {
    tiles := tiles0;
    var j := c0;
    NothingWalked(done, i, c0, z);
    while j <= c1
      invariant c0 <= j && (j <= c1 + 1 || j == c0)
      invariant tiles == Page(done + Row(i, c0, j - 1, z), env, pageSize)
      decreases c1 - j
    {
      if |tiles| < pageSize {
        RowStep(done, i, c0, j, z, env, pageSize);
        if i >= 0 && i <= env.maxY && j >= 0 && j < env.maxX {
          tiles := tiles + [Tile(j, i, z)];
        }
      } else {
        break;
      }
      j := j + 1;
    }
    RowRest(done, i, c0, j, c1, z, env, pageSize);
  }

  lemma NothingWalked(done: seq<Tile>, i: int, c0: int, z: int)
    ensures done + Row(i, c0, c0 - 1, z) == done
  {
    assert Row(i, c0, c0 - 1, z) == [];
  }

  /** One column of the inner loop while the page has room. */
  lemma RowStep(done: seq<Tile>, i: int, c0: int, j: int, z: int, env: Envelope, pageSize: int)
    requires c0 <= j && |Page(done + Row(i, c0, j - 1, z), env, pageSize)| < pageSize
    ensures Page(done + Row(i, c0, j, z), env, pageSize)
         == Page(done + Row(i, c0, j - 1, z), env, pageSize) + (if Live(Tile(j, i, z), env) then [Tile(j, i, z)] else [])
  {
    var seen := done + Row(i, c0, j - 1, z);
    assert seen + [Tile(j, i, z)] == done + Row(i, c0, j, z) by {
      assert Row(i, c0, j, z) == Row(i, c0, j - 1, z) + [Tile(j, i, z)];
    }
    PageStep(seen, Tile(j, i, z), env, pageSize);
  }

  /** Leaving the inner loop at column `j`: either the row is done, or the
      page is full and the rest of the row changes nothing. */
  lemma RowRest(done: seq<Tile>, i: int, c0: int, j: int, c1: int, z: int, env: Envelope, pageSize: int)
    requires c0 <= j && (j <= c1 + 1 || j == c0)
    requires j <= c1 ==> |Page(done + Row(i, c0, j - 1, z), env, pageSize)| >= pageSize
    ensures j > c1 ==> Row(i, c0, j - 1, z) == Row(i, c0, c1, z)
    ensures Page(done + Row(i, c0, c1, z), env, pageSize) == Page(done + Row(i, c0, j - 1, z), env, pageSize)
  {
    if j <= c1 {
      RowCut(i, c0, j, c1, z);
      assert done + Row(i, c0, c1, z) == done + Row(i, c0, j - 1, z) + Row(i, j, c1, z);
      PageFull(done + Row(i, c0, j - 1, z), Row(i, j, c1, z), env, pageSize);
    }
  }

  /** The loops with the evident intent: the first row from `ColStart`,
      every later row from `minX`. */
  method CollectCorrectedPage(r: TileRect, z: int, start: int, env: Envelope, pageSize: int) returns (tiles: seq<Tile>)
    requires start > 0 ==> Width(r) != 0
    ensures tiles == Page(CorrectedCandidates(r, z, start), env, pageSize)
  {
    var r0, c0 := RowStart(r, start), ColStart(r, start);
    tiles := [];
    var i := r0;
    while i <= r.maxY
      invariant r0 <= i && (i <= r.maxY + 1 || i == r0)
      invariant tiles == Page(CorrectedPrefix(r, z, r0, c0, i), env, pageSize)
      decreases r.maxY - i
    {
      var first := if i == r0 then c0 else r.minX;
      tiles := CollectRow(tiles, CorrectedPrefix(r, z, r0, c0, i), i, first, r.maxX, z, env, pageSize);
      CorrectedPrefixStep(r, z, r0, c0, i);
      i := i + 1;
    }
    CorrectedPrefixComplete(r, z, start, i);
  }

  /** Once the loops have passed the last row, their prefix is the whole
      corrected walk. */
  lemma CorrectedPrefixComplete(r: TileRect, z: int, start: int, i: int)
    requires start > 0 ==> Width(r) != 0
    requires RowStart(r, start) <= i && (i == r.maxY + 1 || i == RowStart(r, start)) && i > r.maxY
    ensures CorrectedPrefix(r, z, RowStart(r, start), ColStart(r, start), i) == CorrectedCandidates(r, z, start)
  {
  }

  /** The tiles the corrected loops have visited before row `i`. */
  ghost function CorrectedPrefix(r: TileRect, z: int, r0: int, c0: int, i: int): seq<Tile> {
    if i <= r0 then [] else Row(r0, c0, r.maxX, z) + Rows(r0 + 1, i - 1, r.minX, r.maxX, z)
  }

  /** The corrected loops extend their prefix by one row per iteration. */
  lemma CorrectedPrefixStep(r: TileRect, z: int, r0: int, c0: int, i: int)
    requires r0 <= i
    ensures CorrectedPrefix(r, z, r0, c0, i + 1)
         == CorrectedPrefix(r, z, r0, c0, i) + Row(i, if i == r0 then c0 else r.minX, r.maxX, z)
  {
    var first := Row(r0, c0, r.maxX, z);
    if i > r0 {
      var middle, last := Rows(r0 + 1, i - 1, r.minX, r.maxX, z), Row(i, r.minX, r.maxX, z);
      assert Rows(r0 + 1, i, r.minX, r.maxX, z) == middle + last;
      assert first + (middle + last) == (first + middle) + last;
    } else {
      assert Rows(r0 + 1, i, r.minX, r.maxX, z) == [];
      assert first + [] == [] + first;
    }
  }

  /** When every tile of the rectangle exists, the corrected page at offset
      `start` is the `pageSize` tiles of the rectangle from the `start`-th
      on. */
  lemma CorrectedPageIsSlice(r: TileRect, z: int, start: int, env: Envelope, pageSize: int)
    requires NonEmpty(r) && 0 <= start < |AllTiles(r, z)| && pageSize > 0
    requires forall t :: InRect(t, r) ==> Live(t, env)
    ensures Page(CorrectedCandidates(r, z, start), env, pageSize)
         == AllTiles(r, z)[start..Min(start + pageSize, |AllTiles(r, z)|)]
  {
    var all := AllTiles(r, z);
    assert CorrectedCandidates(r, z, start) == all[start..] by {
      RowsLength(r.minY, r.maxY, r.minX, r.maxX, z);
      CorrectedWalkIsSuffix(r, z, start);
    }
    var rest := all[start..];
    assert forall k :: 0 <= k < |rest| ==> Live(rest[k], env) by {
      AllTilesLive(r, z, env);
      forall k | 0 <= k < |rest|
        ensures Live(rest[k], env)
      {
        assert rest[k] == all[start + k];
      }
    }
    FilterAllLive(rest, env);
    TakeOfSuffix(all, start, pageSize);
  }

  lemma SlicesJoin(s: seq<Tile>, a: int, b: int, c: int)
    requires 0 <= a <= b <= c <= |s|
    ensures s[a..b] + s[b..c] == s[a..c]
  {
  }

  lemma TakeOfSuffix(s: seq<Tile>, start: int, n: int)
    requires 0 <= start <= |s| && n > 0
    ensures Take(s[start..], n) == s[start..Min(start + n, |s|)]
  {
  }

  function Min(a: int, b: int): int {
    if a <= b then a else b
  }

  /** Every tile of an all-live rectangle passes the filter. */
  lemma AllTilesLive(r: TileRect, z: int, env: Envelope)
    requires forall t :: InRect(t, r) ==> Live(t, env)
    ensures forall k :: 0 <= k < |AllTiles(r, z)| ==> Live(AllTiles(r, z)[k], env)
  {
    var all := AllTiles(r, z);
    forall k | 0 <= k < |all|
      ensures Live(all[k], env)
    {
      RowsMembership(r.minY, r.maxY, r.minX, r.maxX, z, all[k]);
    }
  }

  /** Two consecutive corrected pages join with neither gap nor overlap. */
  lemma CorrectedPagesJoin(r: TileRect, z: int, start: int, env: Envelope, pageSize: int)
    requires NonEmpty(r) && 0 <= start && start + pageSize < |AllTiles(r, z)| && pageSize > 0
    requires forall t :: InRect(t, r) ==> Live(t, env)
    ensures Page(CorrectedCandidates(r, z, start), env, pageSize)
          + Page(CorrectedCandidates(r, z, start + pageSize), env, pageSize)
         == AllTiles(r, z)[start..Min(start + 2 * pageSize, |AllTiles(r, z)|)]
  {
    CorrectedPageIsSlice(r, z, start, env, pageSize);
    CorrectedPageIsSlice(r, z, start + pageSize, env, pageSize);
    NextPageJoins(AllTiles(r, z), Page(CorrectedCandidates(r, z, start), env, pageSize),
                  Page(CorrectedCandidates(r, z, start + pageSize), env, pageSize), start, pageSize);
  }

  /** A page at `a` and the page right after it, both slices of `all`, make
      up the slice of two pages' length. */
  lemma NextPageJoins(all: seq<Tile>, p: seq<Tile>, q: seq<Tile>, a: int, pageSize: int)
    requires 0 <= a && pageSize > 0 && a + pageSize < |all|
    requires p == all[a..Min(a + pageSize, |all|)]
    requires q == all[a + pageSize..Min(a + pageSize + pageSize, |all|)]
    ensures p + q == all[a..Min(a + 2 * pageSize, |all|)]
  {
    SlicesJoin(all, a, a + pageSize, Min(a + 2 * pageSize, |all|));
  }

  /** The loops as written agree with the corrected walk whenever the offset
      falls on the first column, so the defect needs an offset that is not a
      multiple of the width and more than one row after it. */
  lemma AlignedOffsetUnaffected(r: TileRect, z: int, start: int)
    requires start > 0 ==> Width(r) != 0
    requires ColStart(r, start) == r.minX
    ensures Candidates(r, z, start) == CorrectedCandidates(r, z, start)
  {
    var r0 := RowStart(r, start);
    if r0 <= r.maxY {
      RowsSplit(r0, r0 + 1, r.maxY, r.minX, r.maxX, z);
      assert Rows(r0, r0, r.minX, r.maxX, z) == Rows(r0, r0 - 1, r.minX, r.maxX, z) + Row(r0, r.minX, r.maxX, z);
    }
  }

  /** A 3 x 3 rectangle of tiles that all exist. */
  const Square3: TileRect := TileRect(0, 0, 2, 2)
  const Square3Envelope: Envelope := Envelope(3, 2)

  /** The three pages the `next` links ask for when a 3 x 3 rectangle is
      served 4 tiles at a time: offsets 0, 4 and 8. */
  function ServedAsWritten(): seq<Tile> {
    Page(Candidates(Square3, 0, 0), Square3Envelope, 4)
    + Page(Candidates(Square3, 0, 4), Square3Envelope, 4)
    + Page(Candidates(Square3, 0, 8), Square3Envelope, 4)
  }

  function ServedCorrected(): seq<Tile> {
    Page(CorrectedCandidates(Square3, 0, 0), Square3Envelope, 4)
    + Page(CorrectedCandidates(Square3, 0, 4), Square3Envelope, 4)
    + Page(CorrectedCandidates(Square3, 0, 8), Square3Envelope, 4)
  }

  /** The first page: the top row and the start of the second. */
  lemma AsWrittenFirstPage()
    ensures Page(Candidates(Square3, 0, 0), Square3Envelope, 4)
         == [Tile(0, 0, 0), Tile(1, 0, 0), Tile(2, 0, 0), Tile(0, 1, 0)]
  {
    var c := Candidates(Square3, 0, 0);
    assert Rows(0, 0, 0, 2, 0) == Row(0, 0, 2, 0);
    assert Rows(0, 1, 0, 2, 0) == Row(0, 0, 2, 0) + Row(1, 0, 2, 0);
    RowsSplit(0, 2, 2, 0, 2, 0);
    assert c[..4] == [Tile(0, 0, 0), Tile(1, 0, 0), Tile(2, 0, 0), Tile(0, 1, 0)];
    AllTilesLive(Square3, 0, Square3Envelope);
    FilterAllLive(c, Square3Envelope);
  }

  /** Offset 4 starts at row 1, column 1, and every row restarts there. */
  lemma AsWrittenSecondPage()
    ensures Page(Candidates(Square3, 0, 4), Square3Envelope, 4)
         == [Tile(1, 1, 0), Tile(2, 1, 0), Tile(1, 2, 0), Tile(2, 2, 0)]
  {
    var c := Candidates(Square3, 0, 4);
    assert Rows(1, 1, 1, 2, 0) == Row(1, 1, 2, 0);
    assert c == Row(1, 1, 2, 0) + Row(2, 1, 2, 0);
    assert c == [Tile(1, 1, 0), Tile(2, 1, 0), Tile(1, 2, 0), Tile(2, 2, 0)];
    FilterAllLive(c, Square3Envelope);
  }

  /** Offset 8 starts at row 2, column 2. */
  lemma AsWrittenThirdPage()
    ensures Page(Candidates(Square3, 0, 8), Square3Envelope, 4) == [Tile(2, 2, 0)]
  {
    var c := Candidates(Square3, 0, 8);
    assert c == Row(2, 2, 2, 0);
    FilterAllLive(c, Square3Envelope);
  }

  /** The loops as written never return tile (0, 2) of the 3 x 3 rectangle
      and return tile (2, 2) twice. */
  lemma AsWrittenPagingSkipsAndRepeats()
    ensures Tile(0, 2, 0) in AllTiles(Square3, 0)
    ensures Tile(0, 2, 0) !in ServedAsWritten()
    ensures multiset(ServedAsWritten())[Tile(2, 2, 0)] == 2
  {
    RowsMembership(0, 2, 0, 2, 0, Tile(0, 2, 0));
    AsWrittenFirstPage();
    AsWrittenSecondPage();
    AsWrittenThirdPage();
    ServedTiles(Page(Candidates(Square3, 0, 0), Square3Envelope, 4),
                Page(Candidates(Square3, 0, 4), Square3Envelope, 4),
                Page(Candidates(Square3, 0, 8), Square3Envelope, 4));
  }

  lemma ServedTiles(a: seq<Tile>, b: seq<Tile>, c: seq<Tile>)
    requires a == [Tile(0, 0, 0), Tile(1, 0, 0), Tile(2, 0, 0), Tile(0, 1, 0)]
    requires b == [Tile(1, 1, 0), Tile(2, 1, 0), Tile(1, 2, 0), Tile(2, 2, 0)]
    requires c == [Tile(2, 2, 0)]
    ensures Tile(0, 2, 0) !in a + b + c
    ensures multiset(a + b + c)[Tile(2, 2, 0)] == 2
  {
    var t := Tile(2, 2, 0);
    assert multiset(a + b + c) == multiset(a) + multiset(b) + multiset(c);
    assert t !in a;
    assert multiset(b) == multiset(b[..3]) + multiset{t} by {
      assert b == b[..3] + [t];
    }
    assert t !in b[..3];
  }

  /** The corrected walk serves each of the nine tiles exactly once. */
  lemma CorrectedPagingCoversOnce()
    ensures ServedCorrected() == AllTiles(Square3, 0)
  {
    var r, env := Square3, Square3Envelope;
    RowsLength(0, 2, 0, 2, 0);
    var all := AllTiles(r, 0);
    assert |all| == 9;
    CorrectedPagesJoin(r, 0, 0, env, 4);
    CorrectedPageIsSlice(r, 0, 8, env, 4);
    assert all[0..8] + all[8..9] == all;
  }

  // ---------------------------------------------------------------------
  // Order and distinctness
  // ---------------------------------------------------------------------

  /** Row-major order: the order in which the walk meets tiles. */
  predicate Before(a: Tile, b: Tile) {
    a.y < b.y || (a.y == b.y && a.x < b.x)
  }

  predicate Increasing(s: seq<Tile>) {
    forall i, j :: 0 <= i < j < |s| ==> Before(s[i], s[j])
  }

  /** Each tile occurs at most once. */
  ghost predicate NoDuplicates(s: seq<Tile>) {
    forall t :: multiset(s)[t] <= 1
  }

  lemma {:induction false} RowsIncreasing(r0: int, r1: int, c0: int, c1: int, z: int)
    ensures Increasing(Rows(r0, r1, c0, c1, z))
    decreases r1 - r0
  {
    if r1 >= r0 {
      var front := Rows(r0, r1 - 1, c0, c1, z);
      var row := Row(r1, c0, c1, z);
      RowsIncreasing(r0, r1 - 1, c0, c1, z);
      forall k | 0 <= k < |front|
        ensures front[k].y < r1
      {
        RowsMembership(r0, r1 - 1, c0, c1, z, front[k]);
      }
    }
  }

  lemma {:induction false} FilterIncreasing(s: seq<Tile>, env: Envelope)
    requires Increasing(s)
    ensures Increasing(Filter(s, env))
    decreases |s|
  {
    if |s| > 0 {
      var front := s[..|s| - 1];
      FilterIncreasing(front, env);
      var f := Filter(front, env);
      forall k | 0 <= k < |f|
        ensures Before(f[k], s[|s| - 1])
      {
        assert f[k] in f;
      }
    }
  }

  /** A row-major increasing sequence repeats nothing. */
  lemma {:induction false} IncreasingHasNoDuplicates(s: seq<Tile>)
    requires Increasing(s)
    ensures NoDuplicates(s)
    decreases |s|
  {
    if |s| > 0 {
      var front, last := s[..|s| - 1], s[|s| - 1];
      IncreasingHasNoDuplicates(front);
      assert s == front + [last];
      forall k | 0 <= k < |front|
        ensures front[k] != last
      {
        assert Before(s[k], s[|s| - 1]);
      }
      assert last !in front;
    }
  }

  /** The page of any walk lists each tile once. */
  lemma PageHasNoDuplicates(r: TileRect, z: int, start: int, env: Envelope, pageSize: int)
    requires start > 0 ==> Width(r) != 0
    ensures NoDuplicates(Page(Candidates(r, z, start), env, pageSize))
  {
    var s := Candidates(r, z, start);
    RowsIncreasing(RowStart(r, start), r.maxY, ColStart(r, start), r.maxX, z);
    FilterIncreasing(s, env);
    var p := Page(s, env, pageSize);
    assert Increasing(p);
    IncreasingHasNoDuplicates(p);
  }

  /** Every tile of a page exists, lies in the rectangle and has the zoom of
      the request; a page never holds more than `pageSize` tiles. */
  lemma PageBounds(r: TileRect, z: int, start: int, env: Envelope, pageSize: int)
    requires start > 0 ==> Width(r) != 0
    ensures |Page(Candidates(r, z, start), env, pageSize)| <= if pageSize < 0 then 0 else pageSize
    ensures forall t :: t in Page(Candidates(r, z, start), env, pageSize) ==>
              Live(t, env) && InRect(t, r) && t.z == z
  {
    var s := Candidates(r, z, start);
    var p := Page(s, env, pageSize);
    forall t | t in p
      ensures Live(t, env) && InRect(t, r) && t.z == z
    {
      assert t in Filter(s, env);
      RowsMembership(RowStart(r, start), r.maxY, ColStart(r, start), r.maxX, z, t);
      if start > 0 {
        var w := Width(r);
        assert Numerics.JavaDiv(start, w) >= 0 && Numerics.JavaRem(start, w) >= 0;
      }
    }
  }

  /** The corrected walk also stays inside the rectangle and meets tiles in
      row-major order. */
  lemma CorrectedWalkShape(r: TileRect, z: int, start: int)
    requires start > 0 ==> Width(r) != 0
    ensures Increasing(CorrectedCandidates(r, z, start))
    ensures forall t :: t in CorrectedCandidates(r, z, start) ==> InRect(t, r) && t.z == z
  {
    CorrectedWalkOrdered(r, z, start);
    CorrectedWalkInside(r, z, start);
  }

  lemma CorrectedWalkOrdered(r: TileRect, z: int, start: int)
    requires start > 0 ==> Width(r) != 0
    ensures Increasing(CorrectedCandidates(r, z, start))
  {
    var r0, c0 := RowStart(r, start), ColStart(r, start);
    if r0 <= r.maxY {
      var first, rest := Row(r0, c0, r.maxX, z), Rows(r0 + 1, r.maxY, r.minX, r.maxX, z);
      RowsIncreasing(r0 + 1, r.maxY, r.minX, r.maxX, z);
      forall k | 0 <= k < |rest|
        ensures rest[k].y > r0
      {
        RowsMembership(r0 + 1, r.maxY, r.minX, r.maxX, z, rest[k]);
      }
      assert Increasing(first + rest);
    }
  }

  lemma CorrectedWalkInside(r: TileRect, z: int, start: int)
    requires start > 0 ==> Width(r) != 0
    ensures forall t :: t in CorrectedCandidates(r, z, start) ==> InRect(t, r) && t.z == z
  {
    var r0, c0 := RowStart(r, start), ColStart(r, start);
    assert r.minX <= c0 && (Width(r) > 0 ==> r.minY <= r0) by {
      if start > 0 {
        var w := Width(r);
        assert Numerics.JavaRem(start, w) >= 0;
        assert w > 0 ==> Numerics.JavaDiv(start, w) >= 0;
      }
    }
    if r0 <= r.maxY {
      var first, rest := Row(r0, c0, r.maxX, z), Rows(r0 + 1, r.maxY, r.minX, r.maxX, z);
      forall t | t in first + rest
        ensures InRect(t, r) && t.z == z
      {
        RowsMembership(r0 + 1, r.maxY, r.minX, r.maxX, z, t);
        if t in first {
          var k :| 0 <= k < |first| && first[k] == t;
        }
      }
    }
  }

  /** The corrected page keeps the guarantees of the page as written. */
  lemma CorrectedPageBounds(r: TileRect, z: int, start: int, env: Envelope, pageSize: int)
    requires start > 0 ==> Width(r) != 0
    ensures |Page(CorrectedCandidates(r, z, start), env, pageSize)| <= if pageSize < 0 then 0 else pageSize
    ensures forall t :: t in Page(CorrectedCandidates(r, z, start), env, pageSize) ==>
              Live(t, env) && InRect(t, r) && t.z == z
  {
    var s := CorrectedCandidates(r, z, start);
    CorrectedWalkShape(r, z, start);
    var p := Page(s, env, pageSize);
    forall t | t in p
      ensures Live(t, env) && InRect(t, r) && t.z == z
    {
      assert t in Filter(s, env);
    }
  }

  lemma CorrectedPageHasNoDuplicates(r: TileRect, z: int, start: int, env: Envelope, pageSize: int)
    requires start > 0 ==> Width(r) != 0
    ensures NoDuplicates(Page(CorrectedCandidates(r, z, start), env, pageSize))
  {
    var s := CorrectedCandidates(r, z, start);
    CorrectedWalkShape(r, z, start);
    FilterIncreasing(s, env);
    var p := Page(s, env, pageSize);
    assert Increasing(p);
    IncreasingHasNoDuplicates(p);
  }

  /** At offset 0, when every tile of the rectangle exists and a page has room
      for them all, the page is the whole rectangle. */
  lemma FirstPageComplete(r: TileRect, z: int, env: Envelope, pageSize: int)
    requires NonEmpty(r)
    requires forall t :: InRect(t, r) ==> Live(t, env)
    requires Height(r) * Width(r) <= pageSize
    ensures Page(Candidates(r, z, 0), env, pageSize) == AllTiles(r, z)
  {
    var all := AllTiles(r, z);
    assert Candidates(r, z, 0) == all;
    assert Filter(all, env) == all by {
      AllTilesLive(r, z, env);
      FilterAllLive(all, env);
    }
    assert |all| <= pageSize by {
      RowsLength(r.minY, r.maxY, r.minX, r.maxX, z);
    }
  }

  // ---------------------------------------------------------------------
  // Sorting by distance
  // ---------------------------------------------------------------------

  /** `TileComparator`: the (squared) distance from the centre of the extent
      to the centre of the tile. */
  function Key(centre: Point, t: Tile): real {
    DistanceSq(centre, Point(t.x as real + 0.5, t.y as real + 0.5))
  }

  predicate SortedBy(s: seq<Tile>, key: Tile -> real) {
    forall i, j :: 0 <= i < j < |s| ==> key(s[i]) <= key(s[j])
  }

  /** Puts `t` after every element of the sorted `s` whose key is not
      greater, so equal keys keep their order. */
  function Insert(t: Tile, s: seq<Tile>, key: Tile -> real): (r: seq<Tile>)
    requires SortedBy(s, key)
    ensures SortedBy(r, key)
    ensures multiset(r) == multiset(s) + multiset{t}
    decreases |s|
  {
    if |s| == 0 then [t]
    else
      var front, last := s[..|s| - 1], s[|s| - 1];
      if key(last) <= key(t) then s + [t]
      else
        assert s == front + [last];
        var r' := Insert(t, front, key);
        assert forall k :: 0 <= k < |r'| ==> key(r'[k]) <= key(last) by {
          forall k | 0 <= k < |r'|
            ensures key(r'[k]) <= key(last)
          {
            assert r'[k] in multiset(r');
            if r'[k] != t {
              assert r'[k] in front;
            }
          }
        }
        r' + [last]
  }

  /** `Collections.sort` with the comparator: a stable insertion sort. */
  function SortBy(s: seq<Tile>, key: Tile -> real): (r: seq<Tile>)
    ensures SortedBy(r, key)
    ensures multiset(r) == multiset(s)
    decreases |s|
  {
    if |s| == 0 then []
    else
      assert s == s[..|s| - 1] + [s[|s| - 1]];
      Insert(s[|s| - 1], SortBy(s[..|s| - 1], key), key)
  }

  /** Sorting keeps the tiles and so their distinctness. */
  lemma SortKeepsTiles(s: seq<Tile>, key: Tile -> real)
    ensures |SortBy(s, key)| == |s|
    ensures forall t :: t in SortBy(s, key) <==> t in s
    ensures NoDuplicates(s) ==> NoDuplicates(SortBy(s, key))
  {
    var r := SortBy(s, key);
    assert |r| == |multiset(r)| == |multiset(s)| == |s|;
    forall t
      ensures t in r <==> t in s
    {
      assert t in r <==> t in multiset(r);
      assert t in s <==> t in multiset(s);
    }
  }

  // ---------------------------------------------------------------------
  // The whole operation: walk, page, sort
  // ---------------------------------------------------------------------

  /** Why the walk fails: the offset divided by a zero width (the
      `ArithmeticException` of zoom -1), or the envelope of a zoom level
      that has none read as soon as a tile is examined (a null
      dereference). */
  datatype WalkError = DivisionByZero | NoEnvelope(zoom: int)

  /** The failure the walk as written meets, if any. `width` is the width
      the source divides by: the rectangle's, or 0 for zoom -1. */
  function WalkFailure(r: TileRect, width: int, z: int, start: int, env: Option<Envelope>, pageSize: int): Option<WalkError>
    requires width != 0 ==> width == Width(r)
  {
    if start > 0 && width == 0 then Some(DivisionByZero)
    else if env.None? && pageSize > 0 && ReadsEnvelope(Candidates(r, z, start)) then Some(NoEnvelope(z))
    else None
  }

  /** The failure the corrected walk meets, if any. */
  function CorrectedWalkFailure(r: TileRect, width: int, z: int, start: int, env: Option<Envelope>, pageSize: int): Option<WalkError>
    requires width != 0 ==> width == Width(r)
  {
    if start > 0 && width == 0 then Some(DivisionByZero)
    else if env.None? && pageSize > 0 && ReadsEnvelope(CorrectedCandidates(r, z, start)) then Some(NoEnvelope(z))
    else None
  }

  /** Whether the bounds check reads the envelope for some tile of the walk:
      it tests the row against 0 first, so rows above the grid never reach
      the envelope. */
  predicate ReadsEnvelope(walk: seq<Tile>) {
    exists k :: 0 <= k < |walk| && walk[k].y >= 0
  }

  /** Along an increasing walk the rows never go back up, so the last tile
      decides whether any tile reaches the envelope. */
  lemma LastRowDecides(walk: seq<Tile>)
    requires Increasing(walk)
    ensures ReadsEnvelope(walk) <==> |walk| > 0 && walk[|walk| - 1].y >= 0
  {
    if ReadsEnvelope(walk) {
      var k :| 0 <= k < |walk| && walk[k].y >= 0;
      if k < |walk| - 1 {
        assert Before(walk[k], walk[|walk| - 1]);
      }
    }
  }

  /** The walk as written visits tiles exactly when the offset is short of
      the number of tiles in the rectangle. */
  lemma WalkEmpty(r: TileRect, z: int, start: int)
    requires NonEmpty(r)
    ensures |Candidates(r, z, start)| == 0 <==> start >= Height(r) * Width(r)
  {
    var h, w := Height(r), Width(r);
    PositiveProduct(h, w);
    var y, x := RowStart(r, start), ColStart(r, start);
    if start < h * w {
      if start > 0 {
        CancelFactor(h, y - r.minY, w);
      }
      CandidatesMembership(r, z, start, Tile(x, y, z));
    } else {
      QuotientAtLeast(start, h, w);
    }
  }

  /** The corrected walk visits tiles exactly when the offset is short of
      the number of tiles in the rectangle. */
  lemma CorrectedWalkEmpty(r: TileRect, z: int, start: int)
    requires NonEmpty(r)
    ensures |CorrectedCandidates(r, z, start)| == 0 <==> start >= Height(r) * Width(r)
  {
    var h, w := Height(r), Width(r);
    PositiveProduct(h, w);
    if start <= 0 {
      assert CorrectedCandidates(r, z, start)[0] == Tile(r.minX, r.minY, z);
    } else if start < h * w {
      CorrectedWalkIsSuffix(r, z, start);
    } else {
      QuotientAtLeast(start, h, w);
    }
  }

  lemma PositiveProduct(h: int, w: int)
    requires h > 0 && w > 0
    ensures h * w >= w && h * w > 0
  {
  }

  lemma QuotientAtLeast(a: int, h: int, w: int)
    requires h > 0 && w > 0 && a >= h * w
    ensures a / w >= h
  {
    var q, m := a / w, a % w;
    assert a == q * w + m && m < w;
    assert (q + 1) * w == q * w + w;
    CancelFactor(q + 1, h, w);
  }

  lemma CancelFactor(x: int, y: int, w: int)
    requires w > 0
    ensures x * w > y * w ==> x > y
  {
    if x <= y {
      assert x * w <= y * w;
    }
  }

  /** The whole operation as the source writes it: the page of existing
      tiles the nested loops collect from the `start`-th tile on, every row
      restarting at the offset's column, ordered nearest `centre` first; or
      the failure the source meets. */
  method SortedPageWalk(r: TileRect, width: int, z: int, start: int, env: Option<Envelope>, pageSize: int, centre: Point)
    returns (res: Result<seq<Tile>, WalkError>)
    requires width != 0 ==> width == Width(r)
    ensures res.Err? <==> WalkFailure(r, width, z, start, env, pageSize).Some?
    ensures res.Err? ==> res.error == WalkFailure(r, width, z, start, env, pageSize).value
    ensures res.Ok? ==> |res.value| <= if pageSize < 0 then 0 else pageSize
    ensures res.Ok? ==> forall t :: t in res.value ==> InRect(t, r) && t.z == z && env.Some? && Live(t, env.value)
    ensures res.Ok? ==> NoDuplicates(res.value)
    ensures res.Ok? ==> SortedBy(res.value, t => Key(centre, t))
    ensures res.Ok? && env.Some? ==>
              multiset(res.value) == multiset(Page(Candidates(r, z, start), env.value, pageSize))
  {
    if start > 0 && width == 0 {
      return Err(DivisionByZero);
    }
    if env.None? {
      var walk := Candidates(r, z, start);
      RowsIncreasing(RowStart(r, start), r.maxY, ColStart(r, start), r.maxX, z);
      LastRowDecides(walk);
      if pageSize > 0 && |walk| > 0 && walk[|walk| - 1].y >= 0 {
        return Err(NoEnvelope(z));
      }
      // every tile examined fails the row test first, so the missing
      // envelope is never read
      return Ok([]);
    }
    var tiles := CollectPage(r, z, start, env.value, pageSize);
    PageBounds(r, z, start, env.value, pageSize);
    PageHasNoDuplicates(r, z, start, env.value, pageSize);
    var key := t => Key(centre, t);
    var sorted := SortBy(tiles, key);
    SortKeepsTiles(tiles, key);
    res := Ok(sorted);
  }

  /** The whole operation with the offset walk corrected: the page of
      existing tiles from the `start`-th tile of the rectangle on, ordered
      nearest `centre` first; or the failure it meets. */
  method SortedCorrectedPageWalk(r: TileRect, width: int, z: int, start: int, env: Option<Envelope>, pageSize: int, centre: Point)
    returns (res: Result<seq<Tile>, WalkError>)
    requires width != 0 ==> width == Width(r)
    ensures res.Err? <==> CorrectedWalkFailure(r, width, z, start, env, pageSize).Some?
    ensures res.Err? ==> res.error == CorrectedWalkFailure(r, width, z, start, env, pageSize).value
    ensures res.Ok? ==> |res.value| <= if pageSize < 0 then 0 else pageSize
    ensures res.Ok? ==> forall t :: t in res.value ==> InRect(t, r) && t.z == z && env.Some? && Live(t, env.value)
    ensures res.Ok? ==> NoDuplicates(res.value)
    ensures res.Ok? ==> SortedBy(res.value, t => Key(centre, t))
    ensures res.Ok? && env.Some? ==>
              multiset(res.value) == multiset(Page(CorrectedCandidates(r, z, start), env.value, pageSize))
  {
    if start > 0 && width == 0 {
      return Err(DivisionByZero);
    }
    if env.None? {
      var walk := CorrectedCandidates(r, z, start);
      CorrectedWalkOrdered(r, z, start);
      LastRowDecides(walk);
      if pageSize > 0 && |walk| > 0 && walk[|walk| - 1].y >= 0 {
        return Err(NoEnvelope(z));
      }
      return Ok([]);
    }
    var tiles := CollectCorrectedPage(r, z, start, env.value, pageSize);
    CorrectedPageBounds(r, z, start, env.value, pageSize);
    CorrectedPageHasNoDuplicates(r, z, start, env.value, pageSize);
    var key := t => Key(centre, t);
    var sorted := SortBy(tiles, key);
    SortKeepsTiles(tiles, key);
    res := Ok(sorted);
  }
}
